=== FILE: README.md ===
# Scilab exam system: the submission lifecycle

This project models the path a student's code takes through the exam system. It runs from
the exam page's run button to the graded result on the student's screen and in the
administrator's results table.

- **Exam routes** (`server/routes/exam.js`): the student's questions, gated on the exam being
  open; grading a quiz answer; the per-question execution counter and its quota of five;
  queueing a run as a `pending` submission; saving without running; reading a result;
  blocking and checking a block; and the finish-exam totals.
- **Agent routes** (`server/routes/agent.js`): an execution worker claims the first pending
  submission of its mode (optionally restricted to one user) and marks it `running`. It
  reports the output, the image and the status. The server then grades a completed run with
  the question's full points.
- **Executor** (`executor/index.js`): the worker's configuration and poll headers, and the
  poll loop that always reschedules itself. For one job it writes the script and the
  optional input, builds the interpreter command line and classifies the outcome. The
  outcome is `completed`, `failed`, or `failed` with a timeout note. The worker collects the
  first PNG, posts the payload and then removes the workspace, whether or not the post
  succeeded. Failures of the file system itself are not modelled (see "Left out").
- **Admin routes** (`server/routes/admin.js`): starting and stopping an exam, lifting a
  block, and creating student accounts in bulk (`<name>@klu.ac.in`, password = name).
- **Admin page** (`client/src/pages/Admin.jsx`): the start/stop toggle, parsing the username
  box, and the per-student results table (coding sum, quiz sum, total).
- **Exam page** (`client/src/pages/Exam.jsx`): the client-side counter and disabled run
  button, the headers each request carries, handling the run-code response, and the result
  poller.
- **Authentication** (`server/routes/exam.js`, `requireAuth`): a student request passes only
  with a `Bearer` token that the account service resolves to a user. The account service is
  an oracle.
- **Lifecycle**: end-to-end properties tying the modules together. A fresh run is claimed;
  a completed run becomes visible with full points; a timed-out run fails with the note;
  no job ever returns to `pending`; in a sequential run of polls, reports, runs and saves, a
  claimed job is never handed out again, and a job whose question is missing stays `running`
  until some report names it.

The database is modelled as sequences of rows:

- **Submissions.** A `Db` holds the `submissions` table and the next identifier. The
  `exams`, `coding_questions`, `quiz_questions`, `quiz_submissions` and `blocked_students`
  tables are sequences of their own row types.
- **Single-row lookups.** A PostgREST `.single()` lookup yields a value only when exactly
  one row matched (`Common.Single`).
- **Falsy values.** JavaScript `x || fallback` and truthiness of nullable strings are
  explicit (`Common.OrDefault`, `Common.Truthy`, `Common.OrZero`).
- **Outside effects.** The clock, generated user ids, the account service, the process
  runner and the file listing are parameters. The worker's side effects are returned as an
  ordered trace of `Executor.Effect` values.

Behaviour worth noting:

- The quota counts every row of the user for the question, including rows saved without
  running (`ExamRoutes.SavesExhaustQuota`).
- The result route accepts a report in any state, and the last report wins
  (`AgentRoutes.LastReportWins`).
- The worker runs one job at a time and never retries.
- A status is any string the worker sends. Statuses are compared by their text, so a status
  spelled like one of the five lifecycle names behaves as that name.
- A quiz question's type is any text in its `type` column. Grading compares that text, so
  only `mcq`, `true_false` and `short` are graded, and any other type scores 0.

## Model

| member | source | states |
|---|---|---|
| Common.Single | server/routes/exam.js:33-41 | a `.single()` lookup yields a row exactly when one row matched, and that row is one of the matches |
| Common.OrDefault | executor/index.js:10-12 | `value \|\| fallback` on a nullable string: the value when it is present and non-empty, otherwise the fallback |
| Text.Trim | server/routes/exam.js:83 | `trim` leaves no white space at either end |
| Text.TrimEmpty | client/src/pages/Admin.jsx:205 | a string trims to empty exactly when it is all white space |
| Text.TrimIgnoresPadding | server/routes/exam.js:83 | white space added around a string does not change its trimmed form |
| Text.TrimLower | server/routes/exam.js:83 | trimming and lower-casing commute |
| Text.LowerIdempotent | server/routes/exam.js:83 | lower-casing twice is lower-casing once |
| Text.Split | client/src/pages/Admin.jsx:208 | `split('\n')` yields at least one piece and no piece contains a newline |
| Text.JoinSplit | client/src/pages/Admin.jsx:208 | joining the pieces of a split with the separator gives back the original text |
| Text.SplitKeepsChars | client/src/pages/Admin.jsx:208 | every non-separator character ends up in some piece |
| Text.NatToStringValue | server/routes/admin.js:257-260 | the decimal text of a count reads back as that count |
| Text.SplitNoSep | client/src/pages/Admin.jsx:208 | text without the separator splits into itself alone |
| Text.SplitAfterPiece | client/src/pages/Admin.jsx:208 | a piece followed by the separator splits off as the first piece |
| Text.SplitJoin | server/routes/admin.js:257-260 | pieces without the separator, joined with it, split back into the same pieces |
| Schema.ParseStatus | server/routes/agent.js:88-97 | any status string the worker sends is stored and reads back unchanged |
| Schema.ParseStatusName | server/routes/agent.js:88-97 | the five lifecycle statuses round-trip through their names |
| Schema.ParseQuizType | server/routes/exam.js:79-81 | any text in a question's `type` column is a quiz type and reads back unchanged |
| Schema.ParseQuizTypeName | server/routes/exam.js:79-81 | the three graded types round-trip through their names |
| ExamRoutes.GetQuestions | server/routes/exam.js:29-64 | missing or duplicate exam is not found; an inactive one is refused; otherwise exactly the exam's questions are listed, without solution, test cases or correct answer |
| ExamRoutes.ProjectCoding | server/routes/exam.js:47-51 | the listed coding questions are exactly the views of the exam's questions |
| ExamRoutes.ProjectQuiz | server/routes/exam.js:53-57 | the listed quiz questions are exactly the views of the exam's questions |
| ExamRoutes.SubmitQuiz | server/routes/exam.js:67-102 | unknown question is an error; otherwise the stored row is correct exactly when the answer matches under the question type's rule, and scores full points or nothing |
| ExamRoutes.ExactAnswerIsCorrect | server/routes/exam.js:79-84 | the stored correct answer is always accepted when the type's text is `mcq`, `true_false` or `short` |
| ExamRoutes.ShortAnswerIgnoresPaddingAndCase | server/routes/exam.js:82-84 | a short answer is graded the same with surrounding white space or lower-cased |
| ExamRoutes.ShortRule | server/routes/exam.js:81-82 | a `short` answer is correct exactly when its trimmed, lower-cased form equals that of the stored answer |
| ExamRoutes.McqIsCaseSensitive | server/routes/exam.js:80-81 | a multiple-choice or true/false answer is correct exactly when it equals the stored answer's text, so the lower-cased form of an answer with capitals is wrong |
| ExamRoutes.IsCorrectBySpelling | server/routes/exam.js:79-83 | two quiz types with the same text are graded alike, because the route compares the `type` column's text |
| ExamRoutes.UngradedTypeNeverCorrect | server/routes/exam.js:78-83 | a type whose text is not `mcq`, `true_false` or `short` is never graded correct |
| ExamRoutes.AttemptsNone | server/routes/exam.js:140-145 | the quota count never exceeds the rows, and is 0 exactly when the user has no row for the question |
| ExamRoutes.TotalUpdate | server/routes/exam.js:126-130 | replacing one count entry changes the total by the difference |
| ExamRoutes.KeyIndex | server/routes/exam.js:129 | finds the first entry for a question, or reports that none exists |
| ExamRoutes.Bump | server/routes/exam.js:129 | `counts[q] = (counts[q] \|\| 0) + 1`: q gains one, other keys are unchanged, a new key goes last, keys stay distinct |
| ExamRoutes.Tally | server/routes/exam.js:126-130 | the counts add up to the number of the user's rows in the exam |
| ExamRoutes.TallyDistinct | server/routes/exam.js:126-130 | each question appears once in the counts |
| ExamRoutes.TallyCountsExact | server/routes/exam.js:126-130 | every listed count is the question's positive quota count |
| ExamRoutes.TallyHasKey | server/routes/exam.js:126-130 | a question with a row appears in the counts |
| ExamRoutes.TallyCoversQuestions | server/routes/exam.js:126-130 | every question with a row appears in the counts |
| ExamRoutes.SubmissionCounts | server/routes/exam.js:105-133 | a missing user header is a 400; otherwise keys are exactly the questions with rows, each count equals the quota count and the total equals the user's rows |
| ExamRoutes.Insert | server/routes/exam.js:154-166 | inserting a row with the next identifier keeps identifiers unique and below the counter |
| ExamRoutes.RunCode | server/routes/exam.js:136-174 | refused with the limit message, changing nothing, exactly when five rows exist; otherwise one pending row is appended with the request's fields and default mode, and `remaining` is five minus the new count |
| ExamRoutes.SaveCode | server/routes/exam.js:177-199 | appends a `submitted` row with the fixed output and score 0 and no mode; it adds one to the quota count |
| ExamRoutes.SavesExhaustQuota | server/routes/exam.js:140-151 | five saves without running use up the run quota |
| ExamRoutes.QuotaSequence | server/routes/exam.js:140-173 | on an empty table the fourth and fifth runs report 1 and 0 remaining, and the sixth is refused and writes nothing |
| ExamRoutes.RunStep | server/routes/exam.js:140-173 | below the quota a run is accepted with the next identifier, one fewer remaining, and one more row counted |
| ExamRoutes.GetResult | server/routes/exam.js:202-213 | a result exists exactly when one row has the identifier, and it shows that row's status, output, score and image |
| ExamRoutes.CheckBlocked | server/routes/exam.js:216-232 | a missing user header is a 400; otherwise blocked exactly when one block row matches; no reason when not blocked |
| ExamRoutes.BlockUser | server/routes/exam.js:235-245 | the upsert leaves exactly one row for the pair, with the new reason, and keeps every other row |
| ExamRoutes.BlockIdempotent | server/routes/exam.js:238-241 | blocking twice with the same reason is blocking once |
| ExamRoutes.CheckBlockedIffRow | server/routes/exam.js:222-231 | with the table keyed by (exam, user), a user is reported blocked exactly when a block row exists |
| ExamRoutes.KeyedFilterAtMostOne | server/routes/exam.js:222-227 | a keyed table has at most one row per pair |
| ExamRoutes.NoneMatch | server/routes/exam.js:222-231 | a pair with no row has no block rows |
| ExamRoutes.LatestRow | server/routes/exam.js:274-283 | the chosen row is the user's row for the question with the greatest creation time; none exactly when no row exists |
| ExamRoutes.FinishExam | server/routes/exam.js:248-296 | the total is the quiz score plus the coding score, the quiz score sums the user's quiz rows and the coding score takes each question's latest row; a user with no rows in the exam gets 0, 0, 0 |
| ExamRoutes.QuizTotal | server/routes/exam.js:252-260 | no quiz row of the user in the exam gives 0; scores that are never negative give a total that is not negative |
| ExamRoutes.QuizTotalAppend | server/routes/exam.js:252-260 | a new quiz row adds its `score \|\| 0` exactly when it is the user's row in the exam |
| ExamRoutes.QuestionScore | server/routes/exam.js:274-287 | no row of the user for the question gives 0; scores that are never negative give a score that is not negative |
| ExamRoutes.QuestionScoreIsNewest | server/routes/exam.js:274-287 | when the user has a row for the question, the score is `score \|\| 0` of a row at least as new as every other such row |
| ExamRoutes.QuestionScoreOtherRow | server/routes/exam.js:274-287 | a row of another user, exam or question does not change the question's score |
| ExamRoutes.CodingTotal | server/routes/exam.js:264-288 | no row of the user in the exam gives 0; scores that are never negative give a total that is not negative |
| ExamRoutes.CodingTotalOtherRow | server/routes/exam.js:264-288 | a row of another user or exam does not change the coding score |
| ExamRoutes.NewRowShare | server/routes/exam.js:274-287 | a row newer than the user's earlier rows for its question becomes that question's score and leaves the other questions' scores alone |
| ExamRoutes.CodingTotalNewRow | server/routes/exam.js:264-288 | a newer row for a listed question replaces that question's share of the coding score with its own `score \|\| 0`; a row for an unlisted question changes nothing |
| ExamRoutes.FinishExamNewRun | server/routes/exam.js:248-296 | a newer run of a listed question keeps the quiz score and moves the coding and total scores from the old latest score to the new one |
| ExamRoutes.FinishExamIgnoresOthers | server/routes/exam.js:248-296 | rows of other users or exams, coding or quiz, do not change the totals |
| ExamRoutes.NewestRowDecides | server/routes/exam.js:271-288 | a row newer than all earlier rows for its question alone decides that question's score |
| ExamRoutes.LatestNotMaxNotSum | server/routes/exam.js:271-288 | scores 3, 0, 5 in time order count as 5: the latest row decides, not the best or the sum |
| AgentRoutes.MarkRunning | server/routes/agent.js:36-40 | the claimed row becomes `running` with nothing else changed, and other rows are untouched |
| AgentRoutes.Claim | server/routes/agent.js:15-58 | no candidate gives no job and no change; otherwise the first pending row of the mode (and user filter) is marked running; a missing question is a 404; the job carries the row and the question's test cases and solution |
| AgentRoutes.ClaimIsExclusive | server/routes/agent.js:15-58 | a job once claimed is not handed out by the next claim, in any mode; `Lifecycle.NeverReclaimed` extends this to every later claim |
| AgentRoutes.CandidatesInOrder | server/routes/agent.js:19-34 | the candidates are exactly the table's pending rows of the mode (and user filter), and the job handed out is the first of them in table order |
| AgentRoutes.CandidateBySpelling | server/routes/agent.js:19-23 | two statuses with the same text are treated alike by the pending filter |
| AgentRoutes.FinalScoreBySpelling | server/routes/agent.js:80-86 | two statuses with the same text are graded alike, and the text `completed` earns the question's points |
| AgentRoutes.FinalScore | server/routes/agent.js:80-86 | a run whose status reads `completed`, of an existing question, scores its points; otherwise the reported score or 0 |
| AgentRoutes.Overwrite | server/routes/agent.js:88-97 | the row with the job's identifier takes the reported output, image, status and score, and nothing else about it changes; every other row stays as it was |
| AgentRoutes.Report | server/routes/agent.js:61-101 | unknown or duplicate job is a 404 with no change; otherwise only that row's output, image, status and graded score change |
| AgentRoutes.SameIdsSameMatches | server/routes/agent.js:65-69 | tables with the same identifiers match an identifier the same number of times |
| AgentRoutes.OnlyMatch | server/routes/agent.js:65-69 | the single row with an identifier is the row at its position |
| AgentRoutes.OverwriteTwice | server/routes/agent.js:88-97 | a second update of the same row replaces the first |
| AgentRoutes.LastReportWins | server/routes/agent.js:61-101 | reporting twice leaves the table as the second report alone would |
| AgentRoutes.WorkerScoreIsGradedByServer | server/routes/agent.js:80-86 | with the worker's score of 0, a completed run scores the question's points and anything else scores 0 |
| Executor.LoadConfig | executor/index.js:10-12 | the agent key and mode are the environment's values when set and non-empty, otherwise `secret` and `server`; the user filter is taken as given |
| Executor.PollHeaders | executor/index.js:17-26 | key and mode headers always, the user filter header exactly when one is set |
| Common.HeaderValue | server/routes/agent.js:16-17 | a header read finds a sent header of that name, or none exists |
| Auth.RequireAuth | server/routes/exam.js:6-26 | a request passes, as the token's user, exactly when it carries a `Bearer` token that the account service resolves; no token gives "No authorization token provided", an unknown token "Invalid or expired token", and a failing service "Authentication failed" |
| Auth.BearerRoundTrip | server/routes/exam.js:8-14 | the server reads back exactly the token the client put after `Bearer `, so the request passes exactly when that token names a user |
| Executor.ServerReadsPollHeaders | server/routes/agent.js:16-27 | the server sees the worker's mode and filters by its user exactly when one is configured |
| Executor.ResponseOf | executor/index.js:28-35 | the worker receives the claimed job; a 404 reply is a failed poll |
| Executor.Poll | executor/index.js:15-41 | every outcome schedules the next poll after 2000 ms; a job is processed only when one was received |
| Executor.CommandShapes | executor/index.js:53-62 | with non-empty input the command pipes the input file into the same interpreter command; empty input counts as none; the script path ends the command |
| Executor.Command | executor/index.js:53-62 | the command starts with `type ` exactly when the job has non-empty input, and always ends by running the script file |
| Executor.Invocation | executor/index.js:53-62 | the same for an interpreter at any path |
| Executor.InvocationShapes | executor/index.js:53-62 | with input the command is the pipe from the input file followed by the command without input |
| Executor.ScriptTail | executor/index.js:47-62 | the command's last argument is the quoted `script.sci` path in the workspace |
| Executor.InputHead | executor/index.js:54-59 | the pipe reads the quoted `input.txt` path in the workspace |
| Executor.Workspace | executor/index.js:44 | the workspace is `<base>\temp\` followed by the job identifier's decimal digits |
| Executor.WorkspacesDistinct | executor/index.js:44 | two jobs never share a workspace |
| Executor.FirstPng | executor/index.js:76-84 | the image is the first listed `.png` file, and none exactly when no file is a PNG |
| Executor.Classify | executor/index.js:64-92 | completed exactly on normal exit, with stdout then stderr and the first PNG; failed on error, with no image and the timeout note appended exactly when killed |
| Executor.SetupEffects | executor/index.js:44-56 | creates the workspace and writes the script, then the input file exactly when input is non-empty |
| Executor.RunEffects | executor/index.js:70-84 | starts with the command and writes no file; an error ends the run phase at once |
| Executor.ScriptIsNotInput | executor/index.js:47-55 | the script and the input are different files |
| Executor.ProcessJob | executor/index.js:43-112 | the effect trace starts with the workspace and script, includes the input exactly when non-empty, and ends with the post then the cleanup; the payload carries the job id, the classified outcome and score 0 |
| Executor.EffectsShape | executor/index.js:43-112 | the effects are set-up, run, post, cleanup, in that order, with the input file written exactly when the job has input |
| Executor.InputWrittenIffGiven | executor/index.js:53-57 | the input file is written exactly when the job's input is non-empty |
| Executor.CompletedPayload | executor/index.js:70-105 | a normal exit posts `completed`, stdout+stderr, the first PNG and score 0 |
| Executor.TimeoutReport | executor/index.js:85-105 | a killed run posts `failed`, the streams plus the timeout note, no image and score 0 |
| AdminRoutes.SetActive | server/routes/admin.js:142-146 | exams with the id take the new flag; every other exam and every id and title are unchanged |
| AdminRoutes.UpdateExam | server/routes/admin.js:139-164 | the reply is the first updated exam with the new flag, and nothing when the id is unknown |
| AdminRoutes.StartExam | server/routes/admin.js:139-150 | the exam with the id becomes active, others are unchanged, and the reply is the activated exam or nothing |
| AdminRoutes.StopExam | server/routes/admin.js:153-164 | the exam with the id becomes inactive, others are unchanged, and the reply is the deactivated exam or nothing |
| AdminRoutes.SetActiveLookup | server/routes/admin.js:142-146 | looking an exam up after the update finds the same rows with the new flag |
| AdminRoutes.StartedExamServesQuestions | server/routes/admin.js:139-150 | after a start, the exam's questions are served |
| AdminRoutes.StoppedExamRefusesQuestions | server/routes/admin.js:153-164 | after a stop, the exam's questions are refused as inactive |
| AdminRoutes.UnknownExamStaysUnknown | server/routes/admin.js:139-164 | starting or stopping an unknown exam does not make it exist |
| AdminRoutes.LastToggleWins | server/routes/admin.js:139-164 | of two toggles, only the second counts |
| AdminRoutes.UnblockUser | server/routes/admin.js:184-195 | removes exactly the rows of the (exam, user) pair and keeps all others |
| AdminRoutes.UnblockClears | server/routes/admin.js:184-195 | after an unblock the user is reported not blocked, with no reason |
| AdminRoutes.FilterIgnoresDropped | server/routes/admin.js:187-191 | a delete gives the same table whatever the deleted rows held |
| AdminRoutes.UnblockUndoesBlock | server/routes/admin.js:184-195 | blocking then unblocking leaves the table as unblocking alone would |
| AdminRoutes.NewUserFor | server/routes/admin.js:233-245 | the account's email is the username at `@klu.ac.in`, its password is the username, confirmed, with role `student` |
| AdminRoutes.CreatedUsers | server/routes/admin.js:231-255 | lists no more accounts than attempts |
| AdminRoutes.CreatedUsersAreSuccesses | server/routes/admin.js:231-255 | the accounts created so far are one per success, in order, each the account its username asked for |
| AdminRoutes.CreateOne | server/routes/admin.js:232-254 | one attempt succeeds exactly when the account service accepts, recording the email and the new id; otherwise it records the error |
| AdminRoutes.CreateAll | server/routes/admin.js:231-255 | one outcome per username, in order |
| AdminRoutes.CreateAllCalls | server/routes/admin.js:231-255 | the i-th attempt sees exactly the accounts created before it |
| AdminRoutes.Successes | server/routes/admin.js:249-251 | lists only created outcomes |
| AdminRoutes.Failures | server/routes/admin.js:247-253 | lists only failed outcomes |
| AdminRoutes.AppendOutcome | server/routes/admin.js:247-253 | a new outcome joins exactly one of the two lists, at its end |
| AdminRoutes.AppendCreated | server/routes/admin.js:249-251 | a success adds its account to the created accounts and a failure adds none |
| AdminRoutes.PartitionSizes | server/routes/admin.js:225-255 | successes plus failures account for every username |
| AdminRoutes.PartitionIsPermutation | server/routes/admin.js:225-255 | successes and failures together are a permutation of the outcomes |
| AdminRoutes.CreateAllStep | server/routes/admin.js:231-255 | one more username adds one attempt made after all earlier ones |
| AdminRoutes.CreateStudents | server/routes/admin.js:218-261 | a missing, non-array or empty list is a 400 with its message; otherwise the reply lists successes and failures in order and says "Created N out of M accounts" |
| AdminRoutes.CreateCountsAddUp | server/routes/admin.js:257-260 | the two counts in the message add up and read back as the numbers they print |
| AdminRoutes.Summary | server/routes/admin.js:257-260 | the message has six words, `Created N out of M accounts`, and N and M are decimal numerals that read back as the two counts |
| AdminRoutes.SummaryWords | server/routes/admin.js:257-260 | the message splits at spaces into exactly its six words |
| AdminRoutes.SummaryPieces | server/routes/admin.js:257-260 | the message is its six words joined by single spaces |
| AdminRoutes.JoinSix | server/routes/admin.js:257-260 | six words joined by a separator, written out |
| AdminRoutes.AllAccepted | server/routes/admin.js:231-255 | when the account service accepts everything, every username is created and nothing fails |
| AdminPage.ToggleEndpoint | client/src/pages/Admin.jsx:100-101 | an active exam is stopped and an inactive one started |
| AdminPage.ToggleExam | client/src/pages/Admin.jsx:100-104 | the toggle calls the stop route for an active exam and the start route otherwise |
| AdminPage.ToggleFlipsAccess | client/src/pages/Admin.jsx:100-104 | a toggle turns served questions into refused ones and back |
| AdminPage.TrimAll | client/src/pages/Admin.jsx:208 | every line is trimmed, in place |
| AdminPage.TrimmedLine | client/src/pages/Admin.jsx:208 | a trimmed line is empty or a clean name |
| AdminPage.CleanNames | client/src/pages/Admin.jsx:208 | every non-blank trimmed line of the box is a clean name |
| AdminPage.ParseUsernames | client/src/pages/Admin.jsx:204-210 | a blank box alerts; otherwise it sends a non-empty list of clean names, which is the box's lines, trimmed, with the empty ones dropped, in order |
| AdminPage.UsernamesAreLines | client/src/pages/Admin.jsx:204-210 | a box that is all white space alerts; otherwise the names sent are exactly the trimmed non-blank lines: every such line gives a name and every name comes from one |
| AdminPage.NonBlankLinesKept | client/src/pages/Admin.jsx:208 | every non-blank line gives its trimmed form as a name |
| AdminPage.KeptNamesFromLines | client/src/pages/Admin.jsx:208 | every name is the trimmed form of a non-blank line |
| AdminPage.SecondAlertUnreachable | client/src/pages/Admin.jsx:205-210 | the "valid usernames" alert can never show, because the first check already catches it |
| AdminPage.LineWithNameSurvives | client/src/pages/Admin.jsx:208 | a line holding a non-space character leaves a name after trimming and filtering |
| AdminPage.CreateAlert | client/src/pages/Admin.jsx:218-224 | success shows the server's message; a 400 shows the fixed failure text |
| AdminPage.Tag | client/src/pages/Admin.jsx:258-278 | marks each row with the list it came from |
| AdminPage.FirstOf | client/src/pages/Admin.jsx:259-276 | the first row of a user, and nothing when the user has no row |
| AdminPage.Users | client/src/pages/Admin.jsx:256-280 | the distinct users, covering every row, each with a first row; `AdminPage.UsersInFirstAppearanceOrder` states the order |
| AdminPage.UsersInFirstAppearanceOrder | client/src/pages/Admin.jsx:256-280 | of two listed users, the earlier has a row before any row of the later: the order of first appearance |
| AdminPage.IndexOf | client/src/pages/Admin.jsx:259 | the user's entry, or none |
| AdminPage.SumOfAbsent | client/src/pages/Admin.jsx:266-277 | a user without rows sums to 0 |
| AdminPage.AppendSameUser | client/src/pages/Admin.jsx:259-277 | a new row of a user adds its score to the right sum and keeps the first row |
| AdminPage.AppendOtherUser | client/src/pages/Admin.jsx:259-277 | a new row of another user changes nothing for this user |
| AdminPage.NewEntry | client/src/pages/Admin.jsx:259-266 | a user's first row gives an entry with that row's score in its own column, its email and time |
| AdminPage.DescribesOther | client/src/pages/Admin.jsx:259-277 | a row of another user leaves an entry correct |
| AdminPage.ExistingEntry | client/src/pages/Admin.jsx:266-277 | a later row of a user adds its score to the right column and keeps the entry correct |
| AdminPage.AbsorbNew | client/src/pages/Admin.jsx:259-266 | a first row creates a correct entry for its user |
| AdminPage.AbsorbExisting | client/src/pages/Admin.jsx:266-277 | a later row adds to its user's entry and keeps it correct |
| AdminPage.AbsorbStep | client/src/pages/Admin.jsx:258-278 | each row keeps the table correct |
| AdminPage.AbsorbOneRow | client/src/pages/Admin.jsx:258-278 | one row changes only its own user's entry, adds that user's entry at the end when new, adds its `score \|\| 0` to the total, and leaves the other column alone |
| AdminPage.FoldDescribes | client/src/pages/Admin.jsx:255-281 | the table has one entry per user, in the order of `Users`, with their sums and first row |
| AdminPage.SumOfTag | client/src/pages/Admin.jsx:266-277 | a list's rows count only towards their own column |
| AdminPage.SumOfConcat | client/src/pages/Admin.jsx:258-278 | scanning two lists one after the other sums both |
| AdminPage.ScannedSums | client/src/pages/Admin.jsx:258-278 | the coding and quiz columns are the sums over the coding and quiz rows |
| AdminPage.StudentResultsScores | client/src/pages/Admin.jsx:255-281 | one entry per student; coding, quiz and total columns are the sums of `score \|\| 0`; email and last active come from the student's first row |
| AdminPage.RowHasLine | client/src/pages/Admin.jsx:258-278 | every row's user has an entry |
| AdminPage.StudentResultsInOrder | client/src/pages/Admin.jsx:255-281 | the table lists students in order of first appearance, coding rows before quiz rows, as `Object.values` returns string keys in insertion order |
| AdminPage.StudentResultsCoverAll | client/src/pages/Admin.jsx:255-281 | every student with a coding or quiz row appears in the table |
| ExamPage.CountsOf | client/src/pages/Exam.jsx:73-76 | the stored object has exactly the reply's questions as keys |
| ExamPage.CountsOfEntry | client/src/pages/Exam.jsx:73-76 | each key holds its entry's count |
| ExamPage.LoadedCountsInSync | client/src/pages/Exam.jsx:66-77 | counts loaded from the server equal the server's quota count for every question |
| ExamPage.DisabledMatchesServer | client/src/pages/Exam.jsx:205-206 | in step with the server, the counter shown is the server's count for the question, and the button is disabled exactly when the server would refuse the run |
| ExamPage.RunCodeHeaders | client/src/pages/Exam.jsx:128-133 | the run request as written carries no authorization header |
| ExamPage.ResultPollHeaders | client/src/pages/Exam.jsx:159 | the result poll as written carries no authorization header |
| ExamPage.QuizAnswerHeaders | client/src/pages/Exam.jsx:172-174 | the quiz answer as written carries no authorization header |
| ExamPage.WithBearer | client/src/pages/Exam.jsx:47-48 | the headers with the session's token as a bearer token, as the page's other requests send them |
| ExamPage.RunRequestIsRefused | client/src/pages/Exam.jsx:128-150 | as written, a run below the limit is refused with "No authorization token provided", which the page shows as an error, with the counter unchanged and no poller |
| ExamPage.AuthorizedRunReachesRoute | client/src/pages/Exam.jsx:115-155 | with the bearer token a signed-in student's run passes, the page refuses exactly when the server does, and an accepted run keeps both counters equal |
| ExamPage.QuizAnswerIsRefused | client/src/pages/Exam.jsx:170-181 | as written, every quiz answer is refused before it is graded |
| ExamPage.AuthorizedQuizAnswerIsGraded | client/src/pages/Exam.jsx:170-181 | with the bearer token a signed-in student's answer passes, and a graded answer stores that answer for that user |
| ExamPage.PressRun | client/src/pages/Exam.jsx:115-125 | the run button alerts the limit message exactly when the counter reaches five; otherwise the page shows a queued job |
| ExamPage.ResponseOf | client/src/pages/Exam.jsx:142-149 | a refused run is an error with the server's message; an accepted one carries the job id |
| ExamPage.OnRunResponse | client/src/pages/Exam.jsx:142-158 | an error shows the message and keeps the counter; an accepted job adds one to the current question only and starts polling it |
| ExamPage.AttemptsAppend | server/routes/exam.js:140-145 | a new row adds one to its own question's count and nothing elsewhere |
| ExamPage.RunKeepsSync | client/src/pages/Exam.jsx:115-155 | the page refuses exactly when the server does, and an accepted run leaves both counters equal |
| ExamPage.PollTick | client/src/pages/Exam.jsx:158-167 | the poller stops exactly when the status is neither pending nor running, showing the result; a failed lookup also stops it, with nothing to show |
| ExamPage.ApplyTick | client/src/pages/Exam.jsx:161-166 | a stop clears the interval and shows the status, output and image, and keeps the counter |
| ExamPage.PollerWaitsForWorker | client/src/pages/Exam.jsx:158-167 | the poller keeps going exactly while the job is pending or running |
| ExamPage.ResultPollIsRefused | client/src/pages/Exam.jsx:158-167 | as written, the poll is refused, its body has no status, and the first tick stops the poller with nothing to show |
| ExamPage.AuthorizedPollReachesRoute | client/src/pages/Exam.jsx:158-167 | with the bearer token the poll passes and keeps going exactly while the job is pending or running |
| Lifecycle.ClaimKeepsValid | server/routes/agent.js:36-40 | claiming keeps identifiers unique |
| Lifecycle.UniqueAt | server/routes/exam.js:205-209 | with unique identifiers, each row is the one match of its identifier |
| Lifecycle.ReportedResultIsVisible | server/routes/agent.js:88-97 | a report on an existing job is accepted, and the result route shows the reported status, output and image with the graded score |
| Lifecycle.OnlyCandidate | server/routes/agent.js:19-29 | a newly queued row in an otherwise idle queue is the only candidate |
| Lifecycle.ClaimSoleCandidate | server/routes/agent.js:34-57 | a sole candidate with a known question is handed out and marked running |
| Lifecycle.FreshJobIsClaimed | server/routes/exam.js:153-173 | a run queued into an idle queue is the next job the default worker claims, with the student's code and no input |
| Lifecycle.ReportedPayloadIsVisible | executor/index.js:95-105 | what the worker posts is what the student's result route returns |
| Lifecycle.CompletedRunIsGraded | server/routes/agent.js:80-97 | run, claim, normal exit and report give a `completed` result with stdout+stderr, the question's full points and the first PNG, and the page's poller stops and shows it |
| Lifecycle.CompletedJobIsGraded | server/routes/agent.js:80-97 | a claimed job that exits normally is shown as `completed` with full points, and the poller stops on it |
| Lifecycle.TimedOutRunFails | executor/index.js:85-92 | run, claim, timeout and report give a `failed` result with the timeout note, score 0 and no image |
| Lifecycle.TimedOutJobFails | executor/index.js:85-105 | a claimed job that is killed is shown as `failed` with the timeout note, score 0 and no image |
| Lifecycle.NoReturnToPending | server/routes/agent.js:36-40 | neither a claim nor a worker's report puts any row back to `pending` |
| Lifecycle.StuckJobStaysRunning | server/routes/agent.js:36-49 | a job whose question is missing is marked running, the worker processes nothing, and the next claim does not return it; `Lifecycle.StuckJobNeverResumes` covers every later claim |
| Lifecycle.NeverReclaimed | server/routes/agent.js:15-58 | in a sequential run of claims, runs, saves and worker reports after a claim, the job stays out of `pending`, is no later poll's candidate in any mode, and no later claim hands it out |
| Lifecycle.StuckJobNeverResumes | server/routes/agent.js:36-49 | a job left running by a missing question stays `running` through any sequential run with no report for it, and no later claim hands it out |
| Lifecycle.LeftQueueStays | server/routes/agent.js:36-40 | a job out of the queue stays out through any run whose reports carry `completed` or `failed` |
| Lifecycle.RunningStays | server/routes/agent.js:36-40 | a running job stays running through any run with no report for it |
| Lifecycle.NotACandidate | server/routes/agent.js:19-34 | a job out of the queue is no poll's candidate, in any mode or filter |

## Left out

- Authentication on the admin and agent routes: `isAdmin` lets every request through, and `requireAgentAuth` never rejects a key, so those routes are modelled without them. The student routes' `requireAuth` is modelled (`Auth.RequireAuth`). The exam routes' functions and the `Lifecycle` lemmas describe a request that has passed it, which is what the corrected page sends (see "Findings").
- `requireAuth` attaches the token's user to the request, but no route reads it; the routes take the user from the body or a header, and so does the model.
- Executor.ProcessJob: models only runs whose file-system calls succeed. If `ensureDir` or `writeFile` throws (executor/index.js:44-56), the exception leaves `processJob` before the post and the cleanup. The poll loop logs it, and the job stays `running`. If `readdir` or `readFile` throws after a normal exit (executor/index.js:77-81), the catch block posts `failed` with the output `undefinedundefined`. Neither path is modelled.
- Executor.Workspace: the job identifier is taken as its decimal text. `path.join` accepts only strings, so an identifier that arrives as a number makes the source throw before the workspace exists; the model does not follow that.
- AdminRoutes.CreatedUsers: its own contract only bounds the length. Which accounts it lists, one per success in order, is stated by `AdminRoutes.CreatedUsersAreSuccesses`, kept apart so that the proofs using `CreatedUsers` stay small.
- ExamRoutes.CodingTotalNewRow and ExamRoutes.FinishExamNewRun are stated for a question listed at most once (exactly once for FinishExamNewRun). Question identifiers are the table's key, so a question is never listed twice.
- Database errors (the 500 replies) are left out. Every query is modelled as succeeding, except `.single()` lookups, whose no-row and many-row cases are modelled.
- The network, timers (`setTimeout`, `setInterval`), the file system and the child process are left out. They become parameters (`ExecResult`, `FileEntry` lists, the account service oracle, `now`) or an effect trace. The ten-second timeout shows only as the `killed` flag.
- Base64 encoding of the image is left out. Images stay as bytes, because the encoding is a pure transport step.
- Lower-casing covers ASCII letters only, because full Unicode case mapping is not modelled.
- The upsert conflict target of `quiz_submissions` is not part of the source shown. `ExamRoutes.SubmitQuiz` returns the row that is written and does not model the merge.
- ExamRoutes.BlockUser: the upsert (server/routes/exam.js:238-241) passes no `onConflict`, and the table's key is not part of the source shown. The model assumes the conflict target is (exam_id, user_id), so a block replaces the pair's row. `ExamRoutes.BlockIdempotent` holds only under that assumption. If the table were keyed by a separate id instead, a second block would add a second row for the pair. check-blocked's `.single()` would then fail with `PGRST116`, and the student would be reported as not blocked (`Common.Single` gives none for two rows).
- AdminPage.StudentResultsInOrder: assumes user ids are not integer-like. `Object.values` lists integer-like keys first, in numeric order. The ids are the account service's UUIDs, so they never are.
- Lifecycle.NeverReclaimed: the run's reports must carry `completed` or `failed`, the statuses the worker sends. The report route stores any status, so a report of `pending` would requeue the job.
- Selects without `.order()` are modelled as returning rows in table order. This covers the claim route taking `data[0]` (server/routes/agent.js:19-34) and the start and stop routes replying with `data[0]` (server/routes/admin.js:142-160). The database does not promise that order.
- Question and exam CRUD, listing results and blocked users, PDF export, local storage, and the fullscreen and tab-visibility blocking in the page are left out, because they are not on the submission path.
- JavaScript object key order for integer-like keys is left out. `ExamRoutes.SubmissionCounts` lists keys in first-row order.
- A thrown `createUser` exception and a returned error are one case (`AuthError`), because both append `{username, error: message}`.
- Client-side failures are left out: a rejected `fetch` or a non-JSON body. The result interval is never cleared by an error, and the model does not follow it beyond `ExamPage.PollTick`.
- Concurrency is left out. Two workers could race between select and update in the claim route; the model applies requests one at a time.
- Admin.jsx reads `r.email` from submission rows that have no such column. `AdminPage.ResultRow` keeps an optional email, and the table falls back to the id.
- `ExamRoutes.LatestRow`: when rows tie on creation time, the model does not fix which one the database returns. It only states that the chosen row has the greatest time.
- `ExamPage.PressRun`: the page sends neither `input` nor `execution_mode`. Every client run therefore goes to the default `server` worker with no input.

## Findings

| source | as written | input that shows it | evidently intended | confidence | as-written member | corrected member |
|---|---|---|---|---|---|---|
| client/src/pages/Exam.jsx:128-133 | the run request sends only the content type; its `Authorization` line is commented out, and `/run-code` sits behind `requireAuth` | any run below the limit: the reply is 401 "No authorization token provided", the page shows it as an error and no job is queued | send `Bearer <access token>`, as the page's question and count requests do | high (not executed) | ExamPage.RunRequestIsRefused | ExamPage.AuthorizedRunReachesRoute |
| client/src/pages/Exam.jsx:159 | the result poll calls `fetch` with no options, so no token reaches `/result/:id` behind `requireAuth` | any poll: the 401 body has no `status`, so the first tick stops the poller and shows nothing | send the bearer token on the poll | high (not executed) | ExamPage.ResultPollIsRefused | ExamPage.AuthorizedPollReachesRoute |
| client/src/pages/Exam.jsx:172-174 | the quiz answer sends only the content type to `/submit-quiz` behind `requireAuth` | any answer: refused with 401, never graded or stored | send the bearer token with the answer | high (not executed) | ExamPage.QuizAnswerIsRefused | ExamPage.AuthorizedQuizAnswerIsGraded |

=== FILE: admin_page.dfy ===
/** The administrator page of `client/src/pages/Admin.jsx`: toggling an
    exam, preparing a bulk account request from the text box, and the
    per-student results table. */
module AdminPage {
  import opened Common
  import opened Text
  import opened Schema
  import ExamRoutes
  import AdminRoutes

  // ---------------------------------------------------------------------
  // toggleExamStatus

  /** The route the toggle button calls: stop an active exam, start an
      inactive one. */
  function ToggleEndpoint(exam: Exam): (r: string)
    ensures r == "stop-exam" <==> exam.isActive
    ensures r == "start-exam" <==> !exam.isActive
  {
    if exam.isActive then "stop-exam" else "start-exam"
  }

  /** What the chosen route does on the server. */
  function ToggleExam(exams: seq<Exam>, exam: Exam): (u: AdminRoutes.ExamUpdate)
    ensures ToggleEndpoint(exam) == "start-exam" ==> u == AdminRoutes.StartExam(exams, exam.id)
    ensures ToggleEndpoint(exam) == "stop-exam" ==> u == AdminRoutes.StopExam(exams, exam.id)
  {
    if ToggleEndpoint(exam) == "stop-exam" then AdminRoutes.StopExam(exams, exam.id)
    else AdminRoutes.StartExam(exams, exam.id)
  }

  /** Toggling the exam the page shows flips whether students can load its
      questions. */
  lemma ToggleFlipsAccess(exams: seq<Exam>, coding: seq<CodingQuestion>, quiz: seq<QuizQuestion>, exam: Exam)
    requires ExamRoutes.ExamsWithId(exams, exam.id) == [exam]
    ensures var before := ExamRoutes.GetQuestions(exams, coding, quiz, exam.id);
            var after := ExamRoutes.GetQuestions(ToggleExam(exams, exam).exams, coding, quiz, exam.id);
            && (before.Questions? <==> after.ExamInactive?)
            && (before.ExamInactive? <==> after.Questions?)
  {
    if exam.isActive {
      AdminRoutes.StoppedExamRefusesQuestions(exams, coding, quiz, exam.id);
    } else {
      AdminRoutes.StartedExamServesQuestions(exams, coding, quiz, exam.id);
    }
  }

  // ---------------------------------------------------------------------
  // createStudents

  const NoUsernames := "Please enter at least one username"
  const NoValidUsernames := "Please enter valid usernames"

  /** What pressing the button does: show an alert, or send the names. */
  datatype CreateAction = Alert(message: string) | Send(usernames: seq<string>)

  function TrimAll(lines: seq<string>): (r: seq<string>)
    ensures |r| == |lines|
    ensures forall i :: 0 <= i < |lines| ==> r[i] == Trim(lines[i])
  {
    seq(|lines|, i requires 0 <= i < |lines| => Trim(lines[i]))
  }

  function NonEmpty(lines: seq<string>): seq<string> {
    Filter(lines, (u: string) => |u| > 0)
  }

  /** A name the page may send: non-empty, a single line, and without
      surrounding white space. */
  predicate CleanName(u: string) {
    |u| > 0 && !IsSpace(u[0]) && !IsSpace(u[|u| - 1]) && '\n' !in u
  }

  /** Trimming one line of the box gives a clean name or nothing. */
  lemma TrimmedLine(line: string)
    requires '\n' !in line
    ensures |Trim(line)| > 0 ==> CleanName(Trim(line))
  {
    var t := TrimStart(line);
    assert forall c :: c in t ==> c in line;
    assert forall c :: c in TrimEnd(t) ==> c in t;
  }

  /** One username per line of the text box, trimmed, blank lines dropped. */
  function ParseUsernames(text: string): (a: CreateAction)
    ensures a == Alert(NoUsernames) <==> AllSpace(text)
    ensures a.Send? ==> |a.usernames| > 0
    ensures a.Send? ==> forall i :: 0 <= i < |a.usernames| ==> CleanName(a.usernames[i])
    ensures a.Send? ==> a.usernames == NonEmpty(TrimAll(Split(text, '\n')))
  {
    TrimEmpty(text);
    if Trim(text) == "" then Alert(NoUsernames)
    else
      var lines := Split(text, '\n');
      var names := NonEmpty(TrimAll(lines));
      CleanNames(lines);
      if |names| == 0 then Alert(NoValidUsernames) else Send(names)
  }

  /** The non-blank trimmed lines of the box are clean names. */
  lemma CleanNames(lines: seq<string>)
    requires forall k :: 0 <= k < |lines| ==> '\n' !in lines[k]
    ensures forall i :: 0 <= i < |NonEmpty(TrimAll(lines))| ==> CleanName(NonEmpty(TrimAll(lines))[i])
  {
    var trimmed := TrimAll(lines);
    forall k | 0 <= k < |trimmed| ensures |trimmed[k]| > 0 ==> CleanName(trimmed[k]) {
      TrimmedLine(lines[k]);
    }
    var names := NonEmpty(trimmed);
    forall i | 0 <= i < |names| ensures CleanName(names[i]) {
      assert names[i] in trimmed && |names[i]| > 0;
    }
  }

  /** The second alert never shows: text that is not blank has a character
      that is neither white space nor a line break, and the line holding it
      survives trimming. */
  lemma SecondAlertUnreachable(text: string)
    ensures ParseUsernames(text) != Alert(NoValidUsernames)
  {
    TrimEmpty(text);
    if !AllSpace(text) {
      var i :| 0 <= i < |text| && !IsSpace(text[i]);
      var lines := Split(text, '\n');
      SplitKeepsChars(text, '\n', i);
      var k :| 0 <= k < |lines| && text[i] in lines[k];
      LineWithNameSurvives(lines, k, text[i]);
      assert ParseUsernames(text) == Send(NonEmpty(TrimAll(lines)));
    }
  }

  /** `name` is what trimming one of the non-blank `lines` gives. */
  predicate TrimmedFromLine(lines: seq<string>, name: string) {
    exists k :: 0 <= k < |lines| && !AllSpace(lines[k]) && name == Trim(lines[k])
  }

  /** The names sent are exactly the box's non-blank lines, trimmed: every
      such line gives a name, and every name comes from such a line. */
  lemma UsernamesAreLines(text: string)
    ensures AllSpace(text) ==> ParseUsernames(text) == Alert(NoUsernames)
    ensures !AllSpace(text) ==> ParseUsernames(text).Send?
    ensures !AllSpace(text) ==> forall k :: 0 <= k < |Split(text, '\n')| && !AllSpace(Split(text, '\n')[k]) ==>
      Trim(Split(text, '\n')[k]) in ParseUsernames(text).usernames
    ensures !AllSpace(text) ==> forall name :: name in ParseUsernames(text).usernames ==>
      TrimmedFromLine(Split(text, '\n'), name)
  {
    if !AllSpace(text) {
      SecondAlertUnreachable(text);
      var lines := Split(text, '\n');
      NonBlankLinesKept(lines);
      KeptNamesFromLines(lines);
    }
  }

  /** Every non-blank line gives its trimmed form as a name. */
  lemma NonBlankLinesKept(lines: seq<string>)
    ensures forall k :: 0 <= k < |lines| && !AllSpace(lines[k]) ==> Trim(lines[k]) in NonEmpty(TrimAll(lines))
  {
    var trimmed := TrimAll(lines);
    forall k | 0 <= k < |lines| && !AllSpace(lines[k]) ensures Trim(lines[k]) in NonEmpty(trimmed) {
      TrimEmpty(lines[k]);
      assert |trimmed[k]| > 0;
    }
  }

  /** Every name is the trimmed form of a non-blank line. */
  lemma KeptNamesFromLines(lines: seq<string>)
    ensures forall name :: name in NonEmpty(TrimAll(lines)) ==> TrimmedFromLine(lines, name)
  {
    forall name | name in NonEmpty(TrimAll(lines)) ensures TrimmedFromLine(lines, name) {
      var trimmed := TrimAll(lines);
      assert name in trimmed && |name| > 0;
      var k :| 0 <= k < |trimmed| && trimmed[k] == name;
      TrimEmpty(lines[k]);
      assert !AllSpace(lines[k]) && name == Trim(lines[k]);
    }
  }

  /** A line holding a character that is not white space leaves a name. */
  lemma LineWithNameSurvives(lines: seq<string>, k: nat, c: char)
    requires k < |lines| && c in lines[k] && !IsSpace(c)
    ensures |NonEmpty(TrimAll(lines))| > 0
  {
    TrimEmpty(lines[k]);
    assert !AllSpace(lines[k]);
    var trimmed := TrimAll(lines);
    assert |trimmed[k]| > 0;
    assert trimmed[k] in NonEmpty(trimmed);
  }

  /** What the page shows once the server answers. */
  function CreateAlert(reply: ExamRoutes.Reply<AdminRoutes.CreateResult>): (m: string)
    ensures reply.Ok? ==> m == reply.body.message
    ensures reply.BadRequest? ==> m == "Failed to create students"
  {
    match reply
    case Ok(body) => body.message
    case BadRequest(_) => "Failed to create students"
  }

  // ---------------------------------------------------------------------
  // getStudentResults

  /** The columns of a coding or quiz submission the results table reads. */
  datatype ResultRow = ResultRow(user: string, email: Option<string>, score: Option<int>, createdAt: int)

  datatype Origin = FromCoding | FromQuiz

  datatype Tagged = Tagged(row: ResultRow, origin: Origin)

  function Tag(rows: seq<ResultRow>, origin: Origin): (r: seq<Tagged>)
    ensures |r| == |rows|
    ensures forall i :: 0 <= i < |rows| ==> r[i] == Tagged(rows[i], origin)
  {
    seq(|rows|, i requires 0 <= i < |rows| => Tagged(rows[i], origin))
  }

  /** The order the page visits rows in: all coding rows, then all quiz rows. */
  function Scanned(coding: seq<ResultRow>, quiz: seq<ResultRow>): seq<Tagged> {
    Tag(coding, FromCoding) + Tag(quiz, FromQuiz)
  }

  /** Σ (score || 0) over a user's rows. */
  function Sum(rows: seq<ResultRow>, user: string): int
    decreases |rows|
  {
    if |rows| == 0 then 0
    else
      var last := rows[|rows| - 1];
      Sum(rows[..|rows| - 1], user) + (if last.user == user then OrZero(last.score) else 0)
  }

  /** Σ (score || 0) over a user's rows of one origin. */
  function SumOf(rows: seq<Tagged>, user: string, origin: Origin): int
    decreases |rows|
  {
    if |rows| == 0 then 0
    else
      var last := rows[|rows| - 1];
      SumOf(rows[..|rows| - 1], user, origin)
      + (if last.row.user == user && last.origin == origin then OrZero(last.row.score) else 0)
  }

  /** The first row of the user, if any. */
  function FirstOf(rows: seq<Tagged>, user: string): (r: Option<ResultRow>)
    ensures r.None? <==> forall j :: 0 <= j < |rows| ==> rows[j].row.user != user
    ensures r.Some? ==> r.value.user == user
    ensures r.Some? ==>
      exists j :: 0 <= j < |rows| && rows[j].row == r.value && forall k :: 0 <= k < j ==> rows[k].row.user != user
    decreases |rows|
  {
    if |rows| == 0 then None
    else
      var prefix := rows[..|rows| - 1];
      var p := FirstOf(prefix, user);
      assert forall k :: 0 <= k < |prefix| ==> rows[k] == prefix[k];
      if p.Some? then
        var j :| 0 <= j < |prefix| && prefix[j].row == p.value && forall k :: 0 <= k < j ==> prefix[k].row.user != user;
        assert rows[j].row == p.value && forall k :: 0 <= k < j ==> rows[k].row.user != user;
        p
      else if rows[|rows| - 1].row.user == user then Some(rows[|rows| - 1].row)
      else None
  }

  /** The users of the rows, each once, in order of first appearance. */
  function Users(rows: seq<Tagged>): (r: seq<string>)
    ensures forall a, b :: 0 <= a < b < |r| ==> r[a] != r[b]
    ensures forall j :: 0 <= j < |rows| ==> rows[j].row.user in r
    ensures forall k :: 0 <= k < |r| ==> FirstOf(rows, r[k]).Some?
    decreases |rows|
  {
    if |rows| == 0 then []
    else
      var prefix := rows[..|rows| - 1];
      var u := rows[|rows| - 1].row.user;
      var p := Users(prefix);
      assert forall j :: 0 <= j < |prefix| ==> rows[j] == prefix[j];
      if FirstOf(prefix, u).None? then p + [u] else p
  }

  /** User `v` has a row before any row of user `w`. */
  predicate FirstSeenBefore(rows: seq<Tagged>, v: string, w: string) {
    exists j :: 0 <= j < |rows| && rows[j].row.user == v && forall k :: 0 <= k <= j ==> rows[k].row.user != w
  }

  /** A longer table keeps an order its prefix already shows. */
  lemma SeenBeforeExtend(rows: seq<Tagged>, v: string, w: string)
    requires |rows| > 0 && FirstSeenBefore(rows[..|rows| - 1], v, w)
    ensures FirstSeenBefore(rows, v, w)
  {
    var prefix := rows[..|rows| - 1];
    var j :| 0 <= j < |prefix| && prefix[j].row.user == v && forall k :: 0 <= k <= j ==> prefix[k].row.user != w;
    assert forall k :: 0 <= k <= j ==> rows[k] == prefix[k];
  }

  /** A user present in the prefix is seen before a last row's user who is
      not. */
  lemma SeenBeforeLast(rows: seq<Tagged>, v: string)
    requires |rows| > 0
    requires FirstOf(rows[..|rows| - 1], v).Some? && FirstOf(rows[..|rows| - 1], rows[|rows| - 1].row.user).None?
    ensures FirstSeenBefore(rows, v, rows[|rows| - 1].row.user)
  {
    var prefix := rows[..|rows| - 1];
    var first := FirstOf(prefix, v);
    var j :| 0 <= j < |prefix| && prefix[j].row == first.value && forall k :: 0 <= k < j ==> prefix[k].row.user != v;
    assert forall k :: 0 <= k <= j ==> rows[k] == prefix[k];
  }

  /** The users are listed in order of first appearance: the earlier of two
      listed users has a row before any row of the later one. */
  lemma {:induction false} UsersInFirstAppearanceOrder(rows: seq<Tagged>, a: nat, b: nat)
    requires a < b < |Users(rows)|
    ensures FirstSeenBefore(rows, Users(rows)[a], Users(rows)[b])
    decreases |rows|
  {
    var prefix := rows[..|rows| - 1];
    var u := rows[|rows| - 1].row.user;
    var p := Users(prefix);
    assert Users(rows) == if FirstOf(prefix, u).None? then p + [u] else p;
    if b < |p| {
      assert Users(rows)[a] == p[a] && Users(rows)[b] == p[b];
      UsersInFirstAppearanceOrder(prefix, a, b);
      SeenBeforeExtend(rows, p[a], p[b]);
    } else {
      assert Users(rows)[a] == p[a] && Users(rows)[b] == u;
      SeenBeforeLast(rows, p[a]);
    }
  }

  /** One line of the results table. */
  datatype Student = Student(id: string, email: Option<string>, codingScore: int, quizScore: int, lastActive: int)

  /** The Total column. */
  function Total(s: Student): int {
    s.codingScore + s.quizScore
  }

  /** Where the user's entry sits, or the length when there is none. */
  function IndexOf(students: seq<Student>, id: string): (k: nat)
    ensures k <= |students|
    ensures k < |students| ==> students[k].id == id
    ensures k == |students| ==> forall j :: 0 <= j < |students| ==> students[j].id != id
    decreases |students|
  {
    if |students| == 0 then 0
    else if students[0].id == id then 0
    else 1 + IndexOf(students[1..], id)
  }

  /** One `forEach` step: create the user's entry from this row when it is
      missing, then add the row's score to the matching column. */
  function Absorb(students: seq<Student>, t: Tagged): seq<Student> {
    var k := IndexOf(students, t.row.user);
    var add := OrZero(t.row.score);
    var s := if k < |students| then students[k]
             else Student(t.row.user, t.row.email, 0, 0, t.row.createdAt);
    var s' := if t.origin == FromCoding then s.(codingScore := s.codingScore + add)
              else s.(quizScore := s.quizScore + add);
    if k < |students| then students[k := s'] else students + [s']
  }

  /** One row touches one entry: its user's, found or appended at the end.
      That entry's total grows by the row's score, in the row's own column,
      and every other entry is unchanged. */
  lemma AbsorbOneRow(students: seq<Student>, t: Tagged)
    ensures var r := Absorb(students, t);
      var k := IndexOf(students, t.row.user);
      && |r| == (if k < |students| then |students| else |students| + 1)
      && r[k].id == t.row.user
      && (forall j :: 0 <= j < |students| && j != k ==> r[j] == students[j])
      && Total(r[k]) == (if k < |students| then Total(students[k]) else 0) + OrZero(t.row.score)
      && (t.origin == FromCoding ==> r[k].quizScore == (if k < |students| then students[k].quizScore else 0))
      && (t.origin == FromQuiz ==> r[k].codingScore == (if k < |students| then students[k].codingScore else 0))
  {
  }

  function Fold(rows: seq<Tagged>): seq<Student>
    decreases |rows|
  {
    if |rows| == 0 then [] else Absorb(Fold(rows[..|rows| - 1]), rows[|rows| - 1])
  }

  /** `Object.values(students)` after both loops. */
  function StudentResults(coding: seq<ResultRow>, quiz: seq<ResultRow>): seq<Student> {
    Fold(Scanned(coding, quiz))
  }

  /** An entry agrees with the rows: its two scores are the user's sums and
      its email and last-active time come from the user's first row. */
  predicate Describes(s: Student, rows: seq<Tagged>) {
    && s.codingScore == SumOf(rows, s.id, FromCoding)
    && s.quizScore == SumOf(rows, s.id, FromQuiz)
    && FirstOf(rows, s.id).Some?
    && s.email == FirstOf(rows, s.id).value.email
    && s.lastActive == FirstOf(rows, s.id).value.createdAt
  }

  predicate FoldInvariant(students: seq<Student>, rows: seq<Tagged>) {
    && |students| == |Users(rows)|
    && forall k :: 0 <= k < |students| ==> students[k].id == Users(rows)[k] && Describes(students[k], rows)
  }

  lemma {:induction false} SumOfAbsent(rows: seq<Tagged>, user: string, origin: Origin)
    requires forall j :: 0 <= j < |rows| ==> rows[j].row.user != user
    ensures SumOf(rows, user, origin) == 0
    decreases |rows|
  {
    if |rows| > 0 {
      SumOfAbsent(rows[..|rows| - 1], user, origin);
    }
  }

  /** Appending a row: the sums and first row of that row's user. */
  lemma AppendSameUser(prefix: seq<Tagged>, x: Tagged, origin: Origin)
    ensures SumOf(prefix + [x], x.row.user, origin)
            == SumOf(prefix, x.row.user, origin) + (if x.origin == origin then OrZero(x.row.score) else 0)
    ensures FirstOf(prefix + [x], x.row.user)
            == if FirstOf(prefix, x.row.user).Some? then FirstOf(prefix, x.row.user) else Some(x.row)
    ensures Users(prefix + [x])
            == if FirstOf(prefix, x.row.user).None? then Users(prefix) + [x.row.user] else Users(prefix)
  {
    assert (prefix + [x])[..|prefix|] == prefix;
  }

  /** Appending a row changes nothing about any other user. */
  lemma AppendOtherUser(prefix: seq<Tagged>, x: Tagged, v: string)
    requires v != x.row.user
    ensures SumOf(prefix + [x], v, FromCoding) == SumOf(prefix, v, FromCoding)
    ensures SumOf(prefix + [x], v, FromQuiz) == SumOf(prefix, v, FromQuiz)
    ensures FirstOf(prefix + [x], v) == FirstOf(prefix, v)
  {
    assert (prefix + [x])[..|prefix|] == prefix;
  }

  /** A row of a user with no entry yet appends a fresh entry. */
  lemma AbsorbNew(prefix: seq<Tagged>, x: Tagged)
    requires FoldInvariant(Fold(prefix), prefix)
    requires IndexOf(Fold(prefix), x.row.user) == |Fold(prefix)|
    ensures FoldInvariant(Fold(prefix + [x]), prefix + [x])
  {
    var rows := prefix + [x];
    assert rows[..|rows| - 1] == prefix;
    var acc := Fold(prefix);
    var u := x.row.user;
    var r := Fold(rows);
    assert r == Absorb(acc, x);
    assert FirstOf(prefix, u).None? by {
      forall j | 0 <= j < |prefix| ensures prefix[j].row.user != u {
        assert prefix[j].row.user in Users(prefix);
      }
    }
    NewEntry(prefix, x);
    assert |r| == |acc| + 1 && r[..|acc|] == acc;
    assert r[|acc|].id == u && Describes(r[|acc|], rows);
    forall k | 0 <= k < |acc| ensures r[k].id == Users(rows)[k] && Describes(r[k], rows) {
      assert r[k] == acc[k] && Users(rows)[k] == Users(prefix)[k];
      DescribesOther(acc[k], prefix, x);
    }
  }

  /** The entry a user's first row creates describes the longer list. */
  lemma NewEntry(prefix: seq<Tagged>, x: Tagged)
    requires FirstOf(prefix, x.row.user).None?
    ensures var add := OrZero(x.row.score);
            var s := Student(x.row.user, x.row.email, 0, 0, x.row.createdAt);
            var s' := if x.origin == FromCoding then s.(codingScore := add) else s.(quizScore := add);
            && Describes(s', prefix + [x])
            && Users(prefix + [x]) == Users(prefix) + [x.row.user]
  {
    AppendSameUser(prefix, x, FromCoding);
    AppendSameUser(prefix, x, FromQuiz);
    SumOfAbsent(prefix, x.row.user, FromCoding);
    SumOfAbsent(prefix, x.row.user, FromQuiz);
  }

  /** A row of another user leaves an entry correct. */
  lemma DescribesOther(s: Student, prefix: seq<Tagged>, x: Tagged)
    requires Describes(s, prefix) && s.id != x.row.user
    ensures Describes(s, prefix + [x])
  {
    AppendOtherUser(prefix, x, s.id);
  }

  /** A later row of a user adds its score to that user's entry, which stays
      correct. */
  lemma ExistingEntry(s: Student, prefix: seq<Tagged>, x: Tagged)
    requires Describes(s, prefix) && s.id == x.row.user
    ensures var add := OrZero(x.row.score);
            var s' := if x.origin == FromCoding then s.(codingScore := s.codingScore + add)
                      else s.(quizScore := s.quizScore + add);
            && Describes(s', prefix + [x])
            && Users(prefix + [x]) == Users(prefix)
  {
    AppendSameUser(prefix, x, FromCoding);
    AppendSameUser(prefix, x, FromQuiz);
  }

  /** A row of a user with an entry adds to that entry alone. */
  lemma AbsorbExisting(prefix: seq<Tagged>, x: Tagged)
    requires FoldInvariant(Fold(prefix), prefix)
    requires IndexOf(Fold(prefix), x.row.user) < |Fold(prefix)|
    ensures FoldInvariant(Fold(prefix + [x]), prefix + [x])
  {
    var rows := prefix + [x];
    assert rows[..|rows| - 1] == prefix;
    var acc := Fold(prefix);
    var u := x.row.user;
    var k := IndexOf(acc, u);
    var r := Fold(rows);
    assert r == Absorb(acc, x);
    ExistingEntry(acc[k], prefix, x);
    assert r == acc[k := r[k]];
    forall j | 0 <= j < |r| ensures r[j].id == Users(rows)[j] && Describes(r[j], rows) {
      if j != k {
        assert Users(prefix)[j] != Users(prefix)[k];
        DescribesOther(acc[j], prefix, x);
      }
    }
  }

  /** The step of the fold keeps the invariant. */
  lemma AbsorbStep(prefix: seq<Tagged>, x: Tagged)
    requires FoldInvariant(Fold(prefix), prefix)
    ensures FoldInvariant(Fold(prefix + [x]), prefix + [x])
  {
    if IndexOf(Fold(prefix), x.row.user) == |Fold(prefix)| {
      AbsorbNew(prefix, x);
    } else {
      AbsorbExisting(prefix, x);
    }
  }

  lemma {:induction false} FoldDescribes(rows: seq<Tagged>)
    ensures FoldInvariant(Fold(rows), rows)
    decreases |rows|
  {
    if |rows| > 0 {
      var prefix := rows[..|rows| - 1];
      FoldDescribes(prefix);
      AbsorbStep(prefix, rows[|rows| - 1]);
      assert prefix + [rows[|rows| - 1]] == rows;
    }
  }

  lemma {:induction false} SumOfTag(rows: seq<ResultRow>, user: string, origin: Origin, other: Origin)
    requires other != origin
    ensures SumOf(Tag(rows, origin), user, origin) == Sum(rows, user)
    ensures SumOf(Tag(rows, origin), user, other) == 0
    decreases |rows|
  {
    if |rows| > 0 {
      SumOfTag(rows[..|rows| - 1], user, origin, other);
      assert Tag(rows, origin)[..|rows| - 1] == Tag(rows[..|rows| - 1], origin);
    }
  }

  lemma {:induction false} SumOfConcat(a: seq<Tagged>, b: seq<Tagged>, user: string, origin: Origin)
    ensures SumOf(a + b, user, origin) == SumOf(a, user, origin) + SumOf(b, user, origin)
    decreases |b|
  {
    if |b| == 0 {
      assert a + b == a;
    } else {
      SumOfConcat(a, b[..|b| - 1], user, origin);
      assert (a + b)[..|a + b| - 1] == a + b[..|b| - 1];
    }
  }

  /** The coding and quiz columns of the scan are the sums over the coding
      rows and over the quiz rows. */
  lemma ScannedSums(coding: seq<ResultRow>, quiz: seq<ResultRow>, u: string)
    ensures SumOf(Scanned(coding, quiz), u, FromCoding) == Sum(coding, u)
    ensures SumOf(Scanned(coding, quiz), u, FromQuiz) == Sum(quiz, u)
  {
    SumOfConcat(Tag(coding, FromCoding), Tag(quiz, FromQuiz), u, FromCoding);
    SumOfConcat(Tag(coding, FromCoding), Tag(quiz, FromQuiz), u, FromQuiz);
    SumOfTag(coding, u, FromCoding, FromQuiz);
    SumOfTag(quiz, u, FromQuiz, FromCoding);
  }

  /** The results table: one line per student, in order of first appearance
      (coding rows first), with that student's coding and quiz sums, and
      email and last-active time from the student's first row. */
  lemma StudentResultsScores(coding: seq<ResultRow>, quiz: seq<ResultRow>)
    ensures var table := StudentResults(coding, quiz);
      && (forall a, b :: 0 <= a < b < |table| ==> table[a].id != table[b].id)
      && (forall k :: 0 <= k < |table| ==>
            && table[k].codingScore == Sum(coding, table[k].id)
            && table[k].quizScore == Sum(quiz, table[k].id)
            && Total(table[k]) == Sum(coding, table[k].id) + Sum(quiz, table[k].id)
            && FirstOf(Scanned(coding, quiz), table[k].id).Some?
            && table[k].email == FirstOf(Scanned(coding, quiz), table[k].id).value.email
            && table[k].lastActive == FirstOf(Scanned(coding, quiz), table[k].id).value.createdAt)
  {
    var table := StudentResults(coding, quiz);
    FoldDescribes(Scanned(coding, quiz));
    forall k | 0 <= k < |table|
      ensures table[k].codingScore == Sum(coding, table[k].id)
      ensures table[k].quizScore == Sum(quiz, table[k].id)
    {
      ScannedSums(coding, quiz, table[k].id);
    }
  }

  lemma RowHasLine(rows: seq<Tagged>, j: nat)
    requires j < |rows|
    ensures exists k :: 0 <= k < |Fold(rows)| && Fold(rows)[k].id == rows[j].row.user
  {
    FoldDescribes(rows);
    var users := Users(rows);
    assert rows[j].row.user in users;
    var k :| 0 <= k < |users| && users[k] == rows[j].row.user;
    assert Fold(rows)[k].id == rows[j].row.user;
  }

  /** The table lists students in order of first appearance, coding rows
      before quiz rows, as `Object.values` returns string keys in insertion
      order: an earlier entry's user has a row before any row of a later
      entry's user. */
  lemma StudentResultsInOrder(coding: seq<ResultRow>, quiz: seq<ResultRow>, a: nat, b: nat)
    requires a < b < |StudentResults(coding, quiz)|
    ensures var table := StudentResults(coding, quiz);
            FirstSeenBefore(Scanned(coding, quiz), table[a].id, table[b].id)
  {
    var rows := Scanned(coding, quiz);
    FoldDescribes(rows);
    UsersInFirstAppearanceOrder(rows, a, b);
  }

  /** Every student with a coding or a quiz row has a line in the table. */
  lemma StudentResultsCoverAll(coding: seq<ResultRow>, quiz: seq<ResultRow>)
    ensures var table := StudentResults(coding, quiz);
      && (forall j :: 0 <= j < |coding| ==> exists k :: 0 <= k < |table| && table[k].id == coding[j].user)
      && (forall j :: 0 <= j < |quiz| ==> exists k :: 0 <= k < |table| && table[k].id == quiz[j].user)
  {
    var rows := Scanned(coding, quiz);
    assert StudentResults(coding, quiz) == Fold(rows);
    forall j | 0 <= j < |coding|
      ensures exists k :: 0 <= k < |Fold(rows)| && Fold(rows)[k].id == coding[j].user
    {
      assert rows[j].row == coding[j];
      RowHasLine(rows, j);
    }
    forall j | 0 <= j < |quiz|
      ensures exists k :: 0 <= k < |Fold(rows)| && Fold(rows)[k].id == quiz[j].user
    {
      assert rows[|coding| + j].row == quiz[j];
      RowHasLine(rows, |coding| + j);
    }
  }
}

=== FILE: admin_routes.dfy ===
/** The administrator routes of `server/routes/admin.js` that act on the
    submission lifecycle: opening and closing an exam, lifting a block, and
    creating student accounts in bulk. The `isAdmin` guard lets every request
    through and is not modelled. */
module AdminRoutes {
  import opened Common
  import opened Text
  import opened Schema
  import ExamRoutes

  // ---------------------------------------------------------------------
  // POST /start-exam/:id and POST /stop-exam/:id

  /** `update({is_active: active}).eq('id', id)` on the `exams` table. */
  function SetActive(exams: seq<Exam>, id: string, active: bool): (r: seq<Exam>)
    ensures |r| == |exams|
    ensures forall i :: 0 <= i < |exams| ==> r[i].id == exams[i].id && r[i].title == exams[i].title
    ensures forall i :: 0 <= i < |exams| && exams[i].id != id ==> r[i] == exams[i]
    ensures forall i :: 0 <= i < |exams| && exams[i].id == id ==> r[i].isActive == active
    decreases |exams|
  {
    if |exams| == 0 then []
    else [if exams[0].id == id then exams[0].(isActive := active) else exams[0]] + SetActive(exams[1..], id, active)
  }

  /** The table after the update and the reply `data[0]`: the first updated
      row, or nothing when no exam has the id. */
  datatype ExamUpdate = ExamUpdate(exams: seq<Exam>, reply: Option<Exam>)

  function UpdateExam(exams: seq<Exam>, id: string, active: bool): (u: ExamUpdate)
    ensures u.exams == SetActive(exams, id, active)
    ensures u.reply.None? <==> |ExamRoutes.ExamsWithId(exams, id)| == 0
    ensures u.reply.Some? ==>
      && u.reply.value.id == id && u.reply.value.isActive == active
      && u.reply.value == ExamRoutes.ExamsWithId(exams, id)[0].(isActive := active)
  {
    SetActiveLookup(exams, id, active);
    var updated := ExamRoutes.ExamsWithId(SetActive(exams, id, active), id);
    ExamUpdate(SetActive(exams, id, active), if |updated| == 0 then None else Some(updated[0]))
  }

  function StartExam(exams: seq<Exam>, id: string): (u: ExamUpdate)
    ensures |u.exams| == |exams|
    ensures forall i :: 0 <= i < |exams| ==>
      u.exams[i] == if exams[i].id == id then exams[i].(isActive := true) else exams[i]
    ensures u.reply.Some? <==> |ExamRoutes.ExamsWithId(exams, id)| > 0
    ensures u.reply.Some? ==> u.reply.value.id == id && u.reply.value.isActive
  {
    UpdateExam(exams, id, true)
  }

  function StopExam(exams: seq<Exam>, id: string): (u: ExamUpdate)
    ensures |u.exams| == |exams|
    ensures forall i :: 0 <= i < |exams| ==>
      u.exams[i] == if exams[i].id == id then exams[i].(isActive := false) else exams[i]
    ensures u.reply.Some? <==> |ExamRoutes.ExamsWithId(exams, id)| > 0
    ensures u.reply.Some? ==> u.reply.value.id == id && !u.reply.value.isActive
  {
    UpdateExam(exams, id, false)
  }

  /** Looking an exam up after the update finds the same rows, each with the
      new flag. */
  lemma {:induction false} SetActiveLookup(exams: seq<Exam>, id: string, active: bool)
    ensures ExamRoutes.ExamsWithId(SetActive(exams, id, active), id)
            == SetActive(ExamRoutes.ExamsWithId(exams, id), id, active)
    decreases |exams|
  {
    if |exams| > 0 {
      SetActiveLookup(exams[1..], id, active);
      assert SetActive(exams, id, active)[1..] == SetActive(exams[1..], id, active);
      if exams[0].id == id {
        assert ExamRoutes.ExamsWithId(exams, id) == [exams[0]] + ExamRoutes.ExamsWithId(exams[1..], id);
        assert SetActive(ExamRoutes.ExamsWithId(exams, id), id, active)[1..]
               == SetActive(ExamRoutes.ExamsWithId(exams[1..], id), id, active);
      }
    }
  }

  /** Starting an exam that exists opens it to students: its question list
      is served. */
  lemma StartedExamServesQuestions(exams: seq<Exam>, coding: seq<CodingQuestion>, quiz: seq<QuizQuestion>, id: string)
    requires |ExamRoutes.ExamsWithId(exams, id)| == 1
    ensures ExamRoutes.GetQuestions(StartExam(exams, id).exams, coding, quiz, id).Questions?
  {
    SetActiveLookup(exams, id, true);
  }

  /** Stopping an exam that exists closes it: the question list is refused as
      inactive. */
  lemma StoppedExamRefusesQuestions(exams: seq<Exam>, coding: seq<CodingQuestion>, quiz: seq<QuizQuestion>, id: string)
    requires |ExamRoutes.ExamsWithId(exams, id)| == 1
    ensures ExamRoutes.GetQuestions(StopExam(exams, id).exams, coding, quiz, id).ExamInactive?
  {
    SetActiveLookup(exams, id, false);
  }

  /** Starting or stopping never changes which exams exist: an unknown exam
      stays unknown. */
  lemma UnknownExamStaysUnknown(exams: seq<Exam>, coding: seq<CodingQuestion>, quiz: seq<QuizQuestion>, id: string, active: bool)
    requires |ExamRoutes.ExamsWithId(exams, id)| != 1
    ensures ExamRoutes.GetQuestions(UpdateExam(exams, id, active).exams, coding, quiz, id).ExamNotFound?
  {
    SetActiveLookup(exams, id, active);
  }

  /** Only the last toggle counts. */
  lemma {:induction false} LastToggleWins(exams: seq<Exam>, id: string, a: bool, b: bool)
    ensures SetActive(SetActive(exams, id, a), id, b) == SetActive(exams, id, b)
    decreases |exams|
  {
    if |exams| > 0 {
      LastToggleWins(exams[1..], id, a, b);
      assert SetActive(exams, id, a)[1..] == SetActive(exams[1..], id, a);
    }
  }

  // ---------------------------------------------------------------------
  // POST /unblock-user

  /** The rows an unblock of (exam, user) keeps. */
  function Unrelated(examId: string, user: string): BlockRow -> bool {
    (b: BlockRow) => !ExamRoutes.BlocksPair(b, examId, user)
  }

  /** Deletes every `blocked_students` row of (exam, user). */
  function UnblockUser(blocked: seq<BlockRow>, examId: string, user: string): (r: seq<BlockRow>)
    ensures forall i :: 0 <= i < |r| ==> r[i] in blocked && !ExamRoutes.BlocksPair(r[i], examId, user)
    ensures forall i :: 0 <= i < |blocked| && !ExamRoutes.BlocksPair(blocked[i], examId, user) ==> blocked[i] in r
  {
    Filter(blocked, Unrelated(examId, user))
  }

  /** After an unblock the student is reported as not blocked. */
  lemma UnblockClears(blocked: seq<BlockRow>, examId: string, user: string)
    requires user != ""
    ensures ExamRoutes.CheckBlocked(UnblockUser(blocked, examId, user), examId, Some(user))
            == ExamRoutes.Ok(ExamRoutes.BlockStatus(false, None))
  {
    ExamRoutes.NoneMatch(UnblockUser(blocked, examId, user), examId, user);
  }

  /** Filtering two tables that differ only in rows `keep` drops gives the
      same result. */
  lemma {:induction false} FilterIgnoresDropped<T>(a: seq<T>, b: seq<T>, keep: T -> bool)
    requires |a| == |b|
    requires forall i :: 0 <= i < |a| ==> (keep(a[i]) <==> keep(b[i]))
    requires forall i :: 0 <= i < |a| && keep(a[i]) ==> a[i] == b[i]
    ensures Filter(a, keep) == Filter(b, keep)
    decreases |a|
  {
    if |a| > 0 {
      FilterIgnoresDropped(a[1..], b[1..], keep);
    }
  }

  /** Unblocking undoes a block, whatever reason it gave: the table ends up
      as if only the unblock had happened. */
  lemma UnblockUndoesBlock(blocked: seq<BlockRow>, examId: string, user: string, reason: Option<string>)
    ensures UnblockUser(ExamRoutes.BlockUser(blocked, examId, user, reason), examId, user)
            == UnblockUser(blocked, examId, user)
  {
    var after := ExamRoutes.BlockUser(blocked, examId, user, reason);
    if ExamRoutes.HasBlockRow(blocked, examId, user) {
      FilterIgnoresDropped(blocked, after, Unrelated(examId, user));
    } else {
      FilterAppend(blocked, BlockRow(examId, user, reason), Unrelated(examId, user));
    }
  }

  // ---------------------------------------------------------------------
  // POST /create-students

  const EmailDomain := "@klu.ac.in"
  const StudentRole := "student"
  const MissingUsernames := "Please provide an array of usernames"

  /** The request body's `usernames`: an array of names, or anything else. */
  datatype UsernamesField = NotAnArray | Usernames(names: seq<string>)

  /** The arguments of one `auth.admin.createUser` call. */
  datatype NewUser = NewUser(email: string, password: string, emailConfirm: bool, role: string, username: string)

  /** What one account creation returned: the new user's id, or an error
      (returned or thrown) with its message. */
  datatype AuthResult = AuthOk(userId: string) | AuthError(message: string)

  /** The account a username asks for: `<name>@klu.ac.in`, with the name as
      its password. */
  function NewUserFor(username: string): (u: NewUser)
    ensures EndsWith(u.email, EmailDomain) && LocalPart(u.email) == username
    ensures u.password == LocalPart(u.email)
    ensures u.role == StudentRole && u.emailConfirm && u.username == username
  {
    assert (username + EmailDomain)[..|username|] == username;
    NewUser(username + EmailDomain, username, true, StudentRole, username)
  }

  /** The part of an address before the domain suffix. */
  function LocalPart(email: string): string
    requires EndsWith(email, EmailDomain)
  {
    email[..|email| - |EmailDomain|]
  }

  /** One entry of `results.successful` or `results.failed`. */
  datatype Outcome =
    | Created(username: string, email: string, userId: string)
    | NotCreated(username: string, error: string)

  /** The accounts created so far, as the creation calls saw them. */
  function CreatedUsers(outcomes: seq<Outcome>): (r: seq<NewUser>)
    ensures |r| <= |outcomes|
    decreases |outcomes|
  {
    if |outcomes| == 0 then []
    else
      var last := outcomes[|outcomes| - 1];
      CreatedUsers(outcomes[..|outcomes| - 1]) + (if last.Created? then [NewUserFor(last.username)] else [])
  }

  /** One iteration: the authentication service is an oracle that sees the
      accounts this request has already created and the one it is asked for. */
  function CreateOne(username: string, earlier: seq<NewUser>, auth: (seq<NewUser>, NewUser) -> AuthResult): (o: Outcome)
    ensures o.username == username
    ensures o.Created? <==> auth(earlier, NewUserFor(username)).AuthOk?
    ensures o.Created? ==> o.email == NewUserFor(username).email && o.userId == auth(earlier, NewUserFor(username)).userId
    ensures o.NotCreated? ==> o.error == auth(earlier, NewUserFor(username)).message
  {
    var u := NewUserFor(username);
    match auth(earlier, u)
    case AuthOk(userId) => Created(username, u.email, userId)
    case AuthError(message) => NotCreated(username, message)
  }

  /** The outcomes of the whole loop, one per username, in order. */
  function CreateAll(names: seq<string>, auth: (seq<NewUser>, NewUser) -> AuthResult): (r: seq<Outcome>)
    ensures |r| == |names|
    ensures forall i :: 0 <= i < |names| ==> r[i].username == names[i]
    decreases |names|
  {
    if |names| == 0 then []
    else
      var prev := CreateAll(names[..|names| - 1], auth);
      prev + [CreateOne(names[|names| - 1], CreatedUsers(prev), auth)]
  }

  /** The i-th outcome is the i-th call, made with the accounts the earlier
      calls created. */
  lemma {:induction false} CreateAllCalls(names: seq<string>, auth: (seq<NewUser>, NewUser) -> AuthResult, i: nat)
    requires i < |names|
    ensures CreateAll(names, auth)[i] == CreateOne(names[i], CreatedUsers(CreateAll(names, auth)[..i]), auth)
    decreases |names|
  {
    var r := CreateAll(names, auth);
    var prev := CreateAll(names[..|names| - 1], auth);
    assert r[..|names| - 1] == prev;
    if i < |names| - 1 {
      CreateAllCalls(names[..|names| - 1], auth, i);
      assert r[..i] == prev[..i];
    }
  }

  function Successes(outcomes: seq<Outcome>): (r: seq<Outcome>)
    ensures forall i :: 0 <= i < |r| ==> r[i].Created? && r[i] in outcomes
    decreases |outcomes|
  {
    if |outcomes| == 0 then []
    else
      var last := outcomes[|outcomes| - 1];
      Successes(outcomes[..|outcomes| - 1]) + (if last.Created? then [last] else [])
  }

  function Failures(outcomes: seq<Outcome>): (r: seq<Outcome>)
    ensures forall i :: 0 <= i < |r| ==> r[i].NotCreated? && r[i] in outcomes
    decreases |outcomes|
  {
    if |outcomes| == 0 then []
    else
      var last := outcomes[|outcomes| - 1];
      Failures(outcomes[..|outcomes| - 1]) + (if last.NotCreated? then [last] else [])
  }

  /** Appending one outcome extends exactly one of the two lists. */
  lemma AppendOutcome(outcomes: seq<Outcome>, o: Outcome)
    ensures Successes(outcomes + [o]) == Successes(outcomes) + (if o.Created? then [o] else [])
    ensures Failures(outcomes + [o]) == Failures(outcomes) + (if o.NotCreated? then [o] else [])
  {
    assert (outcomes + [o])[..|outcomes|] == outcomes;
  }

  lemma AppendCreated(outcomes: seq<Outcome>, o: Outcome)
    ensures CreatedUsers(outcomes + [o]) == CreatedUsers(outcomes) + (if o.Created? then [NewUserFor(o.username)] else [])
  {
    assert (outcomes + [o])[..|outcomes|] == outcomes;
  }

  /** The accounts created so far are one per success, in order, each the
      account its username asked for. */
  lemma {:induction false} CreatedUsersAreSuccesses(outcomes: seq<Outcome>)
    ensures |CreatedUsers(outcomes)| == |Successes(outcomes)|
    ensures forall k :: 0 <= k < |CreatedUsers(outcomes)| ==>
      CreatedUsers(outcomes)[k] == NewUserFor(Successes(outcomes)[k].username)
    decreases |outcomes|
  {
    if |outcomes| > 0 {
      var prefix := outcomes[..|outcomes| - 1];
      var o := outcomes[|outcomes| - 1];
      assert prefix + [o] == outcomes;
      CreatedUsersAreSuccesses(prefix);
      AppendOutcome(prefix, o);
      AppendCreated(prefix, o);
    }
  }

  /** Successes and failures together are as many as the outcomes. */
  lemma {:induction false} PartitionSizes(outcomes: seq<Outcome>)
    ensures |Successes(outcomes)| + |Failures(outcomes)| == |outcomes|
    decreases |outcomes|
  {
    if |outcomes| > 0 {
      var prefix := outcomes[..|outcomes| - 1];
      PartitionSizes(prefix);
      assert outcomes == prefix + [outcomes[|outcomes| - 1]];
      AppendOutcome(prefix, outcomes[|outcomes| - 1]);
    }
  }

  /** The two lists together are a permutation of the outcomes: nothing is
      lost, duplicated or invented. */
  lemma {:induction false} PartitionIsPermutation(outcomes: seq<Outcome>)
    ensures multiset(Successes(outcomes)) + multiset(Failures(outcomes)) == multiset(outcomes)
    decreases |outcomes|
  {
    if |outcomes| > 0 {
      var prefix := outcomes[..|outcomes| - 1];
      var last := outcomes[|outcomes| - 1];
      PartitionIsPermutation(prefix);
      assert outcomes == prefix + [last];
      AppendOutcome(prefix, last);
    }
  }

  /** The loop's step: the outcomes of one more name are the earlier
      outcomes and the next call's outcome. */
  lemma CreateAllStep(names: seq<string>, i: nat, auth: (seq<NewUser>, NewUser) -> AuthResult)
    requires i < |names|
    ensures CreateAll(names[..i + 1], auth)
            == CreateAll(names[..i], auth) + [CreateOne(names[i], CreatedUsers(CreateAll(names[..i], auth)), auth)]
  {
    assert names[..i + 1][..i] == names[..i];
  }

  /** The response body of a bulk creation. */
  datatype CreateResult = CreateResult(message: string, successful: seq<Outcome>, failed: seq<Outcome>)

  /** The reply's message. Split at its spaces it reads back as six words
      whose second and fifth are the two counts in decimal. */
  function Summary(created: nat, requested: nat): (m: string)
    ensures var w := Split(m, ' ');
      && |w| == 6 && w[0] == "Created" && w[2] == "out" && w[3] == "of" && w[5] == "accounts"
      && (forall i :: 0 <= i < |w[1]| ==> '0' <= w[1][i] <= '9') && DigitsValue(w[1]) == created
      && (forall i :: 0 <= i < |w[4]| ==> '0' <= w[4][i] <= '9') && DigitsValue(w[4]) == requested
  {
    var a, b := NatToString(created), NatToString(requested);
    SummaryWords(a, b);
    NatToStringValue(created);
    NatToStringValue(requested);
    "Created " + a + " out of " + b + " accounts"
  }

  /** The message is its six words joined by single spaces, and splitting it
      gives them back. */
  lemma SummaryWords(a: string, b: string)
    requires forall i :: 0 <= i < |a| ==> '0' <= a[i] <= '9'
    requires forall i :: 0 <= i < |b| ==> '0' <= b[i] <= '9'
    ensures Split("Created " + a + " out of " + b + " accounts", ' ') == ["Created", a, "out", "of", b, "accounts"]
  {
    var words := ["Created", a, "out", "of", b, "accounts"];
    SummaryPieces(a, b);
    JoinSix(words, ' ');
    assert forall k :: 0 <= k < |words| ==> ' ' !in words[k] by {
      assert ' ' !in a && ' ' !in b;
    }
    SplitJoin(words, ' ');
  }

  lemma JoinSix(w: seq<string>, sep: char)
    requires |w| == 6
    ensures Join(w, sep) == w[0] + [sep] + (w[1] + [sep] + (w[2] + [sep] + (w[3] + [sep] + (w[4] + [sep] + w[5]))))
  {
    assert w[4..][1..] == w[5..];
    assert w[3..][1..] == w[4..];
    assert w[2..][1..] == w[3..];
    assert w[1..][1..] == w[2..];
    assert Join(w[5..], sep) == w[5];
    assert Join(w[4..], sep) == w[4] + [sep] + w[5];
    assert Join(w[3..], sep) == w[3] + [sep] + Join(w[4..], sep);
    assert Join(w[2..], sep) == w[2] + [sep] + Join(w[3..], sep);
    assert Join(w[1..], sep) == w[1] + [sep] + Join(w[2..], sep);
  }

  /** The message as its six words, each followed by a space but the last. */
  lemma SummaryPieces(a: string, b: string)
    ensures "Created " + a + " out of " + b + " accounts"
            == "Created" + [' '] + (a + [' '] + ("out" + [' '] + ("of" + [' '] + (b + [' '] + "accounts"))))
  {
    assert b + [' '] + "accounts" == b + " accounts";
    assert "of" + [' '] + (b + " accounts") == "of " + b + " accounts";
    assert "out" + [' '] + ("of " + b + " accounts") == "out of " + b + " accounts";
    assert a + [' '] + ("out of " + b + " accounts") == a + " out of " + b + " accounts";
  }

  /** Creates the accounts one by one, in order, recording each success or
      failure and going on after a failure. A missing, non-array or empty
      list is a 400. */
  method CreateStudents(field: UsernamesField, auth: (seq<NewUser>, NewUser) -> AuthResult)
    returns (r: ExamRoutes.Reply<CreateResult>)
    ensures r.BadRequest? <==> field.NotAnArray? || |field.names| == 0
    ensures r.BadRequest? ==> r.error == MissingUsernames
    ensures r.Ok? ==>
      var outcomes := CreateAll(field.names, auth);
      && r.body.successful == Successes(outcomes)
      && r.body.failed == Failures(outcomes)
      && r.body.message == Summary(|Successes(outcomes)|, |field.names|)
  {
    if field.NotAnArray? || |field.names| == 0 {
      return ExamRoutes.BadRequest(MissingUsernames);
    }
    var names := field.names;
    var successful: seq<Outcome> := [];
    var failed: seq<Outcome> := [];
    ghost var outcomes: seq<Outcome> := [];
    var created: seq<NewUser> := [];
    var i := 0;
    while i < |names|
      invariant 0 <= i <= |names|
      invariant outcomes == CreateAll(names[..i], auth)
      invariant created == CreatedUsers(outcomes)
      invariant successful == Successes(outcomes) && failed == Failures(outcomes)
    {
      var username := names[i];
      var o := CreateOne(username, created, auth);
      if o.Created? {
        successful := successful + [o];
        created := created + [NewUserFor(username)];
      } else {
        failed := failed + [o];
      }
      CreateAllStep(names, i, auth);
      AppendOutcome(outcomes, o);
      AppendCreated(outcomes, o);
      outcomes := outcomes + [o];
      i := i + 1;
    }
    assert names[..i] == names;
    return ExamRoutes.Ok(CreateResult(Summary(|successful|, |names|), successful, failed));
  }

  /** Created and failed accounts add up to the request and split its
      outcomes without loss, and the message's numbers read back as the two
      counts. */
  lemma CreateCountsAddUp(names: seq<string>, auth: (seq<NewUser>, NewUser) -> AuthResult)
    ensures var outcomes := CreateAll(names, auth);
            && |Successes(outcomes)| + |Failures(outcomes)| == |names|
            && multiset(Successes(outcomes)) + multiset(Failures(outcomes)) == multiset(outcomes)
            && DigitsValue(NatToString(|Successes(outcomes)|)) == |Successes(outcomes)|
            && DigitsValue(NatToString(|names|)) == |names|
  {
    var outcomes := CreateAll(names, auth);
    PartitionSizes(outcomes);
    PartitionIsPermutation(outcomes);
    NatToStringValue(|Successes(outcomes)|);
    NatToStringValue(|names|);
  }

  /** When the service accepts every account, every name is created and the
      message reads "Created N out of N accounts". */
  lemma {:induction false} AllAccepted(names: seq<string>, auth: (seq<NewUser>, NewUser) -> AuthResult)
    requires forall earlier, u :: auth(earlier, u).AuthOk?
    ensures Failures(CreateAll(names, auth)) == []
    ensures |Successes(CreateAll(names, auth))| == |names|
    decreases |names|
  {
    if |names| > 0 {
      var outcomes := CreateAll(names, auth);
      AllAccepted(names[..|names| - 1], auth);
      assert outcomes[..|outcomes| - 1] == CreateAll(names[..|names| - 1], auth);
    }
  }
}

=== FILE: agent_routes.dfy ===
/** The worker-facing routes of `server/routes/agent.js`: claiming a pending
    job and reporting its result. The shared-key check (`requireAgentAuth`)
    lets every request through and is not modelled. */
module AgentRoutes {
  import opened Common
  import opened Schema
  import ExamRoutes

  // ---------------------------------------------------------------------
  // GET /jobs

  /** A row a poll may claim: pending, in the poll's execution mode, and of
      the filtered user when a filter is present. The status is compared as
      text, as the query's `.eq('status', 'pending')` does. */
  predicate Candidate(r: Submission, mode: string, filterUser: Option<string>) {
    && StatusName(r.status) == "pending"
    && r.mode == Some(mode)
    && (Truthy(filterUser) ==> r.user == filterUser.value)
  }

  function IsCandidate(mode: string, filterUser: Option<string>): Submission -> bool {
    (r: Submission) => Candidate(r, mode, filterUser)
  }

  function Candidates(db: Db, mode: string, filterUser: Option<string>): seq<Submission> {
    Filter(db.rows, IsCandidate(mode, filterUser))
  }

  /** The candidates are exactly the table's candidate rows, and the one a
      poll takes is the first of them in table order. */
  lemma CandidatesInOrder(db: Db, mode: string, filterUser: Option<string>)
    ensures var c := Candidates(db, mode, filterUser);
      && (forall r :: r in c <==> r in db.rows && Candidate(r, mode, filterUser))
      && (|c| > 0 ==> exists k :: 0 <= k < |db.rows| && db.rows[k] == c[0]
                        && forall j :: 0 <= j < k ==> !Candidate(db.rows[j], mode, filterUser))
  {
    var c := Candidates(db, mode, filterUser);
    var p := IsCandidate(mode, filterUser);
    if |c| > 0 {
      FilterFirst(db.rows, p);
    }
  }

  function QuestionsWithId(coding: seq<CodingQuestion>, questionId: string): seq<CodingQuestion> {
    Filter(coding, (q: CodingQuestion) => q.id == questionId)
  }

  /** What the worker receives: the row's own columns plus the question's
      test cases and reference solution. */
  datatype ClaimedJob = ClaimedJob(
    id: nat, code: string, input: Option<string>, question: string, exam: string,
    testCases: string, solutionCode: string)

  datatype ClaimReply = NoJob | QuestionNotFound | Job(job: ClaimedJob)

  /** `update({status: 'running'}).eq('id', id)`. */
  function MarkRunning(db: Db, id: nat): (r: Db)
    ensures r.nextId == db.nextId && |r.rows| == |db.rows|
    ensures forall i :: 0 <= i < |db.rows| && db.rows[i].id != id ==> r.rows[i] == db.rows[i]
    ensures forall i :: 0 <= i < |db.rows| && db.rows[i].id == id ==>
      r.rows[i].status == Running && r.rows[i].(status := db.rows[i].status) == db.rows[i]
  {
    Db(seq(|db.rows|, i requires 0 <= i < |db.rows| =>
         if db.rows[i].id == id then db.rows[i].(status := Running) else db.rows[i]),
       db.nextId)
  }

  /** One poll. With no candidate the table is untouched; otherwise the first
      candidate is marked running before its question is looked up, so a
      missing question leaves the job running and answers 404. */
  function Claim(db: Db, coding: seq<CodingQuestion>, modeHeader: Option<string>, filterHeader: Option<string>): (s: Step<ClaimReply>)
    ensures var cands := Candidates(db, OrDefault(modeHeader, ExamRoutes.DefaultMode), filterHeader);
      && (s.reply.NoJob? <==> |cands| == 0)
      && (s.reply.NoJob? ==> s.db == db)
      && (|cands| > 0 ==> s.db == MarkRunning(db, cands[0].id))
      && (s.reply.QuestionNotFound? <==> |cands| > 0 && |QuestionsWithId(coding, cands[0].question)| != 1)
      && (s.reply.Job? ==>
            var row := cands[0];
            var q := QuestionsWithId(coding, row.question)[0];
            s.reply.job == ClaimedJob(row.id, row.code, row.input, row.question, row.exam, q.testCases, q.solutionCode))
    ensures s.reply.Job? ==> exists i :: 0 <= i < |db.rows| && db.rows[i].id == s.reply.job.id && StatusName(db.rows[i].status) == "pending"
  {
    var mode := OrDefault(modeHeader, ExamRoutes.DefaultMode);
    var cands := Candidates(db, mode, filterHeader);
    if |cands| == 0 then Step(db, NoJob)
    else
      var row := cands[0];
      var db' := MarkRunning(db, row.id);
      match Single(QuestionsWithId(coding, row.question))
      case None => Step(db', QuestionNotFound)
      case Some(q) =>
        assert row in db.rows;
        Step(db', Job(ClaimedJob(row.id, row.code, row.input, row.question, row.exam, q.testCases, q.solutionCode)))
  }

  /** A claimed job is never handed out again by a later poll, whatever that
      poll's mode or filter: every row with its id is now running. */
  lemma ClaimIsExclusive(db: Db, coding: seq<CodingQuestion>, m1: Option<string>, f1: Option<string>, m2: Option<string>, f2: Option<string>)
    requires Claim(db, coding, m1, f1).reply.Job?
    ensures var first := Claim(db, coding, m1, f1);
            var second := Claim(first.db, coding, m2, f2);
            second.reply.Job? ==> second.reply.job.id != first.reply.job.id
  {
    var first := Claim(db, coding, m1, f1);
    var second := Claim(first.db, coding, m2, f2);
    if second.reply.Job? {
      var cands := Candidates(first.db, OrDefault(m2, ExamRoutes.DefaultMode), f2);
      assert cands[0] in first.db.rows;
    }
  }

  /** Two spellings of one status text are claimed alike: the routes look
      only at the text. */
  lemma CandidateBySpelling(r: Submission, s: Status, mode: string, filterUser: Option<string>)
    requires StatusName(s) == StatusName(r.status)
    ensures Candidate(r.(status := s), mode, filterUser) <==> Candidate(r, mode, filterUser)
  {
  }

  // ---------------------------------------------------------------------
  // POST /job-result

  datatype ReportReply = SubmissionNotFound | Reported

  /** How the server scores a report: full points for a completed run of an
      existing question, otherwise the reported score or 0. The status is
      compared as text (`status === 'completed'`). */
  function FinalScore(status: Status, question: Option<CodingQuestion>, reported: Option<int>): (r: int)
    ensures StatusName(status) == "completed" && question.Some? ==> r == question.value.points
    ensures !(StatusName(status) == "completed" && question.Some?) ==> r == OrZero(reported)
  {
    if StatusName(status) == "completed" && question.Some? then question.value.points else OrZero(reported)
  }

  /** `update({output, image_data, status, score}).eq('id', jobId)`. */
  function Overwrite(db: Db, id: nat, output: Option<string>, image: Option<Bytes>, status: Status, score: int): (r: Db)
    ensures r.nextId == db.nextId && |r.rows| == |db.rows|
    ensures forall i :: 0 <= i < |db.rows| && db.rows[i].id != id ==> r.rows[i] == db.rows[i]
    ensures forall i :: 0 <= i < |db.rows| && db.rows[i].id == id ==>
      && r.rows[i].output == output && r.rows[i].image == image
      && r.rows[i].status == status && r.rows[i].score == Some(score)
      && r.rows[i].(output := db.rows[i].output, image := db.rows[i].image,
                    status := db.rows[i].status, score := db.rows[i].score) == db.rows[i]
  {
    Db(seq(|db.rows|, i requires 0 <= i < |db.rows| =>
         if db.rows[i].id == id
         then db.rows[i].(output := output, image := image, status := status, score := Some(score))
         else db.rows[i]),
       db.nextId)
  }

  /** Records a worker's result. An unknown job is a 404 that changes nothing;
      otherwise output, image, status and score are overwritten whatever the
      row's current status, with the score graded in the same step. */
  function Report(db: Db, coding: seq<CodingQuestion>, jobId: nat, output: Option<string>, status: Status,
                  score: Option<int>, image: Option<Bytes>): (s: Step<ReportReply>)
    ensures s.reply.SubmissionNotFound? <==> |RowsWithId(db, jobId)| != 1
    ensures s.reply.SubmissionNotFound? ==> s.db == db
    ensures s.reply.Reported? ==>
      var row := RowsWithId(db, jobId)[0];
      var question := Single(QuestionsWithId(coding, row.question));
      && s.db.nextId == db.nextId && |s.db.rows| == |db.rows|
      && (forall i :: 0 <= i < |db.rows| && db.rows[i].id != jobId ==> s.db.rows[i] == db.rows[i])
      && (forall i :: 0 <= i < |db.rows| && db.rows[i].id == jobId ==>
            && s.db.rows[i].output == output && s.db.rows[i].image == image
            && s.db.rows[i].status == status
            && s.db.rows[i].score == Some(FinalScore(status, question, score))
            && s.db.rows[i].(output := db.rows[i].output, image := db.rows[i].image,
                             status := db.rows[i].status, score := db.rows[i].score) == db.rows[i])
  {
    match Single(RowsWithId(db, jobId))
    case None => Step(db, SubmissionNotFound)
    case Some(row) =>
      var question := Single(QuestionsWithId(coding, row.question));
      Step(Overwrite(db, jobId, output, image, status, FinalScore(status, question, score)), Reported)
  }

  lemma {:induction false} SameIdsSameMatches(a: seq<Submission>, b: seq<Submission>, id: nat)
    requires |a| == |b|
    requires forall i :: 0 <= i < |a| ==> a[i].id == b[i].id
    ensures |Filter(a, (r: Submission) => r.id == id)| == |Filter(b, (r: Submission) => r.id == id)|
    decreases |a|
  {
    if |a| > 0 {
      SameIdsSameMatches(a[1..], b[1..], id);
    }
  }

  /** When exactly one row has the id, that row is the lookup's result. */
  lemma OnlyMatch(db: Db, id: nat, k: nat)
    requires |RowsWithId(db, id)| == 1
    requires k < |db.rows| && db.rows[k].id == id
    ensures RowsWithId(db, id)[0] == db.rows[k]
  {
    assert db.rows[k] in RowsWithId(db, id);
  }

  lemma OverwriteTwice(db: Db, id: nat, o1: Option<string>, im1: Option<Bytes>, st1: Status, sc1: int,
                       o2: Option<string>, im2: Option<Bytes>, st2: Status, sc2: int)
    ensures Overwrite(Overwrite(db, id, o1, im1, st1, sc1), id, o2, im2, st2, sc2) == Overwrite(db, id, o2, im2, st2, sc2)
  {
    var a := Overwrite(Overwrite(db, id, o1, im1, st1, sc1), id, o2, im2, st2, sc2);
    var b := Overwrite(db, id, o2, im2, st2, sc2);
    assert a.rows == b.rows;
  }

  /** The last report wins: a second report for the same job erases every
      trace of the first. */
  lemma LastReportWins(db: Db, coding: seq<CodingQuestion>, jobId: nat,
                       o1: Option<string>, st1: Status, sc1: Option<int>, im1: Option<Bytes>,
                       o2: Option<string>, st2: Status, sc2: Option<int>, im2: Option<Bytes>)
    ensures Report(Report(db, coding, jobId, o1, st1, sc1, im1).db, coding, jobId, o2, st2, sc2, im2)
            == Report(db, coding, jobId, o2, st2, sc2, im2)
  {
    var first := Report(db, coding, jobId, o1, st1, sc1, im1);
    if first.reply.Reported? {
      var row := RowsWithId(db, jobId)[0];
      var q1 := Single(QuestionsWithId(coding, row.question));
      assert first.db == Overwrite(db, jobId, o1, im1, st1, FinalScore(st1, q1, sc1));
      SameIdsSameMatches(db.rows, first.db.rows, jobId);
      assert row in db.rows;
      var k :| 0 <= k < |db.rows| && db.rows[k] == row;
      OnlyMatch(first.db, jobId, k);
      var q2 := Single(QuestionsWithId(coding, row.question));
      OverwriteTwice(db, jobId, o1, im1, st1, FinalScore(st1, q1, sc1), o2, im2, st2, FinalScore(st2, q2, sc2));
    }
  }

  /** Two spellings of one status text are graded alike. */
  lemma FinalScoreBySpelling(s1: Status, s2: Status, question: Option<CodingQuestion>, reported: Option<int>)
    requires StatusName(s1) == StatusName(s2)
    ensures FinalScore(s1, question, reported) == FinalScore(s2, question, reported)
    ensures question.Some? && StatusName(s1) == "completed" ==> FinalScore(s1, question, reported) == question.value.points
  {
  }

  /** With the worker's score of 0, the stored score is the question's points
      for a completed run and 0 otherwise. */
  lemma WorkerScoreIsGradedByServer(status: Status, question: Option<CodingQuestion>)
    ensures FinalScore(status, question, Some(0)) == (if StatusName(status) == "completed" && question.Some? then question.value.points else 0)
    ensures question.Some? && question.value.points >= 0 ==> 0 <= FinalScore(status, question, Some(0)) <= question.value.points
  {
  }
}

=== FILE: auth.dfy ===
/** The `requireAuth` middleware of `server/routes/exam.js`, which guards
    every student route. The account service that checks a token is an
    oracle. */
module Auth {
  import opened Common
  import opened Text

  const BearerPrefix := "Bearer "
  const NoTokenMessage := "No authorization token provided"
  const BadTokenMessage := "Invalid or expired token"
  const CheckFailedMessage := "Authentication failed"

  /** What `supabase.auth.getUser(token)` gave: a user, an error or no user,
      or an exception. */
  datatype TokenLookup = UserFound(userId: string) | NoUser | LookupThrew

  /** The middleware's verdict: the request goes on to the route as the
      user, or it is answered 401 with the message. */
  datatype AuthCheck = Authorized(userId: string) | Unauthorized(error: string)

  /** `authHeader && authHeader.startsWith('Bearer ')`. */
  predicate HasBearer(authorization: Option<string>) {
    Truthy(authorization) && StartsWith(authorization.value, BearerPrefix)
  }

  /** The token after the prefix (`substring(7)`). */
  function TokenOf(authorization: Option<string>): string
    requires HasBearer(authorization)
  {
    authorization.value[|BearerPrefix|..]
  }

  /** A request passes exactly when it carries a bearer token the account
      service resolves to a user; without one it is refused before the
      service is asked. */
  function RequireAuth(authorization: Option<string>, getUser: string -> TokenLookup): (a: AuthCheck)
    ensures a.Authorized? <==> HasBearer(authorization) && getUser(TokenOf(authorization)).UserFound?
    ensures a.Authorized? ==> a.userId == getUser(TokenOf(authorization)).userId
    ensures !HasBearer(authorization) ==> a == Unauthorized(NoTokenMessage)
    ensures HasBearer(authorization) && getUser(TokenOf(authorization)).NoUser? ==> a == Unauthorized(BadTokenMessage)
    ensures HasBearer(authorization) && getUser(TokenOf(authorization)).LookupThrew? ==> a == Unauthorized(CheckFailedMessage)
  {
    if !HasBearer(authorization) then Unauthorized(NoTokenMessage)
    else
      match getUser(TokenOf(authorization))
      case UserFound(id) => Authorized(id)
      case NoUser => Unauthorized(BadTokenMessage)
      case LookupThrew => Unauthorized(CheckFailedMessage)
  }

  /** The header value a client sends for a token. */
  function BearerHeader(token: string): string {
    BearerPrefix + token
  }

  /** The server reads back exactly the token the client put in the header,
      so the request passes exactly when that token names a user. */
  lemma BearerRoundTrip(token: string, getUser: string -> TokenLookup)
    ensures HasBearer(Some(BearerHeader(token)))
    ensures TokenOf(Some(BearerHeader(token))) == token
    ensures RequireAuth(Some(BearerHeader(token)), getUser).Authorized? <==> getUser(token).UserFound?
  {
    assert BearerHeader(token)[..|BearerPrefix|] == BearerPrefix;
    assert BearerHeader(token)[|BearerPrefix|..] == token;
  }
}

=== FILE: common.dfy ===
/** Small shared vocabulary: nullable values and the lookup shapes the
    routes use against the database. */
module Common {

  /** A nullable value: `None` stands for JavaScript's `null`/`undefined`. */
  datatype Option<+T> = None | Some(value: T) {
    function GetOr(default: T): T {
      match this
      case Some(v) => v
      case None => default
    }
  }

  /** A `.single()` lookup: a row only when exactly one row matched;
      zero or several matches are both an error. */
  function Single<T>(rows: seq<T>): (r: Option<T>)
    ensures r.Some? <==> |rows| == 1
    ensures r.Some? ==> r.value in rows
  {
    if |rows| == 1 then Some(rows[0]) else None
  }

  /** JavaScript's `x || 0` on a nullable number: null and undefined read as 0. */
  function OrZero(x: Option<int>): int {
    x.GetOr(0)
  }

  /** A string value is truthy when it is present and not empty. */
  predicate Truthy(s: Option<string>) {
    s.Some? && s.value != ""
  }

  /** JavaScript's `s || fallback` on a nullable string. */
  function OrDefault(s: Option<string>, fallback: string): (r: string)
    ensures Truthy(s) ==> r == s.value
    ensures !Truthy(s) ==> r == fallback
  {
    if Truthy(s) then s.value else fallback
  }

  /** The elements of `s` that satisfy `p`, in their original order. */
  function Filter<T>(s: seq<T>, p: T -> bool): (r: seq<T>)
    ensures |r| <= |s|
    ensures forall i :: 0 <= i < |r| ==> r[i] in s && p(r[i])
    ensures forall i :: 0 <= i < |s| && p(s[i]) ==> s[i] in r
    decreases |s|
  {
    if |s| == 0 then []
    else (if p(s[0]) then [s[0]] else []) + Filter(s[1..], p)
  }

  lemma FilterAppend<T>(s: seq<T>, x: T, p: T -> bool)
    ensures Filter(s + [x], p) == Filter(s, p) + (if p(x) then [x] else [])
    decreases |s|
  {
    if |s| == 0 {
      assert s + [x] == [x];
    } else {
      assert (s + [x])[1..] == s[1..] + [x];
      FilterAppend(s[1..], x, p);
    }
  }

  lemma FilterAll<T>(s: seq<T>, p: T -> bool)
    requires forall i :: 0 <= i < |s| ==> p(s[i])
    ensures Filter(s, p) == s
    decreases |s|
  {
    if |s| > 0 {
      FilterAll(s[1..], p);
    }
  }

  lemma {:induction false} FilterNone<T>(s: seq<T>, p: T -> bool)
    requires forall i :: 0 <= i < |s| ==> !p(s[i])
    ensures Filter(s, p) == []
    decreases |s|
  {
    if |s| > 0 {
      FilterNone(s[1..], p);
    }
  }

  /** The filter's first element is the first element satisfying `p`. */
  lemma {:induction false} FilterFirst<T>(s: seq<T>, p: T -> bool)
    requires |Filter(s, p)| > 0
    ensures exists k :: 0 <= k < |s| && s[k] == Filter(s, p)[0] && p(s[k]) && forall j :: 0 <= j < k ==> !p(s[j])
    decreases |s|
  {
    if !p(s[0]) {
      FilterFirst(s[1..], p);
      var k :| 0 <= k < |s[1..]| && s[1..][k] == Filter(s[1..], p)[0] && p(s[1..][k]) && forall j :: 0 <= j < k ==> !p(s[1..][j]);
      assert s[k + 1] == Filter(s, p)[0];
      assert forall j :: 0 <= j < k + 1 ==> !p(s[j]) by {
        forall j | 0 <= j < k + 1 ensures !p(s[j]) {
          if j > 0 { assert s[j] == s[1..][j - 1]; }
        }
      }
    } else {
      assert s[0] == Filter(s, p)[0];
    }
  }

  /** When exactly one element satisfies `p`, the filter is that element. */
  lemma {:induction false} FilterOne<T>(s: seq<T>, p: T -> bool, k: nat)
    requires k < |s| && p(s[k])
    requires forall i :: 0 <= i < |s| && i != k ==> !p(s[i])
    ensures Filter(s, p) == [s[k]]
    decreases |s|
  {
    if k == 0 {
      FilterNone(s[1..], p);
    } else {
      FilterOne(s[1..], p, k - 1);
    }
  }

  /** One HTTP request header, its name in lower case as Node.js reports
      it to the server. */
  datatype Header = Header(name: string, value: string)

  /** How the server reads one request header: absent is `None`. */
  function HeaderValue(h: seq<Header>, name: string): (v: Option<string>)
    ensures v.Some? ==> exists i :: 0 <= i < |h| && h[i] == Header(name, v.value)
    ensures v.None? ==> forall i :: 0 <= i < |h| ==> h[i].name != name
    decreases |h|
  {
    if |h| == 0 then None
    else if h[0].name == name then Some(h[0].value)
    else HeaderValue(h[1..], name)
  }
}

=== FILE: exam_page.dfy ===
/** The student's exam page of `client/src/pages/Exam.jsx`: the per-question
    execution counter, the run button, and the result polling loop. UI
    statuses are the strings the page stores (`idle`, `running`, `error`, or
    whatever status the server returns); `None` stands for `undefined`. */
module ExamPage {
  import opened Common
  import opened Schema
  import ExamRoutes
  import Auth

  /** The page's own copy of the quota. */
  const ClientQuota: nat := 5
  const LimitAlertText := "Execution limit reached (5/5)"
  const QueuedText := "Job queued..."
  /** Milliseconds between two result polls. */
  const ResultPollInterval: nat := 4000

  // ---------------------------------------------------------------------
  // Execution counts

  /** The `executionCounts` object: question id to number of runs. */
  type Counts = map<string, nat>

  /** `executionCounts[q] || 0`. */
  function Used(counts: Counts, q: string): nat {
    if q in counts then counts[q] else 0
  }

  /** The counter is shown in the error colour and the run button is
      disabled from the fifth run on. */
  predicate Disabled(counts: Counts, q: string) {
    Used(counts, q) >= ClientQuota
  }

  /** The object the page stores from the submission-counts reply. */
  function CountsOf(t: seq<ExamRoutes.CountEntry>): (m: Counts)
    ensures forall q :: q in m <==> exists k :: 0 <= k < |t| && t[k].question == q
    decreases |t|
  {
    if |t| == 0 then map[]
    else
      var prefix := t[..|t| - 1];
      var m := CountsOf(prefix);
      assert forall k :: 0 <= k < |prefix| ==> t[k] == prefix[k];
      m[t[|t| - 1].question := t[|t| - 1].count]
  }

  /** With distinct keys, each key maps to its own entry's count. */
  lemma {:induction false} CountsOfEntry(t: seq<ExamRoutes.CountEntry>, k: nat)
    requires ExamRoutes.DistinctKeys(t)
    requires k < |t|
    ensures CountsOf(t)[t[k].question] == t[k].count
    decreases |t|
  {
    if k < |t| - 1 {
      var prefix := t[..|t| - 1];
      assert ExamRoutes.DistinctKeys(prefix);
      assert prefix[k] == t[k];
      CountsOfEntry(prefix, k);
    }
  }

  /** The page's counter agrees with the server on every question. */
  ghost predicate InSync(counts: Counts, db: Db, examId: string, user: string) {
    forall q :: Used(counts, q) == ExamRoutes.Attempts(db.rows, examId, q, user)
  }

  /** Counts loaded from the server are exactly the server's quota counts. */
  lemma LoadedCountsInSync(db: Db, examId: string, user: string)
    requires user != ""
    ensures InSync(CountsOf(ExamRoutes.SubmissionCounts(db, examId, Some(user)).body), db, examId, user)
  {
    var t := ExamRoutes.SubmissionCounts(db, examId, Some(user)).body;
    forall q ensures Used(CountsOf(t), q) == ExamRoutes.Attempts(db.rows, examId, q, user) {
      if q in CountsOf(t) {
        var k :| 0 <= k < |t| && t[k].question == q;
        CountsOfEntry(t, k);
      }
    }
  }

  /** With the page in step with the server, the counter shows the
      server's count and the button is disabled exactly when the server
      would refuse the run. */
  lemma DisabledMatchesServer(counts: Counts, db: Db, now: int, user: string, examId: string, q: string, code: string)
    requires InSync(counts, db, examId, user)
    ensures Used(counts, q) == ExamRoutes.Attempts(db.rows, examId, q, user)
    ensures Disabled(counts, q) <==> ExamRoutes.RunCode(db, now, user, examId, q, code, None, None).reply.LimitReached?
  {
  }

  // ---------------------------------------------------------------------
  // Request headers

  /** The run-code request's headers as the page sends them: the content
      type only, the authorization line being commented out. */
  function RunCodeHeaders(accessToken: string): (h: seq<Header>)
    ensures HeaderValue(h, "authorization").None?
  {
    [Header("content-type", "application/json")]
  }

  /** The result poll's `fetch` passes no options, hence no headers. */
  function ResultPollHeaders(accessToken: string): (h: seq<Header>)
    ensures HeaderValue(h, "authorization").None?
  {
    []
  }

  /** The submit-quiz request's headers: the content type only. */
  function QuizAnswerHeaders(accessToken: string): (h: seq<Header>)
    ensures HeaderValue(h, "authorization").None?
  {
    [Header("content-type", "application/json")]
  }

  /** Headers with the session's access token as a bearer token, as the
      page's question, count, block-check and block requests send them. */
  function WithBearer(h: seq<Header>, accessToken: string): (r: seq<Header>)
    ensures HeaderValue(r, "authorization") == Some(Auth.BearerHeader(accessToken))
    ensures forall i :: 0 <= i < |h| ==> h[i] in r
  {
    [Header("authorization", Auth.BearerHeader(accessToken))] + h
  }

  // ---------------------------------------------------------------------
  // handleRunCode

  /** The page state the run button and the poller touch. */
  datatype PageState = PageState(
    counts: Counts, status: Option<string>, output: Option<string>, image: Option<Bytes>,
    polling: Option<nat>)

  /** Pressing the run button: an alert and nothing else once the local count
      reaches the quota, otherwise the page shows a queued job and sends the
      request. */
  datatype Press = LimitAlert(message: string) | Request(state: PageState)

  function PressRun(s: PageState, q: string): (p: Press)
    ensures p.LimitAlert? <==> Disabled(s.counts, q)
    ensures p.LimitAlert? ==> p.message == ExamRoutes.LimitMessage
    ensures p.Request? ==> p.state == s.(status := Some("running"), output := Some(QueuedText))
  {
    if Used(s.counts, q) >= ClientQuota then LimitAlert(LimitAlertText)
    else Request(s.(status := Some("running"), output := Some(QueuedText)))
  }

  /** What the page gets back from run-code: an error body, or the job id. */
  datatype RunResponse = RunFailed(error: string) | RunAccepted(jobId: nat)

  function ResponseOf(reply: ExamRoutes.RunReply): (r: RunResponse)
    ensures reply.LimitReached? <==> r.RunFailed?
    ensures reply.LimitReached? ==> r.error == reply.error
    ensures reply.Queued? ==> r == RunAccepted(reply.jobId)
  {
    match reply
    case LimitReached(e) => RunFailed(e)
    case Queued(id, _) => RunAccepted(id)
  }

  /** Handling the run-code response: an error is shown with the server's
      message and leaves the counter alone; an accepted job adds one to the
      current question only and starts polling it. */
  function OnRunResponse(s: PageState, q: string, r: RunResponse): (s': PageState)
    ensures r.RunFailed? ==> s' == s.(status := Some("error"), output := Some(r.error))
    ensures r.RunAccepted? ==>
      && Used(s'.counts, q) == Used(s.counts, q) + 1
      && (forall p :: p != q ==> Used(s'.counts, p) == Used(s.counts, p))
      && s'.polling == Some(r.jobId)
      && s'.status == s.status && s'.output == s.output && s'.image == s.image
  {
    match r
    case RunFailed(e) => s.(status := Some("error"), output := Some(e))
    case RunAccepted(id) => s.(counts := s.counts[q := Used(s.counts, q) + 1], polling := Some(id))
  }

  lemma AttemptsAppend(rows: seq<Submission>, row: Submission, examId: string, q: string, user: string)
    ensures ExamRoutes.Attempts(rows + [row], examId, q, user)
            == ExamRoutes.Attempts(rows, examId, q, user) + (if ExamRoutes.Attempt(row, examId, q, user) then 1 else 0)
  {
    assert (rows + [row])[..|rows|] == rows;
  }

  /** One press of the run button keeps the page and the server in step: the
      page refuses exactly when the server would, and after an accepted run
      both have counted it. */
  lemma RunKeepsSync(s: PageState, db: Db, now: int, user: string, examId: string, q: string, code: string)
    requires InSync(s.counts, db, examId, user)
    ensures var press := PressRun(s, q);
            var step := ExamRoutes.RunCode(db, now, user, examId, q, code, None, None);
            && (press.LimitAlert? <==> step.reply.LimitReached?)
            && (press.Request? ==> InSync(OnRunResponse(press.state, q, ResponseOf(step.reply)).counts, step.db, examId, user))
  {
    var step := ExamRoutes.RunCode(db, now, user, examId, q, code, None, None);
    assert Used(s.counts, q) == ExamRoutes.Attempts(db.rows, examId, q, user);
    if step.reply.Queued? {
      var s' := OnRunResponse(PressRun(s, q).state, q, ResponseOf(step.reply));
      var row := step.db.rows[|db.rows|];
      assert step.db.rows == db.rows + [row];
      forall p ensures Used(s'.counts, p) == ExamRoutes.Attempts(step.db.rows, examId, p, user) {
        AttemptsAppend(db.rows, row, examId, p, user);
      }
    }
  }

  /** As the page is written, a run below the limit never reaches the
      route: the missing token is refused with a 401, and the page shows
      that message as an error, with the counter unchanged and no poller. */
  lemma RunRequestIsRefused(s: PageState, q: string, accessToken: string, getUser: string -> Auth.TokenLookup)
    requires !Disabled(s.counts, q)
    ensures Auth.RequireAuth(HeaderValue(RunCodeHeaders(accessToken), "authorization"), getUser)
            == Auth.Unauthorized(Auth.NoTokenMessage)
    ensures var s' := OnRunResponse(PressRun(s, q).state, q, RunFailed(Auth.NoTokenMessage));
            && s'.status == Some("error") && s'.output == Some(Auth.NoTokenMessage)
            && s'.counts == s.counts && s'.polling == s.polling
  {
  }

  /** With the bearer token, a signed-in student's run reaches the route,
      and the page and the server stay in step. */
  lemma AuthorizedRunReachesRoute(s: PageState, db: Db, now: int, user: string, examId: string, q: string, code: string,
                                  accessToken: string, getUser: string -> Auth.TokenLookup)
    requires getUser(accessToken).UserFound?
    requires InSync(s.counts, db, examId, user)
    ensures Auth.RequireAuth(HeaderValue(WithBearer(RunCodeHeaders(accessToken), accessToken), "authorization"), getUser).Authorized?
    ensures var press := PressRun(s, q);
            var step := ExamRoutes.RunCode(db, now, user, examId, q, code, None, None);
            && (press.LimitAlert? <==> step.reply.LimitReached?)
            && (press.Request? ==> InSync(OnRunResponse(press.state, q, ResponseOf(step.reply)).counts, step.db, examId, user))
  {
    Auth.BearerRoundTrip(accessToken, getUser);
    RunKeepsSync(s, db, now, user, examId, q, code);
  }

  /** As written, the answer to a quiz question is refused with a 401 and
      never graded. */
  lemma QuizAnswerIsRefused(accessToken: string, getUser: string -> Auth.TokenLookup)
    ensures Auth.RequireAuth(HeaderValue(QuizAnswerHeaders(accessToken), "authorization"), getUser)
            == Auth.Unauthorized(Auth.NoTokenMessage)
  {
  }

  /** With the bearer token, a signed-in student's answer reaches the
      grading route, which grades it against the question. */
  lemma AuthorizedQuizAnswerIsGraded(quiz: seq<QuizQuestion>, examId: string, questionId: string, answer: string, user: string,
                                     accessToken: string, getUser: string -> Auth.TokenLookup)
    requires getUser(accessToken).UserFound?
    ensures Auth.RequireAuth(HeaderValue(WithBearer(QuizAnswerHeaders(accessToken), accessToken), "authorization"), getUser).Authorized?
    ensures var r := ExamRoutes.SubmitQuiz(quiz, examId, questionId, answer, user);
            r.Graded? ==> r.row.answer == answer && r.row.user == user
  {
    Auth.BearerRoundTrip(accessToken, getUser);
  }

  // ---------------------------------------------------------------------
  // The result poller

  /** One poll of the result route: keep going, or stop and show what came
      back. */
  datatype Tick = KeepPolling | Stop(status: Option<string>, output: Option<string>, image: Option<Bytes>)

  /** Polling stops once the returned status is neither `pending` nor
      `running`, and then shows that status, output and image. A lookup that
      fails returns a body without a status, which also stops the poller, with
      nothing to show. */
  function PollTick(fetched: Option<ExamRoutes.ResultView>): (t: Tick)
    ensures t.KeepPolling? <==> fetched.Some? && StatusName(fetched.value.status) in {"pending", "running"}
    ensures t.Stop? && fetched.Some? ==>
      t == Stop(Some(StatusName(fetched.value.status)), fetched.value.output, fetched.value.image)
    ensures fetched.None? ==> t == Stop(None, None, None)
  {
    match fetched
    case None => Stop(None, None, None)
    case Some(v) =>
      var name := StatusName(v.status);
      if name != "pending" && name != "running" then Stop(Some(name), v.output, v.image) else KeepPolling
  }

  /** The page after a tick: a stop clears the interval and shows the result. */
  function ApplyTick(s: PageState, t: Tick): (s': PageState)
    ensures t.KeepPolling? ==> s' == s
    ensures t.Stop? ==> s'.polling == None && s'.counts == s.counts
    ensures t.Stop? ==> s'.status == t.status && s'.output == t.output && s'.image == t.image
  {
    match t
    case KeepPolling => s
    case Stop(st, out, img) => s.(status := st, output := out, image := img, polling := None)
  }

  /** The poller keeps going exactly while the job is waiting for, or held
      by, a worker. */
  lemma PollerWaitsForWorker(db: Db, id: nat)
    requires |RowsWithId(db, id)| == 1
    ensures var row := RowsWithId(db, id)[0];
            PollTick(ExamRoutes.GetResult(db, id)).KeepPolling?
            <==> StatusName(row.status) == "pending" || StatusName(row.status) == "running"
  {
  }

  /** As written, the result poll is refused with a 401 whose body has no
      status, so the first tick stops the poller with nothing to show. */
  lemma ResultPollIsRefused(accessToken: string, getUser: string -> Auth.TokenLookup)
    ensures Auth.RequireAuth(HeaderValue(ResultPollHeaders(accessToken), "authorization"), getUser)
            == Auth.Unauthorized(Auth.NoTokenMessage)
    ensures PollTick(None) == Stop(None, None, None)
  {
  }

  /** With the bearer token, the poll reaches the result route and keeps
      going exactly while the job waits for, or is held by, a worker. */
  lemma AuthorizedPollReachesRoute(db: Db, id: nat, accessToken: string, getUser: string -> Auth.TokenLookup)
    requires getUser(accessToken).UserFound?
    requires |RowsWithId(db, id)| == 1
    ensures Auth.RequireAuth(HeaderValue(WithBearer(ResultPollHeaders(accessToken), accessToken), "authorization"), getUser).Authorized?
    ensures var row := RowsWithId(db, id)[0];
            PollTick(ExamRoutes.GetResult(db, id)).KeepPolling?
            <==> StatusName(row.status) == "pending" || StatusName(row.status) == "running"
  {
    Auth.BearerRoundTrip(accessToken, getUser);
    PollerWaitsForWorker(db, id);
  }
}

=== FILE: exam_routes.dfy ===
/** The student-facing routes of `server/routes/exam.js`: question listing,
    quiz grading, execution quota and job creation, saving without running,
    result lookup, blocking, and the finish-exam aggregate. Authentication
    (`requireAuth`) and database failures (the 500 replies) are outside the
    model. */
module ExamRoutes {
  import opened Common
  import opened Text
  import opened Schema

  /** Executions allowed per (user, exam, question). */
  const Quota: nat := 5
  const LimitMessage := "Execution limit reached (5/5)"
  const SavedOutput := "Code submitted without execution"
  const DefaultMode := "server"

  /** A route reply: a 400 with its message, or a body. */
  datatype Reply<T> = BadRequest(error: string) | Ok(body: T)

  // ---------------------------------------------------------------------
  // GET /questions/:examId

  /** What a student sees of a coding question: no solution, no test cases. */
  datatype CodingView = CodingView(id: string, title: string, description: string, initialCode: string, points: int)

  /** What a student sees of a quiz question: no correct answer. */
  datatype QuizView = QuizView(id: string, qtype: QuizType, question: string, options: seq<string>, points: int)

  datatype QuestionsReply = ExamNotFound | ExamInactive | Questions(coding: seq<CodingView>, quiz: seq<QuizView>)

  function CodingViewOf(q: CodingQuestion): CodingView {
    CodingView(q.id, q.title, q.description, q.initialCode, q.points)
  }

  function QuizViewOf(q: QuizQuestion): QuizView {
    QuizView(q.id, q.qtype, q.question, q.options, q.points)
  }

  /** The student views of the exam's coding questions, in table order. */
  function ProjectCoding(qs: seq<CodingQuestion>, examId: string): (r: seq<CodingView>)
    ensures forall v :: v in r ==> exists q :: q in qs && q.exam == examId && CodingViewOf(q) == v
    ensures forall q :: q in qs && q.exam == examId ==> CodingViewOf(q) in r
    decreases |qs|
  {
    if |qs| == 0 then []
    else (if qs[0].exam == examId then [CodingViewOf(qs[0])] else []) + ProjectCoding(qs[1..], examId)
  }

  /** The student views of the exam's quiz questions, in table order. */
  function ProjectQuiz(qs: seq<QuizQuestion>, examId: string): (r: seq<QuizView>)
    ensures forall v :: v in r ==> exists q :: q in qs && q.exam == examId && QuizViewOf(q) == v
    ensures forall q :: q in qs && q.exam == examId ==> QuizViewOf(q) in r
    decreases |qs|
  {
    if |qs| == 0 then []
    else (if qs[0].exam == examId then [QuizViewOf(qs[0])] else []) + ProjectQuiz(qs[1..], examId)
  }

  function ExamsWithId(exams: seq<Exam>, examId: string): seq<Exam> {
    Filter(exams, (e: Exam) => e.id == examId)
  }

  /** A missing exam is a 404, an inactive one a 403; otherwise the exam's
      questions are listed without their secret columns. */
  function GetQuestions(exams: seq<Exam>, coding: seq<CodingQuestion>, quiz: seq<QuizQuestion>, examId: string): (r: QuestionsReply)
    ensures r.ExamNotFound? <==> |ExamsWithId(exams, examId)| != 1
    ensures r.ExamInactive? <==> |ExamsWithId(exams, examId)| == 1 && !ExamsWithId(exams, examId)[0].isActive
    ensures r.Questions? ==>
      && (forall v :: v in r.coding <==> exists q :: q in coding && q.exam == examId && CodingViewOf(q) == v)
      && (forall v :: v in r.quiz <==> exists q :: q in quiz && q.exam == examId && QuizViewOf(q) == v)
  {
    match Single(ExamsWithId(exams, examId))
    case None => ExamNotFound
    case Some(e) =>
      if !e.isActive then ExamInactive
      else Questions(ProjectCoding(coding, examId), ProjectQuiz(quiz, examId))
  }

  // ---------------------------------------------------------------------
  // POST /submit-quiz

  /** JavaScript's `String(v)` on a nullable string. */
  function AsText(v: Option<string>): string {
    match v
    case Some(s) => s
    case None => "null"
  }

  /** The comparison form of a short answer: trimmed, then lower-cased. */
  function Normalize(s: string): string {
    Lower(Trim(s))
  }

  /** Grading depends on the type's text: `mcq` and `true_false`
      answers must match exactly, `short` answers match up to case and
      surrounding white space, and any other type never matches. */
  predicate IsCorrect(q: QuizQuestion, answer: string) {
    var name := QuizTypeName(q.qtype);
    if name == "mcq" || name == "true_false" then answer == AsText(q.correctAnswer)
    else if name == "short" then Normalize(answer) == Normalize(AsText(q.correctAnswer))
    else false
  }

  /** Two quiz types with the same text are graded alike. */
  lemma IsCorrectBySpelling(q: QuizQuestion, t: QuizType, answer: string)
    requires QuizTypeName(t) == QuizTypeName(q.qtype)
    ensures IsCorrect(q.(qtype := t), answer) <==> IsCorrect(q, answer)
  {
  }

  /** A type whose text is none of the three graded names never scores. */
  lemma UngradedTypeNeverCorrect(q: QuizQuestion, answer: string)
    requires QuizTypeName(q.qtype) !in {"mcq", "true_false", "short"}
    ensures !IsCorrect(q, answer)
  {
  }

  datatype QuizReply = QuizQuestionNotFound | Graded(row: QuizSubmission)

  /** Grades one quiz answer: full points when correct, nothing otherwise. The
      reply carries the row the route writes. */
  function SubmitQuiz(quiz: seq<QuizQuestion>, examId: string, questionId: string, answer: string, user: string): (r: QuizReply)
    ensures r.QuizQuestionNotFound? <==> |Filter(quiz, (q: QuizQuestion) => q.id == questionId)| != 1
    ensures r.Graded? ==>
      var q := Filter(quiz, (q: QuizQuestion) => q.id == questionId)[0];
      && r.row == QuizSubmission(user, examId, questionId, answer, r.row.isCorrect, r.row.score)
      && (r.row.isCorrect <==> IsCorrect(q, answer))
      && r.row.score == Some(if IsCorrect(q, answer) then q.points else 0)
  {
    match Single(Filter(quiz, (q: QuizQuestion) => q.id == questionId))
    case None => QuizQuestionNotFound
    case Some(q) =>
      var ok := IsCorrect(q, answer);
      Graded(QuizSubmission(user, examId, questionId, answer, ok, Some(if ok then q.points else 0)))
  }

  /** The stored correct answer is always accepted, for every gradable type. */
  lemma ExactAnswerIsCorrect(q: QuizQuestion)
    requires QuizTypeName(q.qtype) in {"mcq", "true_false", "short"}
    ensures IsCorrect(q, AsText(q.correctAnswer))
  {
  }

  /** A short answer is graded the same whatever white space surrounds it and
      whatever its letter case. */
  lemma ShortAnswerIgnoresPaddingAndCase(q: QuizQuestion, pre: string, answer: string, post: string)
    requires QuizTypeName(q.qtype) == "short"
    requires AllSpace(pre) && AllSpace(post)
    ensures IsCorrect(q, pre + answer + post) == IsCorrect(q, answer)
    ensures IsCorrect(q, Lower(answer)) == IsCorrect(q, answer)
  {
    ShortRule(q, pre + answer + post);
    ShortRule(q, answer);
    ShortRule(q, Lower(answer));
    TrimIgnoresPadding(pre, answer, post);
    TrimLower(answer);
    LowerIdempotent(Trim(answer));
  }

  /** The `short` rule: compare the normalized forms. */
  lemma ShortRule(q: QuizQuestion, answer: string)
    requires QuizTypeName(q.qtype) == "short"
    ensures IsCorrect(q, answer) <==> Normalize(answer) == Normalize(AsText(q.correctAnswer))
  {
  }

  /** Multiple-choice and true/false answers are compared exactly: only the
      stored text is accepted, so the stored answer with its letter case
      changed is wrong. */
  lemma McqIsCaseSensitive(q: QuizQuestion, answer: string)
    requires QuizTypeName(q.qtype) == "mcq" || QuizTypeName(q.qtype) == "true_false"
    ensures IsCorrect(q, answer) <==> answer == AsText(q.correctAnswer)
    ensures answer == AsText(q.correctAnswer) && Lower(answer) != answer ==> !IsCorrect(q, Lower(answer))
  {
  }

  // ---------------------------------------------------------------------
  // Counting a user's rows

  predicate Attempt(r: Submission, examId: string, questionId: string, user: string) {
    r.exam == examId && r.question == questionId && r.user == user
  }

  /** The run-code count: rows of the user for (exam, question), of ANY status. */
  function Attempts(rows: seq<Submission>, examId: string, questionId: string, user: string): nat
    decreases |rows|
  {
    if |rows| == 0 then 0
    else Attempts(rows[..|rows| - 1], examId, questionId, user)
         + (if Attempt(rows[|rows| - 1], examId, questionId, user) then 1 else 0)
  }

  /** The count is at most the number of rows, and zero exactly when the
      user has no row for the question. */
  lemma {:induction false} AttemptsNone(rows: seq<Submission>, examId: string, questionId: string, user: string)
    ensures Attempts(rows, examId, questionId, user) <= |rows|
    ensures Attempts(rows, examId, questionId, user) == 0
            <==> forall i :: 0 <= i < |rows| ==> !Attempt(rows[i], examId, questionId, user)
    decreases |rows|
  {
    if |rows| > 0 {
      var prefix := rows[..|rows| - 1];
      AttemptsNone(prefix, examId, questionId, user);
      assert forall i :: 0 <= i < |prefix| ==> rows[i] == prefix[i];
    }
  }

  /** All rows of the user in the exam. */
  function UserRows(rows: seq<Submission>, examId: string, user: string): nat
    decreases |rows|
  {
    if |rows| == 0 then 0
    else UserRows(rows[..|rows| - 1], examId, user)
         + (if rows[|rows| - 1].exam == examId && rows[|rows| - 1].user == user then 1 else 0)
  }

  // ---------------------------------------------------------------------
  // GET /submission-counts/:examId

  /** One `question_id: count` pair of the reply object, in insertion order. */
  datatype CountEntry = CountEntry(question: string, count: nat)

  function Total(t: seq<CountEntry>): nat
    decreases |t|
  {
    if |t| == 0 then 0 else Total(t[..|t| - 1]) + t[|t| - 1].count
  }

  lemma {:induction false} TotalUpdate(t: seq<CountEntry>, i: nat, e: CountEntry)
    requires i < |t|
    ensures Total(t[i := e]) == Total(t) - t[i].count + e.count
    decreases |t|
  {
    if i < |t| - 1 {
      assert t[i := e][..|t| - 1] == t[..|t| - 1][i := e];
      TotalUpdate(t[..|t| - 1], i, e);
    } else {
      assert t[i := e][..|t| - 1] == t[..|t| - 1];
    }
  }

  /** Where `q` sits in the reply object, or `|t|` when it is not a key yet. */
  function KeyIndex(t: seq<CountEntry>, q: string): (i: nat)
    ensures i <= |t|
    ensures i < |t| ==> t[i].question == q
    ensures forall k :: 0 <= k < i ==> t[k].question != q
    decreases |t|
  {
    if |t| == 0 then 0
    else if t[0].question == q then 0
    else 1 + KeyIndex(t[1..], q)
  }

  predicate DistinctKeys(t: seq<CountEntry>) {
    forall k, l :: 0 <= k < l < |t| ==> t[k].question != t[l].question
  }

  /** `counts[q] = (counts[q] || 0) + 1`: the key `q` gains one, every other
      key keeps its count, and a new key goes last. */
  function Bump(t: seq<CountEntry>, q: string): (r: seq<CountEntry>)
    ensures Total(r) == Total(t) + 1
    ensures |t| <= |r| <= |t| + 1
    ensures forall k :: 0 <= k < |t| ==> r[k].question == t[k].question
    ensures |r| == |t| + 1 ==> r[|t|] == CountEntry(q, 1) && forall k :: 0 <= k < |t| ==> t[k].question != q
    ensures exists k :: 0 <= k < |r| && r[k].question == q
    ensures DistinctKeys(t) ==> DistinctKeys(r)
    ensures DistinctKeys(t) ==> forall k :: 0 <= k < |t| ==>
      r[k].count == t[k].count + (if t[k].question == q then 1 else 0)
  {
    var i := KeyIndex(t, q);
    if i < |t| then
      TotalUpdate(t, i, t[i].(count := t[i].count + 1));
      var r := t[i := t[i].(count := t[i].count + 1)];
      assert r[i].question == q;
      r
    else
      assert (t + [CountEntry(q, 1)])[..|t|] == t;
      t + [CountEntry(q, 1)]
  }

  /** The reply object of submission-counts, built row by row as the route's
      `forEach` does. */
  function Tally(rows: seq<Submission>, examId: string, user: string): (r: seq<CountEntry>)
    ensures Total(r) == UserRows(rows, examId, user)
    decreases |rows|
  {
    if |rows| == 0 then []
    else
      var t := Tally(rows[..|rows| - 1], examId, user);
      var row := rows[|rows| - 1];
      if row.exam == examId && row.user == user then Bump(t, row.question) else t
  }

  lemma {:induction false} TallyDistinct(rows: seq<Submission>, examId: string, user: string)
    ensures DistinctKeys(Tally(rows, examId, user))
    decreases |rows|
  {
    if |rows| > 0 {
      TallyDistinct(rows[..|rows| - 1], examId, user);
    }
  }

  /** Each key holds the number of the user's rows for that question. */
  lemma {:induction false} TallyCountsExact(rows: seq<Submission>, examId: string, user: string)
    ensures forall k :: 0 <= k < |Tally(rows, examId, user)| ==>
      Tally(rows, examId, user)[k].count == Attempts(rows, examId, Tally(rows, examId, user)[k].question, user) > 0
    decreases |rows|
  {
    if |rows| > 0 {
      var prefix := rows[..|rows| - 1];
      TallyCountsExact(prefix, examId, user);
      TallyDistinct(prefix, examId, user);
      TallyCoversQuestions(prefix, examId, user);
      var t := Tally(prefix, examId, user);
      var row := rows[|rows| - 1];
      var r := Tally(rows, examId, user);
      forall k | 0 <= k < |r|
        ensures r[k].count == Attempts(rows, examId, r[k].question, user) > 0
      {
        var q := r[k].question;
        assert Attempts(rows, examId, q, user) == Attempts(prefix, examId, q, user) + (if Attempt(row, examId, q, user) then 1 else 0);
        if row.exam == examId && row.user == user {
          if k == |t| {
            assert Attempts(prefix, examId, q, user) == 0;
          }
        }
      }
    }
  }

  /** Every question the user has rows for is a key. */
  lemma {:induction false} TallyHasKey(rows: seq<Submission>, examId: string, user: string, q: string)
    requires Attempts(rows, examId, q, user) > 0
    ensures exists k :: 0 <= k < |Tally(rows, examId, user)| && Tally(rows, examId, user)[k].question == q
    decreases |rows|
  {
    var prefix := rows[..|rows| - 1];
    var t := Tally(prefix, examId, user);
    var row := rows[|rows| - 1];
    var r := Tally(rows, examId, user);
    if row.exam == examId && row.user == user && q == row.question {
      assert r == Bump(t, q);
    } else {
      TallyHasKey(prefix, examId, user, q);
      var k :| 0 <= k < |t| && t[k].question == q;
      assert r[k].question == q;
    }
  }

  lemma TallyCoversQuestions(rows: seq<Submission>, examId: string, user: string)
    ensures forall q :: Attempts(rows, examId, q, user) > 0 ==>
      exists k :: 0 <= k < |Tally(rows, examId, user)| && Tally(rows, examId, user)[k].question == q
  {
    forall q | Attempts(rows, examId, q, user) > 0
      ensures exists k :: 0 <= k < |Tally(rows, examId, user)| && Tally(rows, examId, user)[k].question == q
    {
      TallyHasKey(rows, examId, user, q);
    }
  }

  /** The per-question row counts of the user in the exam; a missing user
      header is a 400. */
  function SubmissionCounts(db: Db, examId: string, userHeader: Option<string>): (r: Reply<seq<CountEntry>>)
    ensures r.BadRequest? <==> !Truthy(userHeader)
    ensures r.Ok? ==>
      && (forall k :: 0 <= k < |r.body| ==> r.body[k].count == Attempts(db.rows, examId, r.body[k].question, userHeader.value))
      && (forall q :: (exists k :: 0 <= k < |r.body| && r.body[k].question == q) <==> Attempts(db.rows, examId, q, userHeader.value) > 0)
      && Total(r.body) == UserRows(db.rows, examId, userHeader.value)
    ensures r.Ok? ==> DistinctKeys(r.body)
  {
    if !Truthy(userHeader) then BadRequest("User ID required")
    else
      TallyDistinct(db.rows, examId, userHeader.value);
      TallyCountsExact(db.rows, examId, userHeader.value);
      TallyCoversQuestions(db.rows, examId, userHeader.value);
      Ok(Tally(db.rows, examId, userHeader.value))
  }

  // ---------------------------------------------------------------------
  // POST /run-code and POST /save-code

  datatype RunReply = LimitReached(error: string) | Queued(jobId: nat, remaining: int)

  /** The row a new job or saved submission becomes. */
  function NewRow(db: Db, now: int, user: string, examId: string, questionId: string, code: string,
                  input: Option<string>, mode: Option<string>, status: Status, output: Option<string>,
                  score: Option<int>): Submission
  {
    Submission(db.nextId, user, examId, questionId, code, input, mode, status, output, None, score, now)
  }

  function Insert(db: Db, row: Submission): (r: Db)
    requires row.id == db.nextId
    ensures ValidDb(db) ==> ValidDb(r)
  {
    Db(db.rows + [row], db.nextId + 1)
  }

  /** Creates a pending job unless the user already has `Quota` rows, of any
      status, for (exam, question). */
  function RunCode(db: Db, now: int, user: string, examId: string, questionId: string, code: string,
                   input: Option<string>, mode: Option<string>): (s: Step<RunReply>)
    ensures s.reply.LimitReached? <==> Attempts(db.rows, examId, questionId, user) >= Quota
    ensures s.reply.LimitReached? ==> s.db == db && s.reply.error == LimitMessage
    ensures s.reply.Queued? ==>
      && |s.db.rows| == |db.rows| + 1
      && s.db.rows[..|db.rows|] == db.rows
      && s.db.nextId == db.nextId + 1
      && var row := s.db.rows[|db.rows|];
         && row.id == s.reply.jobId == db.nextId
         && row.user == user && row.exam == examId && row.question == questionId
         && row.code == code && row.input == input
         && row.mode == Some(if Truthy(mode) then mode.value else DefaultMode)
         && row.status == Pending
         && 0 <= s.reply.remaining <= Quota - 1
         && s.reply.remaining == Quota - Attempts(s.db.rows, examId, questionId, user)
    ensures ValidDb(db) ==> ValidDb(s.db)
  {
    var count := Attempts(db.rows, examId, questionId, user);
    if count >= Quota then Step(db, LimitReached(LimitMessage))
    else
      var row := NewRow(db, now, user, examId, questionId, code, input, Some(OrDefault(mode, DefaultMode)), Pending, None, None);
      var db' := Insert(db, row);
      assert db'.rows[..|db.rows|] == db.rows;
      assert db'.rows[..|db'.rows| - 1] == db.rows;
      Step(db', Queued(db.nextId, Quota - (count + 1)))
  }

  /** Saves code without running it: always a new `submitted` row with a fixed
      output and zero score, and no quota check. */
  function SaveCode(db: Db, now: int, user: string, examId: string, questionId: string, code: string,
                    input: Option<string>): (s: Step<nat>)
    ensures |s.db.rows| == |db.rows| + 1 && s.db.rows[..|db.rows|] == db.rows
    ensures s.db.nextId == db.nextId + 1
    ensures var row := s.db.rows[|db.rows|];
      && row.id == s.reply == db.nextId
      && row.user == user && row.exam == examId && row.question == questionId
      && row.code == code && row.input == input
      && row.status == Submitted && row.output == Some(SavedOutput) && row.score == Some(0)
      && row.mode == None
    ensures Attempts(s.db.rows, examId, questionId, user) == Attempts(db.rows, examId, questionId, user) + 1
    ensures ValidDb(db) ==> ValidDb(s.db)
  {
    var row := NewRow(db, now, user, examId, questionId, code, input, None, Submitted, Some(SavedOutput), Some(0));
    var db' := Insert(db, row);
    assert db'.rows[..|db.rows|] == db.rows;
    Step(db', db.nextId)
  }

  /** Saved rows use up execution attempts: after five saves for a question the
      user can no longer run code for it. */
  lemma {:induction false} SavesExhaustQuota(db: Db, now: int, user: string, examId: string, questionId: string, code: string)
    ensures var d1 := SaveCode(db, now, user, examId, questionId, code, None).db;
            var d2 := SaveCode(d1, now, user, examId, questionId, code, None).db;
            var d3 := SaveCode(d2, now, user, examId, questionId, code, None).db;
            var d4 := SaveCode(d3, now, user, examId, questionId, code, None).db;
            var d5 := SaveCode(d4, now, user, examId, questionId, code, None).db;
            RunCode(d5, now, user, examId, questionId, code, None, None).reply.LimitReached?
  {
    var d1 := SaveCode(db, now, user, examId, questionId, code, None).db;
    var d2 := SaveCode(d1, now, user, examId, questionId, code, None).db;
    var d3 := SaveCode(d2, now, user, examId, questionId, code, None).db;
    var d4 := SaveCode(d3, now, user, examId, questionId, code, None).db;
    var d5 := SaveCode(d4, now, user, examId, questionId, code, None).db;
    assert Attempts(d5.rows, examId, questionId, user) >= 5;
  }

  /** An example of `RunStep`: from an empty table, the fourth run is
      accepted with one attempt left and the sixth is refused. */
  lemma QuotaSequence(now: int, user: string, examId: string, questionId: string, code: string)
    ensures var s1 := RunCode(Db([], 0), now, user, examId, questionId, code, None, None);
            var s2 := RunCode(s1.db, now, user, examId, questionId, code, None, None);
            var s3 := RunCode(s2.db, now, user, examId, questionId, code, None, None);
            var s4 := RunCode(s3.db, now, user, examId, questionId, code, None, None);
            var s5 := RunCode(s4.db, now, user, examId, questionId, code, None, None);
            var s6 := RunCode(s5.db, now, user, examId, questionId, code, None, None);
            && s4.reply == Queued(3, 1)
            && s5.reply == Queued(4, 0)
            && s6.reply.LimitReached? && s6.db == s5.db
  {
    var s1 := RunCode(Db([], 0), now, user, examId, questionId, code, None, None);
    RunStep(Db([], 0), now, user, examId, questionId, code);
    var s2 := RunCode(s1.db, now, user, examId, questionId, code, None, None);
    RunStep(s1.db, now, user, examId, questionId, code);
    var s3 := RunCode(s2.db, now, user, examId, questionId, code, None, None);
    RunStep(s2.db, now, user, examId, questionId, code);
    var s4 := RunCode(s3.db, now, user, examId, questionId, code, None, None);
    RunStep(s3.db, now, user, examId, questionId, code);
    var s5 := RunCode(s4.db, now, user, examId, questionId, code, None, None);
    RunStep(s4.db, now, user, examId, questionId, code);
    assert Attempts(s5.db.rows, examId, questionId, user) == 5;
  }

  /** One accepted run: the next identifier, one attempt fewer left, and one
      more row counted. */
  lemma RunStep(db: Db, now: int, user: string, examId: string, questionId: string, code: string)
    requires Attempts(db.rows, examId, questionId, user) < Quota
    ensures var s := RunCode(db, now, user, examId, questionId, code, None, None);
            && s.reply == Queued(db.nextId, Quota - 1 - Attempts(db.rows, examId, questionId, user))
            && s.db.nextId == db.nextId + 1
            && Attempts(s.db.rows, examId, questionId, user) == Attempts(db.rows, examId, questionId, user) + 1
  {
  }

  // ---------------------------------------------------------------------
  // GET /result/:submissionId

  datatype ResultView = ResultView(status: Status, output: Option<string>, score: Option<int>, image: Option<Bytes>)

  function ViewOf(r: Submission): ResultView {
    ResultView(r.status, r.output, r.score, r.image)
  }

  /** The polling view of one submission; no single matching row is an error. */
  function GetResult(db: Db, id: nat): (r: Option<ResultView>)
    ensures r.Some? <==> |RowsWithId(db, id)| == 1
    ensures r.Some? ==> exists row :: row in db.rows && row.id == id && ViewOf(row) == r.value
  {
    match Single(RowsWithId(db, id))
    case None => None
    case Some(row) => Some(ViewOf(row))
  }

  // ---------------------------------------------------------------------
  // GET /check-blocked/:examId and POST /block-user

  predicate BlocksPair(b: BlockRow, examId: string, user: string) {
    b.exam == examId && b.user == user
  }

  function BlockRowsFor(blocked: seq<BlockRow>, examId: string, user: string): seq<BlockRow> {
    Filter(blocked, (b: BlockRow) => BlocksPair(b, examId, user))
  }

  /** The `blocked_students` key: at most one row per (exam, user). */
  ghost predicate KeyedByPair(blocked: seq<BlockRow>) {
    forall i, j :: 0 <= i < j < |blocked| ==>
      !(blocked[i].exam == blocked[j].exam && blocked[i].user == blocked[j].user)
  }

  datatype BlockStatus = BlockStatus(blocked: bool, reason: Option<string>)

  /** Whether (exam, user) is blocked: a `.single()` lookup, where finding no
      row means not blocked. */
  function CheckBlocked(blocked: seq<BlockRow>, examId: string, userHeader: Option<string>): (r: Reply<BlockStatus>)
    ensures r.BadRequest? <==> !Truthy(userHeader)
    ensures r.Ok? ==> (r.body.blocked <==> |BlockRowsFor(blocked, examId, userHeader.value)| == 1)
    ensures r.Ok? && !r.body.blocked ==> r.body.reason == None
  {
    if !Truthy(userHeader) then BadRequest("User ID required")
    else
      match Single(BlockRowsFor(blocked, examId, userHeader.value))
      case None => Ok(BlockStatus(false, None))
      case Some(b) => Ok(BlockStatus(true, b.reason))
  }

  predicate HasBlockRow(blocked: seq<BlockRow>, examId: string, user: string) {
    exists i :: 0 <= i < |blocked| && BlocksPair(blocked[i], examId, user)
  }

  /** Upserts the (exam, user) row: a new row if none exists, otherwise the
      existing row takes the new reason. */
  function BlockUser(blocked: seq<BlockRow>, examId: string, user: string, reason: Option<string>): (r: seq<BlockRow>)
    ensures KeyedByPair(blocked) ==> KeyedByPair(r)
    ensures exists i :: 0 <= i < |r| && r[i] == BlockRow(examId, user, reason)
    ensures forall i :: 0 <= i < |r| && BlocksPair(r[i], examId, user) ==> r[i] == BlockRow(examId, user, reason)
    ensures forall i :: 0 <= i < |blocked| && !BlocksPair(blocked[i], examId, user) ==> blocked[i] in r
    ensures forall b :: b in r && !BlocksPair(b, examId, user) ==> b in blocked
  {
    if !HasBlockRow(blocked, examId, user) then
      var r := blocked + [BlockRow(examId, user, reason)];
      assert r[|blocked|] == BlockRow(examId, user, reason);
      r
    else
      var r := seq(|blocked|, i requires 0 <= i < |blocked| =>
        if BlocksPair(blocked[i], examId, user) then BlockRow(examId, user, reason) else blocked[i]);
      var i :| 0 <= i < |blocked| && BlocksPair(blocked[i], examId, user);
      assert r[i] == BlockRow(examId, user, reason);
      assert forall j :: 0 <= j < |blocked| && !BlocksPair(blocked[j], examId, user) ==> r[j] == blocked[j];
      r
  }

  /** Blocking twice is the same as blocking once. */
  lemma BlockIdempotent(blocked: seq<BlockRow>, examId: string, user: string, reason: Option<string>)
    ensures BlockUser(BlockUser(blocked, examId, user, reason), examId, user, reason) == BlockUser(blocked, examId, user, reason)
  {
    var once := BlockUser(blocked, examId, user, reason);
    var i :| 0 <= i < |once| && once[i] == BlockRow(examId, user, reason);
    assert HasBlockRow(once, examId, user);
  }

  /** With the table's key, a pair is reported blocked exactly when it has a row. */
  lemma {:induction false} CheckBlockedIffRow(blocked: seq<BlockRow>, examId: string, user: string)
    requires KeyedByPair(blocked)
    requires user != ""
    ensures CheckBlocked(blocked, examId, Some(user)).body.blocked
            <==> exists b :: b in blocked && BlocksPair(b, examId, user)
  {
    KeyedFilterAtMostOne(blocked, examId, user);
  }

  lemma {:induction false} KeyedFilterAtMostOne(blocked: seq<BlockRow>, examId: string, user: string)
    requires KeyedByPair(blocked)
    ensures |BlockRowsFor(blocked, examId, user)| <= 1
    decreases |blocked|
  {
    if |blocked| > 0 {
      KeyedFilterAtMostOne(blocked[1..], examId, user);
      if BlocksPair(blocked[0], examId, user) {
        assert forall k :: 0 <= k < |blocked[1..]| ==> !BlocksPair(blocked[1..][k], examId, user) by {
          forall k | 0 <= k < |blocked[1..]|
            ensures !BlocksPair(blocked[1..][k], examId, user)
          {
            assert blocked[1..][k] == blocked[k + 1];
          }
        }
        NoneMatch(blocked[1..], examId, user);
      }
    }
  }

  lemma {:induction false} NoneMatch(blocked: seq<BlockRow>, examId: string, user: string)
    requires forall k :: 0 <= k < |blocked| ==> !BlocksPair(blocked[k], examId, user)
    ensures BlockRowsFor(blocked, examId, user) == []
    decreases |blocked|
  {
    if |blocked| > 0 {
      NoneMatch(blocked[1..], examId, user);
    }
  }

  // ---------------------------------------------------------------------
  // POST /finish-exam

  /** Σ (score || 0) over the user's quiz rows in the exam: 0 for a user
      without rows, and never negative when no score is. */
  function QuizTotal(subs: seq<QuizSubmission>, examId: string, user: string): (t: int)
    ensures (forall i :: 0 <= i < |subs| ==> !(subs[i].exam == examId && subs[i].user == user)) ==> t == 0
    ensures (forall i :: 0 <= i < |subs| ==> OrZero(subs[i].score) >= 0) ==> t >= 0
    decreases |subs|
  {
    if |subs| == 0 then 0
    else
      var prefix := subs[..|subs| - 1];
      assert forall i :: 0 <= i < |prefix| ==> subs[i] == prefix[i];
      QuizTotal(prefix, examId, user)
      + (var s := subs[|subs| - 1]; if s.exam == examId && s.user == user then OrZero(s.score) else 0)
  }

  /** One more quiz row adds its score exactly when it is the user's row in
      the exam. */
  lemma QuizTotalAppend(subs: seq<QuizSubmission>, s: QuizSubmission, examId: string, user: string)
    ensures QuizTotal(subs + [s], examId, user)
            == QuizTotal(subs, examId, user) + (if s.exam == examId && s.user == user then OrZero(s.score) else 0)
  {
    assert (subs + [s])[..|subs|] == subs;
  }

  /** The user's most recent row for the question (latest `created_at`; among
      rows with equal timestamps, the one stored last). */
  function LatestRow(rows: seq<Submission>, examId: string, questionId: string, user: string): (r: Option<Submission>)
    ensures r.Some? <==> exists i :: 0 <= i < |rows| && Attempt(rows[i], examId, questionId, user)
    ensures r.Some? ==> r.value in rows && Attempt(r.value, examId, questionId, user)
    ensures r.Some? ==> forall i :: 0 <= i < |rows| && Attempt(rows[i], examId, questionId, user) ==> rows[i].createdAt <= r.value.createdAt
    decreases |rows|
  {
    if |rows| == 0 then None
    else
      var last := rows[|rows| - 1];
      var prev := LatestRow(rows[..|rows| - 1], examId, questionId, user);
      assert forall i :: 0 <= i < |rows| - 1 ==> rows[i] == rows[..|rows| - 1][i];
      if !Attempt(last, examId, questionId, user) then prev
      else if prev.Some? && prev.value.createdAt > last.createdAt then prev
      else Some(last)
  }

  /** One coding question's share of the final score: its latest row's score
      or 0, and 0 when the user never submitted. */
  function QuestionScore(rows: seq<Submission>, examId: string, questionId: string, user: string): (s: int)
    ensures (forall i :: 0 <= i < |rows| ==> !Attempt(rows[i], examId, questionId, user)) ==> s == 0
    ensures (forall i :: 0 <= i < |rows| ==> OrZero(rows[i].score) >= 0) ==> s >= 0
  {
    match LatestRow(rows, examId, questionId, user)
    case None => 0
    case Some(row) => OrZero(row.score)
  }

  /** A user with rows for the question scores what one of them scored, and
      that row is at least as new as all the others. */
  lemma QuestionScoreIsNewest(rows: seq<Submission>, examId: string, questionId: string, user: string)
    requires exists i :: 0 <= i < |rows| && Attempt(rows[i], examId, questionId, user)
    ensures exists i :: 0 <= i < |rows| && Attempt(rows[i], examId, questionId, user)
              && QuestionScore(rows, examId, questionId, user) == OrZero(rows[i].score)
              && forall j :: 0 <= j < |rows| && Attempt(rows[j], examId, questionId, user) ==> rows[j].createdAt <= rows[i].createdAt
  {
    var row := LatestRow(rows, examId, questionId, user).value;
    var i :| 0 <= i < |rows| && rows[i] == row;
  }

  /** A row that is not the user's row for the question leaves its score
      alone. */
  lemma QuestionScoreOtherRow(rows: seq<Submission>, row: Submission, examId: string, questionId: string, user: string)
    requires !Attempt(row, examId, questionId, user)
    ensures QuestionScore(rows + [row], examId, questionId, user) == QuestionScore(rows, examId, questionId, user)
  {
    assert (rows + [row])[..|rows|] == rows;
  }

  /** How many of the listed coding questions belong to the exam and carry
      the id (at most one, the id being the table's key). */
  function Listings(questions: seq<CodingQuestion>, examId: string, questionId: string): nat
    decreases |questions|
  {
    if |questions| == 0 then 0
    else Listings(questions[..|questions| - 1], examId, questionId)
         + (var q := questions[|questions| - 1]; if q.exam == examId && q.id == questionId then 1 else 0)
  }

  /** Σ over the exam's coding questions of `QuestionScore`: 0 for a user
      without rows in the exam, and never negative when no score is. */
  function CodingTotal(rows: seq<Submission>, questions: seq<CodingQuestion>, examId: string, user: string): (t: int)
    ensures (forall i :: 0 <= i < |rows| ==> !(rows[i].exam == examId && rows[i].user == user)) ==> t == 0
    ensures (forall i :: 0 <= i < |rows| ==> OrZero(rows[i].score) >= 0) ==> t >= 0
    decreases |questions|
  {
    if |questions| == 0 then 0
    else CodingTotal(rows, questions[..|questions| - 1], examId, user)
         + (var q := questions[|questions| - 1];
            if q.exam == examId then QuestionScore(rows, examId, q.id, user) else 0)
  }

  /** A row of another user or exam changes no coding question's score. */
  lemma {:induction false} CodingTotalOtherRow(rows: seq<Submission>, row: Submission, questions: seq<CodingQuestion>,
                                               examId: string, user: string)
    requires !(row.exam == examId && row.user == user)
    ensures CodingTotal(rows + [row], questions, examId, user) == CodingTotal(rows, questions, examId, user)
    decreases |questions|
  {
    if |questions| > 0 {
      var q := questions[|questions| - 1];
      CodingTotalOtherRow(rows, row, questions[..|questions| - 1], examId, user);
      QuestionScoreOtherRow(rows, row, examId, q.id, user);
    }
  }

  /** A new row of the user, newer than their earlier rows for its question,
      replaces that question's score when the exam lists the question, and
      changes nothing else (a question is listed at most once, its id being
      the table's key). */
  lemma {:induction false} CodingTotalNewRow(rows: seq<Submission>, row: Submission, questions: seq<CodingQuestion>,
                                             examId: string, user: string)
    requires row.exam == examId && row.user == user
    requires forall i :: 0 <= i < |rows| && Attempt(rows[i], examId, row.question, user) ==> rows[i].createdAt < row.createdAt
    requires Listings(questions, examId, row.question) <= 1
    ensures CodingTotal(rows + [row], questions, examId, user)
            == CodingTotal(rows, questions, examId, user)
               + (if Listings(questions, examId, row.question) == 1
                  then OrZero(row.score) - QuestionScore(rows, examId, row.question, user) else 0)
    decreases |questions|
  {
    if |questions| > 0 {
      var prefix := questions[..|questions| - 1];
      CodingTotalNewRow(rows, row, prefix, examId, user);
      NewRowShare(rows, row, questions[|questions| - 1], examId, user);
    }
  }

  /** One listed question's share after the new row: changed by the new
      row's difference for its own question, unchanged for any other. */
  lemma NewRowShare(rows: seq<Submission>, row: Submission, q: CodingQuestion, examId: string, user: string)
    requires row.exam == examId && row.user == user
    requires forall i :: 0 <= i < |rows| && Attempt(rows[i], examId, row.question, user) ==> rows[i].createdAt < row.createdAt
    ensures q.exam == examId && q.id == row.question ==>
              QuestionScore(rows + [row], examId, q.id, user) == OrZero(row.score)
    ensures q.id != row.question ==>
              QuestionScore(rows + [row], examId, q.id, user) == QuestionScore(rows, examId, q.id, user)
  {
    if q.exam == examId && q.id == row.question {
      NewestRowDecides(rows, row);
    }
    if q.id != row.question {
      QuestionScoreOtherRow(rows, row, examId, q.id, user);
    }
  }

  datatype Totals = Totals(quizScore: int, codingScore: int, totalScore: int)

  /** The finish-exam reply: quiz rows summed, the latest row per coding
      question summed, and their total. */
  function FinishExam(db: Db, quizSubs: seq<QuizSubmission>, coding: seq<CodingQuestion>, examId: string, user: string): (r: Totals)
    ensures r.totalScore == r.quizScore + r.codingScore
    ensures r.quizScore == QuizTotal(quizSubs, examId, user)
    ensures r.codingScore == CodingTotal(db.rows, coding, examId, user)
    ensures (forall i :: 0 <= i < |quizSubs| ==> !(quizSubs[i].exam == examId && quizSubs[i].user == user))
            && (forall i :: 0 <= i < |db.rows| ==> !(db.rows[i].exam == examId && db.rows[i].user == user))
            ==> r == Totals(0, 0, 0)
  {
    var quiz := QuizTotal(quizSubs, examId, user);
    var code := CodingTotal(db.rows, coding, examId, user);
    Totals(quiz, code, quiz + code)
  }

  /** A row strictly newer than every earlier row for its question decides
      that question's score, whatever the earlier scores were. */
  lemma NewestRowDecides(rows: seq<Submission>, row: Submission)
    requires forall i :: 0 <= i < |rows| && Attempt(rows[i], row.exam, row.question, row.user) ==> rows[i].createdAt < row.createdAt
    ensures QuestionScore(rows + [row], row.exam, row.question, row.user) == OrZero(row.score)
  {
    assert (rows + [row])[..|rows|] == rows;
  }

  /** A run of the user, newer than their earlier rows for its question,
      replaces that question's share of the coding score when the exam lists
      the question once; the quiz score does not move. */
  lemma FinishExamNewRun(db: Db, quizSubs: seq<QuizSubmission>, coding: seq<CodingQuestion>, examId: string, user: string,
                         row: Submission)
    requires row.id == db.nextId && row.exam == examId && row.user == user
    requires forall i :: 0 <= i < |db.rows| && Attempt(db.rows[i], examId, row.question, user) ==> db.rows[i].createdAt < row.createdAt
    requires Listings(coding, examId, row.question) == 1
    ensures var before := FinishExam(db, quizSubs, coding, examId, user);
            var after := FinishExam(Insert(db, row), quizSubs, coding, examId, user);
            && after.quizScore == before.quizScore
            && after.codingScore == before.codingScore - QuestionScore(db.rows, examId, row.question, user) + OrZero(row.score)
            && after.totalScore == before.totalScore - QuestionScore(db.rows, examId, row.question, user) + OrZero(row.score)
  {
    CodingTotalNewRow(db.rows, row, coding, examId, user);
  }

  /** Rows of other users or other exams, in either table, leave all three
      totals unchanged. */
  lemma FinishExamIgnoresOthers(db: Db, quizSubs: seq<QuizSubmission>, coding: seq<CodingQuestion>, examId: string, user: string,
                                row: Submission, sub: QuizSubmission)
    requires row.id == db.nextId
    requires !(row.exam == examId && row.user == user) && !(sub.exam == examId && sub.user == user)
    ensures FinishExam(Insert(db, row), quizSubs + [sub], coding, examId, user) == FinishExam(db, quizSubs, coding, examId, user)
  {
    CodingTotalOtherRow(db.rows, row, coding, examId, user);
    QuizTotalAppend(quizSubs, sub, examId, user);
  }

  /** An example of `NewestRowDecides`: scores 3, 0, 5 submitted in that
      order count 5, neither the maximum nor the sum. */
  lemma LatestNotMaxNotSum(a: Submission, b: Submission, c: Submission)
    requires a.score == Some(3) && b.score == Some(0) && c.score == Some(5)
    requires a.createdAt < b.createdAt < c.createdAt
    requires Attempt(a, c.exam, c.question, c.user) && Attempt(b, c.exam, c.question, c.user)
    ensures QuestionScore([a, b, c], c.exam, c.question, c.user) == 5
  {
    NewestRowDecides([a, b], c);
    assert [a, b] + [c] == [a, b, c];
  }
}

=== FILE: executor.dfy ===
/** The worker agent of `executor/index.js`: one poll step, and the
    processing of one claimed job from workspace set-up to cleanup. The
    interpreter run, the file system and the network are parameters: the run
    is an oracle returning its captured streams, the workspace listing is a
    sequence of files, and the report is described by the payload it sends. */
module Executor {
  import opened Common
  import opened Text
  import opened Schema
  import AgentRoutes
  import ExamRoutes

  const ScilabPath := "C:\\Program Files\\scilab-2026.0.0\\bin\\WScilex-cli.exe"
  const DefaultAgentKey := "secret"
  const DefaultMode := "server"
  /** Milliseconds between the end of one poll and the start of the next. */
  const PollInterval: nat := 2000
  const TimeoutNote := "\nExecution timed out."

  // ---------------------------------------------------------------------
  // Configuration and poll headers

  /** The agent's settings after environment defaults are applied. */
  datatype Config = Config(agentKey: string, mode: string, filterUser: Option<string>)

  /** `AGENT_SECRET_KEY || 'secret'`, `EXECUTION_MODE || 'server'`, and the
      optional `FILTER_USER_ID`. */
  function LoadConfig(envKey: Option<string>, envMode: Option<string>, envFilter: Option<string>): (c: Config)
    ensures Truthy(envKey) ==> c.agentKey == envKey.value
    ensures !Truthy(envKey) ==> c.agentKey == DefaultAgentKey
    ensures Truthy(envMode) ==> c.mode == envMode.value
    ensures !Truthy(envMode) ==> c.mode == DefaultMode
    ensures c.agentKey != "" && c.mode != ""
    ensures c.filterUser == envFilter
  {
    Config(OrDefault(envKey, DefaultAgentKey), OrDefault(envMode, DefaultMode), envFilter)
  }

  /** The headers of a poll request. */
  function PollHeaders(c: Config): (h: seq<Header>)
    ensures |h| >= 2
    ensures h[0] == Header("x-agent-key", c.agentKey)
    ensures h[1] == Header("x-execution-mode", c.mode)
    ensures |h| == 3 <==> Truthy(c.filterUser)
    ensures |h| == 3 ==> h[2] == Header("x-filter-user-id", c.filterUser.value)
  {
    [Header("x-agent-key", c.agentKey), Header("x-execution-mode", c.mode)]
    + (if Truthy(c.filterUser) then [Header("x-filter-user-id", c.filterUser.value)] else [])
  }

  /** The server sees exactly the agent's mode and filter: it never falls
      back to its own default mode, and filters by user exactly when the agent
      was started with a user filter. */
  lemma ServerReadsPollHeaders(envKey: Option<string>, envMode: Option<string>, envFilter: Option<string>)
    ensures var c := LoadConfig(envKey, envMode, envFilter);
            var h := PollHeaders(c);
            && OrDefault(HeaderValue(h, "x-execution-mode"), ExamRoutes.DefaultMode) == c.mode
            && (Truthy(HeaderValue(h, "x-filter-user-id")) <==> Truthy(envFilter))
            && (Truthy(envFilter) ==> HeaderValue(h, "x-filter-user-id") == envFilter)
  {
    var c := LoadConfig(envKey, envMode, envFilter);
    var h := PollHeaders(c);
    assert h[1..][0] == h[1];
    if Truthy(envFilter) {
      assert h[1..][1..][0] == h[2];
    } else {
      assert h[1..][1..] == [];
    }
  }

  /** What the poll got back: a transport or HTTP error, or a reply whose job
      may be null. */
  datatype PollResponse = PollFailed | PollReply(job: Option<AgentRoutes.ClaimedJob>)

  /** The worker's view of the server's claim reply: a 404 makes the HTTP
      client throw. */
  function ResponseOf(reply: AgentRoutes.ClaimReply): (r: PollResponse)
    ensures reply.Job? <==> r.PollReply? && r.job.Some?
    ensures reply.Job? ==> r.job.value == reply.job
    ensures reply.QuestionNotFound? <==> r.PollFailed?
  {
    match reply
    case NoJob => PollReply(None)
    case QuestionNotFound => PollFailed
    case Job(j) => PollReply(Some(j))
  }

  /** One poll step: the job to process now, if any, and the delay before the
      next poll. */
  datatype PollStep = PollStep(process: Option<AgentRoutes.ClaimedJob>, nextPollIn: nat)

  /** Every outcome, error included, schedules the next poll after the same
      interval; a job is processed only when one was received. */
  function Poll(response: PollResponse): (s: PollStep)
    ensures s.nextPollIn == PollInterval
    ensures s.process.Some? <==> response.PollReply? && response.job.Some?
    ensures s.process.Some? ==> s.process == response.job
  {
    match response
    case PollFailed => PollStep(None, PollInterval)
    case PollReply(job) => PollStep(job, PollInterval)
  }

  // ---------------------------------------------------------------------
  // The command line

  /** `path.join` with the Windows separator. */
  function JoinPath(dir: string, name: string): string {
    dir + "\\" + name
  }

  function Quote(s: string): string {
    "\"" + s + "\""
  }

  function ScriptPath(dir: string): string {
    JoinPath(dir, "script.sci")
  }

  function InputPath(dir: string): string {
    JoinPath(dir, "input.txt")
  }

  /** The interpreter invocation, with `type <input> |` in front when the job
      has non-empty input. */
  function Command(dir: string, input: Option<string>): (c: string)
    ensures Truthy(input) <==> |c| >= 5 && c[..5] == "type "
    ensures EndsWith(c, ScriptArgs(dir))
  {
    Invocation(ScilabPath, dir, input)
  }

  /** `Command` for an interpreter at `exe`. */
  function Invocation(exe: string, dir: string, input: Option<string>): (c: string)
    ensures Truthy(input) <==> |c| >= 5 && c[..5] == "type "
    ensures EndsWith(c, ScriptArgs(dir))
  {
    var run := Run(exe, dir);
    assert run[0] == '"';
    assert run[|run| - |ScriptArgs(dir)|..] == ScriptArgs(dir);
    if Truthy(input) then
      var c := Pipe(dir) + run;
      assert c[..5] == "type ";
      assert c[|c| - |ScriptArgs(dir)|..] == ScriptArgs(dir);
      c
    else run
  }

  /** The interpreter with the script to execute. */
  function Run(exe: string, dir: string): string {
    Quote(exe) + ScriptArgs(dir)
  }

  function ScriptArgs(dir: string): string {
    " -nb -f " + Quote(ScriptPath(dir))
  }

  /** The input file piped into the interpreter. */
  function Pipe(dir: string): string {
    "type " + Quote(InputPath(dir)) + " | "
  }

  /** A job with input pipes its input file into exactly the command a job
      without input runs; an empty input counts as none. */
  lemma CommandShapes(dir: string, input: Option<string>)
    ensures Truthy(input) ==> Command(dir, input) == "type \"" + InputPath(dir) + "\" | " + Command(dir, None)
    ensures !Truthy(input) ==> Command(dir, input) == Command(dir, None)
    ensures Command(dir, Some("")) == Command(dir, None)
    ensures EndsWith(Command(dir, input), " -nb -f \"" + dir + "\\script.sci\"")
  {
    InvocationShapes(ScilabPath, dir, input);
  }

  /** `CommandShapes` for an interpreter at `exe`. */
  lemma InvocationShapes(exe: string, dir: string, input: Option<string>)
    ensures Truthy(input) ==> Invocation(exe, dir, input) == "type \"" + InputPath(dir) + "\" | " + Invocation(exe, dir, None)
    ensures !Truthy(input) ==> Invocation(exe, dir, input) == Invocation(exe, dir, None)
    ensures Invocation(exe, dir, Some("")) == Invocation(exe, dir, None)
    ensures EndsWith(Invocation(exe, dir, input), " -nb -f \"" + dir + "\\script.sci\"")
  {
    ScriptTail(dir);
    InputHead(dir);
  }

  lemma ScriptTail(dir: string)
    ensures ScriptArgs(dir) == " -nb -f \"" + dir + "\\script.sci\""
  {
  }

  lemma InputHead(dir: string)
    ensures Pipe(dir) == "type \"" + InputPath(dir) + "\" | "
  {
  }

  // ---------------------------------------------------------------------
  // Running a job

  /** The interpreter run: a normal exit, or an error with the streams
      captured so far and whether the process was killed by the timeout. */
  datatype ExecResult = ExecOk(stdout: string, stderr: string) | ExecError(stdout: string, stderr: string, killed: bool)

  datatype FileEntry = FileEntry(name: string, content: Bytes)

  predicate IsPng(f: FileEntry) {
    EndsWith(f.name, ".png")
  }

  /** The contents of the first listed file whose name ends in `.png`. */
  function FirstPng(files: seq<FileEntry>): (r: Option<Bytes>)
    ensures r.None? <==> forall i :: 0 <= i < |files| ==> !IsPng(files[i])
    ensures r.Some? ==> exists i :: 0 <= i < |files| && IsPng(files[i]) && files[i].content == r.value
                                   && forall j :: 0 <= j < i ==> !IsPng(files[j])
    decreases |files|
  {
    if |files| == 0 then None
    else if IsPng(files[0]) then Some(files[0].content)
    else
      var r := FirstPng(files[1..]);
      if r.Some? then
        var i :| 0 <= i < |files[1..]| && IsPng(files[1..][i]) && files[1..][i].content == r.value
                 && forall j :: 0 <= j < i ==> !IsPng(files[1..][j]);
        assert IsPng(files[i + 1]) && files[i + 1].content == r.value;
        assert forall j :: 0 <= j < i + 1 ==> !IsPng(files[j]) by {
          forall j | 0 <= j < i + 1 ensures !IsPng(files[j]) {
            if j > 0 {
              assert files[j] == files[1..][j - 1];
            }
          }
        }
        r
      else r
  }

  /** The result a run produces: status, combined output and optional image. */
  datatype Outcome = Outcome(status: Status, output: string, image: Option<Bytes>)

  /** A normal exit is `completed` with stdout then stderr and the first PNG
      of the workspace; an error is `failed` with the same streams, a timeout
      note when the process was killed, and no image. */
  function Classify(result: ExecResult, files: seq<FileEntry>): (o: Outcome)
    ensures o.status == Completed <==> result.ExecOk?
    ensures o.status == Failed <==> result.ExecError?
    ensures |result.stdout| <= |o.output| && o.output[..|result.stdout|] == result.stdout
    ensures result.ExecOk? ==> o.output == result.stdout + result.stderr && o.image == FirstPng(files)
    ensures result.ExecError? ==> o.image == None
    ensures result.ExecError? && !result.killed ==> o.output == result.stdout + result.stderr
    ensures result.ExecError? && result.killed ==> EndsWith(o.output, TimeoutNote)
    ensures result.ExecError? && result.killed ==> o.output[..|o.output| - |TimeoutNote|] == result.stdout + result.stderr
  {
    match result
    case ExecOk(out, err) => Outcome(Completed, out + err, FirstPng(files))
    case ExecError(out, err, killed) =>
      var text := out + err + (if killed then TimeoutNote else "");
      assert text[..|out|] == out;
      Outcome(Failed, text, None)
  }

  /** The body of the result POST. The worker always reports score 0. */
  datatype ReportPayload = ReportPayload(jobId: nat, output: string, image: Option<Bytes>, status: Status, score: int)

  /** The file-system and network effects of processing one job, in order. */
  datatype Effect =
    | EnsureDir(path: string)
    | WriteFile(path: string, text: string)
    | Exec(command: string)
    | ReadDir(path: string)
    | ReadImage
    | PostResult(payload: ReportPayload)
    | RemoveDir(path: string)

  /** The job's workspace: `<base>\temp\<id>`. */
  function Workspace(base: string, id: nat): (w: string)
    ensures |w| > |base| + 6 && w[..|base| + 6] == base + "\\temp\\"
    ensures var digits := w[|base| + 6..];
      (forall i :: 0 <= i < |digits| ==> '0' <= digits[i] <= '9') && DigitsValue(digits) == id
  {
    var w := JoinPath(JoinPath(base, "temp"), NatToString(id));
    assert w[|base| + 6..] == NatToString(id);
    NatToStringValue(id);
    w
  }

  /** Two jobs never share a workspace. */
  lemma WorkspacesDistinct(base: string, a: nat, b: nat)
    requires a != b
    ensures Workspace(base, a) != Workspace(base, b)
  {
    var wa, wb := Workspace(base, a), Workspace(base, b);
    assert wa[|base| + 6..] != wb[|base| + 6..];
  }

  /** Neither posts a result nor removes a directory. */
  predicate Preparatory(e: Effect) {
    !e.PostResult? && !e.RemoveDir?
  }

  /** Creating the workspace and writing the script, then the input file
      when the job has non-empty input. */
  function SetupEffects(dir: string, job: AgentRoutes.ClaimedJob): (r: seq<Effect>)
    ensures |r| >= 2 && r[0] == EnsureDir(dir) && r[1] == WriteFile(ScriptPath(dir), job.code)
    ensures forall i :: 0 <= i < |r| ==> Preparatory(r[i])
    ensures Truthy(job.input) ==> |r| == 3 && r[2] == WriteFile(InputPath(dir), job.input.value)
    ensures !Truthy(job.input) ==> |r| == 2
  {
    [EnsureDir(dir), WriteFile(ScriptPath(dir), job.code)]
    + (if Truthy(job.input) then [WriteFile(InputPath(dir), job.input.value)] else [])
  }

  /** Running the command, then (after a normal exit only) listing the
      workspace and reading the image found there. */
  function RunEffects(dir: string, job: AgentRoutes.ClaimedJob, result: ExecResult, files: seq<FileEntry>): (r: seq<Effect>)
    ensures |r| >= 1 && r[0] == Exec(Command(dir, job.input))
    ensures forall i :: 0 <= i < |r| ==> Preparatory(r[i]) && !r[i].WriteFile?
    ensures result.ExecError? ==> |r| == 1
  {
    [Exec(Command(dir, job.input))]
    + (match result
       case ExecOk(_, _) => [ReadDir(dir)] + (if FirstPng(files).Some? then [ReadImage] else [])
       case ExecError(_, _, _) => [])
  }

  lemma ScriptIsNotInput(dir: string)
    ensures ScriptPath(dir) != InputPath(dir)
  {
    assert ScriptPath(dir)[|dir| + 1] == 's' && InputPath(dir)[|dir| + 1] == 'i';
  }

  datatype Processed = Processed(effects: seq<Effect>, payload: ReportPayload)

  /** Processes one job: write the script (and the input when present), run
      the command, collect output and image, post the payload, then remove the
      workspace whether or not the post succeeded. */
  function ProcessJob(base: string, job: AgentRoutes.ClaimedJob, result: ExecResult, files: seq<FileEntry>): (p: Processed)
    ensures InOrder(p.effects, Workspace(base, job.id), job, p.payload)
    ensures p.payload.jobId == job.id && p.payload.score == 0
    ensures var o := Classify(result, files);
      p.payload.status == o.status && p.payload.output == o.output && p.payload.image == o.image
    ensures p.payload.status == Completed || p.payload.status == Failed
  {
    var dir := Workspace(base, job.id);
    var o := Classify(result, files);
    var payload := ReportPayload(job.id, o.output, o.image, o.status, 0);
    var effects := JobEffects(dir, job, result, files, payload);
    EffectsShape(dir, job, result, files, payload);
    Processed(effects, payload)
  }

  /** What processing a job in `dir` does, in order: create the directory,
      write the script, write the input file exactly when the job has
      non-empty input, run the command, and only then post `payload` and
      remove the directory. */
  predicate InOrder(effects: seq<Effect>, dir: string, job: AgentRoutes.ClaimedJob, payload: ReportPayload) {
    && |effects| >= 5
    && effects[0] == EnsureDir(dir)
    && effects[1] == WriteFile(ScriptPath(dir), job.code)
    && (Truthy(job.input) <==> exists i :: 0 <= i < |effects| && effects[i] == WriteFile(InputPath(dir), job.input.GetOr("")))
    && (exists i :: 0 <= i < |effects| && effects[i] == Exec(Command(dir, job.input)))
    && effects[|effects| - 2] == PostResult(payload)
    && effects[|effects| - 1] == RemoveDir(dir)
    && (forall i :: 0 <= i < |effects| - 2 ==> Preparatory(effects[i]))
  }

  /** The effects of a job run in `dir` that reports `payload`. */
  function JobEffects(dir: string, job: AgentRoutes.ClaimedJob, result: ExecResult, files: seq<FileEntry>, payload: ReportPayload): seq<Effect> {
    SetupEffects(dir, job) + RunEffects(dir, job, result, files) + [PostResult(payload), RemoveDir(dir)]
  }

  /** The order of the effects: set-up, the run, the post, the removal, and
      the input file written exactly when the job has non-empty input. */
  lemma EffectsShape(dir: string, job: AgentRoutes.ClaimedJob, result: ExecResult, files: seq<FileEntry>, payload: ReportPayload)
    ensures InOrder(JobEffects(dir, job, result, files, payload), dir, job, payload)
  {
    var setup := SetupEffects(dir, job);
    var run := RunEffects(dir, job, result, files);
    var effects := JobEffects(dir, job, result, files, payload);
    assert effects[|setup|] == Exec(Command(dir, job.input));
    InputWrittenIffGiven(dir, job, result, files, payload);
    forall i | 0 <= i < |effects| - 2 ensures Preparatory(effects[i]) {
      if i >= |setup| {
        assert effects[i] == run[i - |setup|];
      }
    }
  }

  /** The input file is written exactly when the job has non-empty input. */
  lemma InputWrittenIffGiven(dir: string, job: AgentRoutes.ClaimedJob, result: ExecResult, files: seq<FileEntry>, payload: ReportPayload)
    ensures var effects := JobEffects(dir, job, result, files, payload);
      Truthy(job.input) <==> exists i :: 0 <= i < |effects| && effects[i] == WriteFile(InputPath(dir), job.input.GetOr(""))
  {
    var setup := SetupEffects(dir, job);
    var run := RunEffects(dir, job, result, files);
    var effects := JobEffects(dir, job, result, files, payload);
    if Truthy(job.input) {
      assert effects[2] == WriteFile(InputPath(dir), job.input.GetOr(""));
    } else {
      ScriptIsNotInput(dir);
      forall i | 0 <= i < |effects| ensures effects[i] != WriteFile(InputPath(dir), "") {
        if 2 <= i < |setup| + |run| {
          assert effects[i] == run[i - 2];
        }
      }
    }
  }

  /** The payload of a normal exit: completed, stdout then stderr, the first
      image, score 0. */
  lemma CompletedPayload(base: string, job: AgentRoutes.ClaimedJob, out: string, err: string, files: seq<FileEntry>)
    ensures ProcessJob(base, job, ExecOk(out, err), files).payload
            == ReportPayload(job.id, out + err, FirstPng(files), Completed, 0)
  {
  }

  /** A timed-out run is reported as failed, with the timeout note at the end
      of its output, no image, and score 0. */
  lemma TimeoutReport(base: string, job: AgentRoutes.ClaimedJob, out: string, err: string, files: seq<FileEntry>)
    ensures ProcessJob(base, job, ExecError(out, err, true), files).payload
            == ReportPayload(job.id, out + err + "\nExecution timed out.", None, Failed, 0)
  {
  }
}

=== FILE: lifecycle.dfy ===
/** The submission lifecycle end to end: a run request creates a pending job,
    a worker claims it, runs it and reports, and the page's poller reads the
    stored result. Each step is the route or worker function of its own
    module; this module only composes them. */
module Lifecycle {
  import opened Common
  import opened Schema
  import ExamRoutes
  import AgentRoutes
  import Executor
  import ExamPage

  /** A row keeps its identifier through a claim. */
  lemma ClaimKeepsValid(db: Db, id: nat)
    requires ValidDb(db)
    ensures ValidDb(AgentRoutes.MarkRunning(db, id))
  {
    var r := AgentRoutes.MarkRunning(db, id);
    assert forall i :: 0 <= i < |db.rows| ==> r.rows[i].id == db.rows[i].id;
  }

  /** In a valid table the row at `k` is the only row with its identifier. */
  lemma UniqueAt(db: Db, k: nat)
    requires ValidDb(db) && k < |db.rows|
    ensures RowsWithId(db, db.rows[k].id) == [db.rows[k]]
  {
    FilterOne(db.rows, (r: Submission) => r.id == db.rows[k].id, k);
  }

  /** After a report for an existing row, polling that row returns exactly
      what was reported, with the score the server graded. */
  lemma ReportedResultIsVisible(db: Db, coding: seq<CodingQuestion>, k: nat,
                                output: Option<string>, status: Status, score: Option<int>, image: Option<Bytes>)
    requires ValidDb(db) && k < |db.rows|
    ensures var id := db.rows[k].id;
            var question := Single(AgentRoutes.QuestionsWithId(coding, db.rows[k].question));
            var rep := AgentRoutes.Report(db, coding, id, output, status, score, image);
            && rep.reply.Reported?
            && ExamRoutes.GetResult(rep.db, id)
               == Some(ExamRoutes.ResultView(status, output, Some(AgentRoutes.FinalScore(status, question, score)), image))
  {
    var id := db.rows[k].id;
    UniqueAt(db, k);
    var rep := AgentRoutes.Report(db, coding, id, output, status, score, image);
    assert ValidDb(rep.db) by {
      assert forall i :: 0 <= i < |db.rows| ==> rep.db.rows[i].id == db.rows[i].id;
    }
    UniqueAt(rep.db, k);
  }

  /** A job appended to a table without candidates is the only candidate. */
  lemma OnlyCandidate(rows: seq<Submission>, row: Submission, mode: string, filter: Option<string>)
    requires forall i :: 0 <= i < |rows| ==> !AgentRoutes.Candidate(rows[i], mode, filter)
    requires AgentRoutes.Candidate(row, mode, filter)
    ensures Filter(rows + [row], AgentRoutes.IsCandidate(mode, filter)) == [row]
  {
    FilterNone(rows, AgentRoutes.IsCandidate(mode, filter));
    FilterAppend(rows, row, AgentRoutes.IsCandidate(mode, filter));
  }

  /** A poll that sees a single candidate claims it. */
  lemma ClaimSoleCandidate(d: Db, coding: seq<CodingQuestion>, mode: string, row: Submission)
    requires mode != ""
    requires AgentRoutes.Candidates(d, mode, None) == [row]
    requires |AgentRoutes.QuestionsWithId(coding, row.question)| == 1
    ensures var claim := AgentRoutes.Claim(d, coding, Some(mode), None);
            && claim.reply.Job?
            && claim.reply.job.id == row.id && claim.reply.job.code == row.code
            && claim.reply.job.input == row.input && claim.reply.job.question == row.question
            && claim.db == AgentRoutes.MarkRunning(d, row.id)
  {
  }

  /** A fresh job is claimed by the next default-mode poll when no other row
      is waiting for one. */
  lemma FreshJobIsClaimed(db: Db, coding: seq<CodingQuestion>, now: int, user: string, examId: string,
                          questionId: string, code: string)
    requires ValidDb(db)
    requires ExamRoutes.Attempts(db.rows, examId, questionId, user) < ExamRoutes.Quota
    requires forall i :: 0 <= i < |db.rows| ==> !AgentRoutes.Candidate(db.rows[i], Executor.DefaultMode, None)
    requires |AgentRoutes.QuestionsWithId(coding, questionId)| == 1
    ensures var run := ExamRoutes.RunCode(db, now, user, examId, questionId, code, None, None);
            var claim := AgentRoutes.Claim(run.db, coding, Some(Executor.DefaultMode), None);
            && run.reply.Queued?
            && claim.reply.Job?
            && claim.reply.job.id == run.reply.jobId == db.nextId
            && claim.reply.job.code == code && claim.reply.job.input == None
            && claim.reply.job.question == questionId
            && |claim.db.rows| == |db.rows| + 1
            && claim.db.rows[|db.rows|].id == db.nextId
            && claim.db.rows[|db.rows|].question == questionId
            && ValidDb(claim.db)
  {
    var run := ExamRoutes.RunCode(db, now, user, examId, questionId, code, None, None);
    var row := run.db.rows[|db.rows|];
    assert run.db.rows == db.rows + [row];
    OnlyCandidate(db.rows, row, Executor.DefaultMode, None);
    ClaimSoleCandidate(run.db, coding, Executor.DefaultMode, row);
    ClaimKeepsValid(run.db, row.id);
  }

  /** Reporting a payload for the job at `k` makes the poller read that
      payload back, with the score the server graded. */
  lemma ReportedPayloadIsVisible(d: Db, coding: seq<CodingQuestion>, k: nat, p: Executor.ReportPayload)
    requires ValidDb(d) && k < |d.rows| && p.jobId == d.rows[k].id
    ensures var question := Single(AgentRoutes.QuestionsWithId(coding, d.rows[k].question));
            var rep := AgentRoutes.Report(d, coding, p.jobId, Some(p.output), p.status, Some(p.score), p.image);
            ExamRoutes.GetResult(rep.db, p.jobId)
            == Some(ExamRoutes.ResultView(p.status, Some(p.output),
                                          Some(AgentRoutes.FinalScore(p.status, question, Some(p.score))), p.image))
  {
    ReportedResultIsVisible(d, coding, k, Some(p.output), p.status, Some(p.score), p.image);
  }

  /** The whole happy path: the run is queued, claimed by a worker in the
      default mode, completes, and the poller then shows `completed` with the
      program's output, the first image, and the question's full points. */
  lemma CompletedRunIsGraded(db: Db, coding: seq<CodingQuestion>, now: int, user: string, examId: string,
                             questionId: string, code: string, base: string, out: string, err: string,
                             files: seq<Executor.FileEntry>)
    requires ValidDb(db)
    requires ExamRoutes.Attempts(db.rows, examId, questionId, user) < ExamRoutes.Quota
    requires forall i :: 0 <= i < |db.rows| ==> !AgentRoutes.Candidate(db.rows[i], Executor.DefaultMode, None)
    requires |AgentRoutes.QuestionsWithId(coding, questionId)| == 1
    ensures var run := ExamRoutes.RunCode(db, now, user, examId, questionId, code, None, None);
            var claim := AgentRoutes.Claim(run.db, coding, Some(Executor.DefaultMode), None);
            var p := Executor.ProcessJob(base, claim.reply.job, Executor.ExecOk(out, err), files).payload;
            var rep := AgentRoutes.Report(claim.db, coding, p.jobId, Some(p.output), p.status, Some(p.score), p.image);
            var view := ExamRoutes.GetResult(rep.db, db.nextId);
            && view == Some(ExamRoutes.ResultView(Completed, Some(out + err),
                                                  Some(AgentRoutes.QuestionsWithId(coding, questionId)[0].points),
                                                  Executor.FirstPng(files)))
            && ExamPage.PollTick(view) == ExamPage.Stop(Some("completed"), Some(out + err), Executor.FirstPng(files))
  {
    FreshJobIsClaimed(db, coding, now, user, examId, questionId, code);
    var run := ExamRoutes.RunCode(db, now, user, examId, questionId, code, None, None);
    var claim := AgentRoutes.Claim(run.db, coding, Some(Executor.DefaultMode), None);
    CompletedJobIsGraded(claim.db, coding, |db.rows|, claim.reply.job, base, out, err, files);
  }

  /** A claimed job whose run exits normally is shown as `completed` with the
      question's full points, and the poller stops on it. */
  lemma CompletedJobIsGraded(d: Db, coding: seq<CodingQuestion>, k: nat, job: AgentRoutes.ClaimedJob,
                             base: string, out: string, err: string, files: seq<Executor.FileEntry>)
    requires ValidDb(d) && k < |d.rows| && d.rows[k].id == job.id && d.rows[k].question == job.question
    requires |AgentRoutes.QuestionsWithId(coding, job.question)| == 1
    ensures var p := Executor.ProcessJob(base, job, Executor.ExecOk(out, err), files).payload;
            var rep := AgentRoutes.Report(d, coding, p.jobId, Some(p.output), p.status, Some(p.score), p.image);
            var view := ExamRoutes.GetResult(rep.db, job.id);
            && view == Some(ExamRoutes.ResultView(Completed, Some(out + err),
                                                  Some(AgentRoutes.QuestionsWithId(coding, job.question)[0].points),
                                                  Executor.FirstPng(files)))
            && ExamPage.PollTick(view) == ExamPage.Stop(Some("completed"), Some(out + err), Executor.FirstPng(files))
  {
    Executor.CompletedPayload(base, job, out, err, files);
    var p := Executor.ReportPayload(job.id, out + err, Executor.FirstPng(files), Completed, 0);
    ReportedPayloadIsVisible(d, coding, k, p);
    var question := AgentRoutes.QuestionsWithId(coding, job.question)[0];
    assert Single(AgentRoutes.QuestionsWithId(coding, job.question)) == Some(question);
    var view := ExamRoutes.ResultView(Completed, Some(out + err), Some(question.points), Executor.FirstPng(files));
    assert ExamPage.PollTick(Some(view)) == ExamPage.Stop(Some("completed"), Some(out + err), Executor.FirstPng(files));
  }

  /** A run the worker kills for taking too long is shown as `failed`, with
      the timeout note at the end of its output, no image and score 0. */
  lemma TimedOutRunFails(db: Db, coding: seq<CodingQuestion>, now: int, user: string, examId: string,
                         questionId: string, code: string, base: string, out: string, err: string,
                         files: seq<Executor.FileEntry>)
    requires ValidDb(db)
    requires ExamRoutes.Attempts(db.rows, examId, questionId, user) < ExamRoutes.Quota
    requires forall i :: 0 <= i < |db.rows| ==> !AgentRoutes.Candidate(db.rows[i], Executor.DefaultMode, None)
    requires |AgentRoutes.QuestionsWithId(coding, questionId)| == 1
    ensures var run := ExamRoutes.RunCode(db, now, user, examId, questionId, code, None, None);
            var claim := AgentRoutes.Claim(run.db, coding, Some(Executor.DefaultMode), None);
            var p := Executor.ProcessJob(base, claim.reply.job, Executor.ExecError(out, err, true), files).payload;
            var rep := AgentRoutes.Report(claim.db, coding, p.jobId, Some(p.output), p.status, Some(p.score), p.image);
            ExamRoutes.GetResult(rep.db, db.nextId)
            == Some(ExamRoutes.ResultView(Failed, Some(out + err + Executor.TimeoutNote), Some(0), None))
  {
    FreshJobIsClaimed(db, coding, now, user, examId, questionId, code);
    var run := ExamRoutes.RunCode(db, now, user, examId, questionId, code, None, None);
    var claim := AgentRoutes.Claim(run.db, coding, Some(Executor.DefaultMode), None);
    TimedOutJobFails(claim.db, coding, |db.rows|, claim.reply.job, base, out, err, files);
  }

  /** A claimed job that the worker kills is shown as `failed` with the
      timeout note, score 0 and no image. */
  lemma TimedOutJobFails(d: Db, coding: seq<CodingQuestion>, k: nat, job: AgentRoutes.ClaimedJob,
                         base: string, out: string, err: string, files: seq<Executor.FileEntry>)
    requires ValidDb(d) && k < |d.rows| && d.rows[k].id == job.id
    ensures var p := Executor.ProcessJob(base, job, Executor.ExecError(out, err, true), files).payload;
            var rep := AgentRoutes.Report(d, coding, p.jobId, Some(p.output), p.status, Some(p.score), p.image);
            ExamRoutes.GetResult(rep.db, job.id)
            == Some(ExamRoutes.ResultView(Failed, Some(out + err + Executor.TimeoutNote), Some(0), None))
  {
    Executor.TimeoutReport(base, job, out, err, files);
    var p := Executor.ReportPayload(job.id, out + err + Executor.TimeoutNote, None, Failed, 0);
    ReportedPayloadIsVisible(d, coding, k, p);
  }

  /** The statuses a worker reports. */
  predicate WorkerStatus(s: Status) {
    s == Completed || s == Failed
  }

  /** Neither claiming nor a worker's report ever puts a row back to
      `pending`: once a job has left the queue it does not return. */
  lemma NoReturnToPending(db: Db, coding: seq<CodingQuestion>, mode: Option<string>, filter: Option<string>,
                          id: nat, output: Option<string>, status: Status, score: Option<int>, image: Option<Bytes>)
    requires WorkerStatus(status)
    ensures var claimed := AgentRoutes.Claim(db, coding, mode, filter).db;
            forall i :: 0 <= i < |db.rows| && StatusName(db.rows[i].status) != "pending" ==> StatusName(claimed.rows[i].status) != "pending"
    ensures var reported := AgentRoutes.Report(db, coding, id, output, status, score, image).db;
            forall i :: 0 <= i < |db.rows| && StatusName(db.rows[i].status) != "pending" ==> StatusName(reported.rows[i].status) != "pending"
  {
  }

  /** A job whose question has disappeared is marked running and answered
      with a 404, which the worker treats as a failed poll: no result is
      posted, and no later claim, in any mode, hands the job out again. */
  lemma StuckJobStaysRunning(db: Db, coding: seq<CodingQuestion>, mode: Option<string>, filter: Option<string>,
                             mode2: Option<string>, filter2: Option<string>)
    requires AgentRoutes.Claim(db, coding, mode, filter).reply.QuestionNotFound?
    ensures var claim := AgentRoutes.Claim(db, coding, mode, filter);
            var cands := AgentRoutes.Candidates(db, OrDefault(mode, ExamRoutes.DefaultMode), filter);
            && Executor.Poll(Executor.ResponseOf(claim.reply)).process.None?
            && (forall i :: 0 <= i < |claim.db.rows| && claim.db.rows[i].id == cands[0].id ==> claim.db.rows[i].status == Running)
            && (forall c :: c in AgentRoutes.Candidates(claim.db, OrDefault(mode2, ExamRoutes.DefaultMode), filter2) ==> c.id != cands[0].id)
  {
  }

  // ---------------------------------------------------------------------
  // Sequential runs

  /** One request in a sequential run of the system: a worker's poll, a
      worker's report, a student's run, or a student's save. */
  datatype Op =
    | ClaimOp(mode: Option<string>, filter: Option<string>)
    | ReportOp(jobId: nat, output: Option<string>, status: Status, score: Option<int>, image: Option<Bytes>)
    | RunOp(now: int, user: string, exam: string, question: string, code: string, input: Option<string>, mode: Option<string>)
    | SaveOp(now: int, user: string, exam: string, question: string, code: string, input: Option<string>)

  /** The table after one request, through the route that serves it. */
  function Perform(db: Db, coding: seq<CodingQuestion>, op: Op): Db {
    match op
    case ClaimOp(mode, filter) => AgentRoutes.Claim(db, coding, mode, filter).db
    case ReportOp(id, output, status, score, image) => AgentRoutes.Report(db, coding, id, output, status, score, image).db
    case RunOp(now, user, exam, question, code, input, mode) => ExamRoutes.RunCode(db, now, user, exam, question, code, input, mode).db
    case SaveOp(now, user, exam, question, code, input) => ExamRoutes.SaveCode(db, now, user, exam, question, code, input).db
  }

  /** The table after the requests, served one after another. */
  function Apply(db: Db, coding: seq<CodingQuestion>, ops: seq<Op>): Db
    decreases |ops|
  {
    if |ops| == 0 then db else Apply(Perform(db, coding, ops[0]), coding, ops[1..])
  }

  /** Every report in the run carries a status the worker sends. */
  predicate WorkerReports(ops: seq<Op>) {
    forall k :: 0 <= k < |ops| && ops[k].ReportOp? ==> WorkerStatus(ops[k].status)
  }

  /** No report in the run names the job. */
  predicate NoReportFor(ops: seq<Op>, id: nat) {
    forall k :: 0 <= k < |ops| && ops[k].ReportOp? ==> ops[k].jobId != id
  }

  /** The job has left the queue: no row with its identifier is pending, and
      identifiers handed to new rows are above it. */
  predicate LeftQueue(db: Db, id: nat) {
    && id < db.nextId
    && forall i :: 0 <= i < |db.rows| && db.rows[i].id == id ==> StatusName(db.rows[i].status) != "pending"
  }

  /** Every row with the identifier is `running`, and new rows get higher
      identifiers. */
  predicate StillRunning(db: Db, id: nat) {
    && id < db.nextId
    && forall i :: 0 <= i < |db.rows| && db.rows[i].id == id ==> db.rows[i].status == Running
  }

  /** A job that has left the queue is no poll's candidate, in any mode. */
  lemma NotACandidate(db: Db, id: nat, mode: string, filter: Option<string>)
    requires LeftQueue(db, id)
    ensures forall c :: c in AgentRoutes.Candidates(db, mode, filter) ==> c.id != id
  {
    AgentRoutes.CandidatesInOrder(db, mode, filter);
    forall c | c in AgentRoutes.Candidates(db, mode, filter) ensures c.id != id {
      var i :| 0 <= i < |db.rows| && db.rows[i] == c;
    }
  }

  /** One request keeps a job out of the queue, provided a report carries a
      worker's status. */
  lemma PerformKeepsLeftQueue(db: Db, coding: seq<CodingQuestion>, op: Op, id: nat)
    requires LeftQueue(db, id)
    requires op.ReportOp? ==> WorkerStatus(op.status)
    ensures LeftQueue(Perform(db, coding, op), id)
  {
    match op
    case ClaimOp(mode, filter) =>
      NoReturnToPending(db, coding, mode, filter, id, None, Completed, None, None);
    case ReportOp(jobId, output, status, score, image) =>
      NoReturnToPending(db, coding, None, None, jobId, output, status, score, image);
    case RunOp(now, user, exam, question, code, input, mode) =>
    case SaveOp(now, user, exam, question, code, input) =>
  }

  /** One request that does not report the job keeps it running. */
  lemma PerformKeepsRunning(db: Db, coding: seq<CodingQuestion>, op: Op, id: nat)
    requires StillRunning(db, id)
    requires op.ReportOp? ==> op.jobId != id
    ensures StillRunning(Perform(db, coding, op), id)
  {
  }

  /** Once out of the queue, a job stays out through any run whose reports
      come from the worker. */
  lemma {:induction false} LeftQueueStays(db: Db, coding: seq<CodingQuestion>, ops: seq<Op>, id: nat)
    requires LeftQueue(db, id) && WorkerReports(ops)
    ensures LeftQueue(Apply(db, coding, ops), id)
    decreases |ops|
  {
    if |ops| > 0 {
      PerformKeepsLeftQueue(db, coding, ops[0], id);
      assert WorkerReports(ops[1..]) by {
        forall k | 0 <= k < |ops[1..]| ensures ops[1..][k] == ops[k + 1] { }
      }
      LeftQueueStays(Perform(db, coding, ops[0]), coding, ops[1..], id);
    }
  }

  /** A running job stays running through any run that does not report it. */
  lemma {:induction false} RunningStays(db: Db, coding: seq<CodingQuestion>, ops: seq<Op>, id: nat)
    requires StillRunning(db, id) && NoReportFor(ops, id)
    ensures StillRunning(Apply(db, coding, ops), id)
    decreases |ops|
  {
    if |ops| > 0 {
      PerformKeepsRunning(db, coding, ops[0], id);
      assert NoReportFor(ops[1..], id) by {
        forall k | 0 <= k < |ops[1..]| ensures ops[1..][k] == ops[k + 1] { }
      }
      RunningStays(Perform(db, coding, ops[0]), coding, ops[1..], id);
    }
  }

  /** In a sequential run, a job one poll hands out is never handed out by a
      later poll, in any mode and after any claims, runs, saves and worker
      reports in between. */
  lemma NeverReclaimed(db: Db, coding: seq<CodingQuestion>, mode: Option<string>, filter: Option<string>,
                       ops: seq<Op>, mode2: Option<string>, filter2: Option<string>)
    requires ValidDb(db)
    requires AgentRoutes.Claim(db, coding, mode, filter).reply.Job?
    requires WorkerReports(ops)
    ensures var first := AgentRoutes.Claim(db, coding, mode, filter);
            var later := Apply(first.db, coding, ops);
            && LeftQueue(later, first.reply.job.id)
            && (forall c :: c in AgentRoutes.Candidates(later, OrDefault(mode2, ExamRoutes.DefaultMode), filter2) ==> c.id != first.reply.job.id)
            && var again := AgentRoutes.Claim(later, coding, mode2, filter2);
               again.reply.Job? ==> again.reply.job.id != first.reply.job.id
  {
    var first := AgentRoutes.Claim(db, coding, mode, filter);
    var m := OrDefault(mode, ExamRoutes.DefaultMode);
    var cands := AgentRoutes.Candidates(db, m, filter);
    AgentRoutes.CandidatesInOrder(db, m, filter);
    var id := cands[0].id;
    assert first.reply.job.id == id;
    assert LeftQueue(first.db, id);
    LeftQueueStays(first.db, coding, ops, id);
    var later := Apply(first.db, coding, ops);
    var m2 := OrDefault(mode2, ExamRoutes.DefaultMode);
    NotACandidate(later, id, m2, filter2);
    var again := AgentRoutes.Claim(later, coding, mode2, filter2);
    if again.reply.Job? {
      assert AgentRoutes.Candidates(later, m2, filter2)[0] in AgentRoutes.Candidates(later, m2, filter2);
    }
  }

  /** A job whose question has disappeared stays `running` through any
      sequential run that does not report it, and no later poll, in any mode,
      hands it out. */
  lemma StuckJobNeverResumes(db: Db, coding: seq<CodingQuestion>, mode: Option<string>, filter: Option<string>,
                             ops: seq<Op>, mode2: Option<string>, filter2: Option<string>)
    requires ValidDb(db)
    requires AgentRoutes.Claim(db, coding, mode, filter).reply.QuestionNotFound?
    requires NoReportFor(ops, AgentRoutes.Candidates(db, OrDefault(mode, ExamRoutes.DefaultMode), filter)[0].id)
    ensures var id := AgentRoutes.Candidates(db, OrDefault(mode, ExamRoutes.DefaultMode), filter)[0].id;
            var later := Apply(AgentRoutes.Claim(db, coding, mode, filter).db, coding, ops);
            && StillRunning(later, id)
            && (forall c :: c in AgentRoutes.Candidates(later, OrDefault(mode2, ExamRoutes.DefaultMode), filter2) ==> c.id != id)
            && var again := AgentRoutes.Claim(later, coding, mode2, filter2);
               again.reply.Job? ==> again.reply.job.id != id
  {
    var m := OrDefault(mode, ExamRoutes.DefaultMode);
    var cands := AgentRoutes.Candidates(db, m, filter);
    AgentRoutes.CandidatesInOrder(db, m, filter);
    var id := cands[0].id;
    var first := AgentRoutes.Claim(db, coding, mode, filter);
    assert StillRunning(first.db, id);
    RunningStays(first.db, coding, ops, id);
    var later := Apply(first.db, coding, ops);
    var m2 := OrDefault(mode2, ExamRoutes.DefaultMode);
    NotACandidate(later, id, m2, filter2);
    var again := AgentRoutes.Claim(later, coding, mode2, filter2);
    if again.reply.Job? {
      assert AgentRoutes.Candidates(later, m2, filter2)[0] in AgentRoutes.Candidates(later, m2, filter2);
    }
  }
}

=== FILE: schema.dfy ===
/** The records the routes read and write, with the database reduced to
    in-memory sequences of rows. */
module Schema {
  import opened Common

  type Bytes = seq<bv8>

  /** A submission's `status` column. The report route stores whatever status
      text the worker sends, so any other text is kept as `Other`. */
  datatype Status = Pending | Running | Completed | Failed | Submitted | Other(name: string)

  function StatusName(s: Status): string {
    match s
    case Pending => "pending"
    case Running => "running"
    case Completed => "completed"
    case Failed => "failed"
    case Submitted => "submitted"
    case Other(name) => name
  }

  function ParseStatus(t: string): (s: Status)
    ensures StatusName(s) == t
  {
    if t == "pending" then Pending
    else if t == "running" then Running
    else if t == "completed" then Completed
    else if t == "failed" then Failed
    else if t == "submitted" then Submitted
    else Other(t)
  }

  /** A status is in canonical form unless it is `Other` spelling a known name. */
  predicate Canonical(s: Status) {
    s.Other? ==> s.name !in {"pending", "running", "completed", "failed", "submitted"}
  }

  lemma ParseStatusName(s: Status)
    requires Canonical(s)
    ensures ParseStatus(StatusName(s)) == s
  {
  }

  /** One row of the `submissions` table. `mode` is `execution_mode`,
      `image` is `image_data` (kept as raw bytes), `createdAt` is `created_at`. */
  datatype Submission = Submission(
    id: nat,
    user: string,
    exam: string,
    question: string,
    code: string,
    input: Option<string>,
    mode: Option<string>,
    status: Status,
    output: Option<string>,
    image: Option<Bytes>,
    score: Option<int>,
    createdAt: int)

  /** The `submissions` table; `nextId` is the next identifier the database
      hands out. */
  datatype Db = Db(rows: seq<Submission>, nextId: nat)

  /** Identifiers are unique and all below `nextId`. */
  ghost predicate ValidDb(db: Db) {
    && (forall i, j :: 0 <= i < j < |db.rows| ==> db.rows[i].id != db.rows[j].id)
    && (forall i :: 0 <= i < |db.rows| ==> db.rows[i].id < db.nextId)
  }

  /** The rows with the given identifier (`.eq('id', id)`). */
  function RowsWithId(db: Db, id: nat): seq<Submission> {
    Filter(db.rows, (r: Submission) => r.id == id)
  }

  /** A row of the `exams` table (only the columns the core reads). */
  datatype Exam = Exam(id: string, title: string, isActive: bool)

  /** A row of the `coding_questions` table. `testCases` is opaque JSON text. */
  datatype CodingQuestion = CodingQuestion(
    id: string, exam: string, title: string, description: string,
    initialCode: string, solutionCode: string, testCases: string, points: int)

  /** A quiz question's `type` column: the three graded types, or any other
      text the table holds. */
  datatype QuizType = Mcq | TrueFalse | Short | OtherType(name: string)

  /** The text stored in the `type` column. */
  function QuizTypeName(t: QuizType): string {
    match t
    case Mcq => "mcq"
    case TrueFalse => "true_false"
    case Short => "short"
    case OtherType(name) => name
  }

  /** Reading the `type` column: every text is some quiz type and reads back
      unchanged. */
  function ParseQuizType(name: string): (t: QuizType)
    ensures QuizTypeName(t) == name
  {
    if name == "mcq" then Mcq
    else if name == "true_false" then TrueFalse
    else if name == "short" then Short
    else OtherType(name)
  }

  /** The three graded types round-trip through their names. */
  lemma ParseQuizTypeName(t: QuizType)
    requires !t.OtherType? || t.name !in {"mcq", "true_false", "short"}
    ensures ParseQuizType(QuizTypeName(t)) == t
  {
  }

  /** A row of the `quiz_questions` table; a null `correct_answer` is `None`. */
  datatype QuizQuestion = QuizQuestion(
    id: string, exam: string, qtype: QuizType, question: string,
    options: seq<string>, correctAnswer: Option<string>, points: int)

  /** A row of the `quiz_submissions` table. */
  datatype QuizSubmission = QuizSubmission(
    user: string, exam: string, question: string, answer: string,
    isCorrect: bool, score: Option<int>)

  /** A row of the `blocked_students` table. */
  datatype BlockRow = BlockRow(exam: string, user: string, reason: Option<string>)

  /** The result of a route that also changes the submissions table. */
  datatype Step<R> = Step(db: Db, reply: R)
}

=== FILE: text.dfy ===
/** The JavaScript string operations the routes and pages use: `trim`, `toLowerCase`,
    `endsWith`, `split` on one character, and decimal formatting of a count. */
module Text {

  /** The characters JavaScript's `trim` removes (white space and line
      terminators). */
  predicate IsSpace(c: char) {
    || c == ' ' || c == '\t' || c == '\n' || c == '\r'
    || c == '\U{0B}' || c == '\U{0C}' || c == '\U{A0}' || c == '\U{FEFF}'
    || c == '\U{1680}' || ('\U{2000}' <= c <= '\U{200A}')
    || c == '\U{2028}' || c == '\U{2029}' || c == '\U{202F}'
    || c == '\U{205F}' || c == '\U{3000}'
  }

  predicate AllSpace(s: string) {
    forall i :: 0 <= i < |s| ==> IsSpace(s[i])
  }

  /** `s` with its leading white space removed: a suffix of `s`. */
  function TrimStart(s: string): (r: string)
    ensures |r| <= |s| && r == s[|s| - |r|..]
    ensures AllSpace(s[..|s| - |r|])
    ensures |r| > 0 ==> !IsSpace(r[0])
    decreases |s|
  {
    if |s| > 0 && IsSpace(s[0]) then TrimStart(s[1..]) else s
  }

  /** `s` with its trailing white space removed: a prefix of `s`. */
  function TrimEnd(s: string): (r: string)
    ensures |r| <= |s| && r == s[..|r|]
    ensures AllSpace(s[|r|..])
    ensures |r| > 0 ==> !IsSpace(r[|r| - 1])
    decreases |s|
  {
    if |s| > 0 && IsSpace(s[|s| - 1]) then TrimEnd(s[..|s| - 1]) else s
  }

  /** JavaScript's `String.prototype.trim`. */
  function Trim(s: string): (r: string)
    ensures |r| > 0 ==> !IsSpace(r[0]) && !IsSpace(r[|r| - 1])
  {
    TrimEnd(TrimStart(s))
  }

  /** `trim` returns the empty string exactly for all-white-space input. */
  lemma TrimEmpty(s: string)
    ensures Trim(s) == "" <==> AllSpace(s)
  {
    var t := TrimStart(s);
    var r := Trim(s);
    if |r| == 0 {
      assert AllSpace(t[0..]);
      assert |t| == 0;
      assert s[..|s|] == s;
    } else {
      assert r[0] == t[0] == s[|s| - |t|];
    }
  }

  lemma {:induction false} TrimStartAppend(a: string, b: string)
    ensures TrimStart(a + b) == if AllSpace(a) then TrimStart(b) else TrimStart(a) + b
    decreases |a|
  {
    if |a| == 0 {
      assert a + b == b;
    } else if IsSpace(a[0]) {
      var rest := a[1..];
      assert (a + b)[0] == a[0];
      assert (a + b)[1..] == rest + b;
      assert TrimStart(a + b) == TrimStart(rest + b);
      assert TrimStart(a) == TrimStart(rest);
      TrimStartAppend(rest, b);
      SpaceHead(a);
    } else {
      assert (a + b)[0] == a[0];
      assert TrimStart(a + b) == a + b;
      assert TrimStart(a) == a;
    }
  }

  lemma SpaceHead(a: string)
    requires |a| > 0 && IsSpace(a[0])
    ensures AllSpace(a) <==> AllSpace(a[1..])
  {
    if AllSpace(a[1..]) {
      forall i | 0 <= i < |a| ensures IsSpace(a[i]) {
        if i > 0 { assert a[i] == a[1..][i - 1]; }
      }
    }
  }

  lemma TrimEndAppend(a: string, b: string)
    requires AllSpace(b)
    ensures TrimEnd(a + b) == TrimEnd(a)
    decreases |b|
  {
    if |b| == 0 {
      assert a + b == a;
    } else {
      assert (a + b)[..|a + b| - 1] == a + b[..|b| - 1];
      TrimEndAppend(a, b[..|b| - 1]);
    }
  }

  /** Surrounding white space never changes what `trim` returns. */
  lemma {:induction false} TrimIgnoresPadding(pre: string, s: string, post: string)
    requires AllSpace(pre) && AllSpace(post)
    ensures Trim(pre + s + post) == Trim(s)
  {
    assert pre + s + post == pre + (s + post);
    TrimStartAppend(pre, s + post);
    TrimStartAppend(s, post);
    if !AllSpace(s) {
      TrimEndAppend(TrimStart(s), post);
    } else {
      assert AllSpace(s + post);
      TrimStartAppend(s + post, []);
      assert s + post + [] == s + post;
    }
  }

  /** Lower-casing of one character (ASCII letters only). */
  function LowerChar(c: char): char {
    if 'A' <= c <= 'Z' then (c as int + 32) as char else c
  }

  /** `String.prototype.toLowerCase`, on the ASCII letters. */
  function Lower(s: string): (r: string)
    ensures |r| == |s|
    ensures forall i :: 0 <= i < |s| ==> r[i] == LowerChar(s[i])
  {
    seq(|s|, i requires 0 <= i < |s| => LowerChar(s[i]))
  }

  lemma LowerIdempotent(s: string)
    ensures Lower(Lower(s)) == Lower(s)
  {
  }

  /** Lower-casing keeps white space where it is, so it commutes with `trim`. */
  lemma {:induction false} TrimStartLower(s: string)
    ensures TrimStart(Lower(s)) == Lower(TrimStart(s))
    decreases |s|
  {
    if |s| > 0 {
      assert Lower(s)[1..] == Lower(s[1..]);
      assert IsSpace(Lower(s)[0]) == IsSpace(s[0]);
      TrimStartLower(s[1..]);
    }
  }

  lemma {:induction false} TrimEndLower(s: string)
    ensures TrimEnd(Lower(s)) == Lower(TrimEnd(s))
    decreases |s|
  {
    if |s| > 0 {
      assert Lower(s)[..|s| - 1] == Lower(s[..|s| - 1]);
      assert IsSpace(Lower(s)[|s| - 1]) == IsSpace(s[|s| - 1]);
      TrimEndLower(s[..|s| - 1]);
    }
  }

  lemma TrimLower(s: string)
    ensures Trim(Lower(s)) == Lower(Trim(s))
  {
    TrimStartLower(s);
    TrimEndLower(TrimStart(s));
  }

  /** `String.prototype.startsWith`. */
  predicate StartsWith(s: string, prefix: string) {
    |prefix| <= |s| && s[..|prefix|] == prefix
  }

  /** `String.prototype.endsWith`. */
  predicate EndsWith(s: string, suffix: string) {
    |suffix| <= |s| && s[|s| - |suffix|..] == suffix
  }

  /** `String.prototype.split` on a one-character separator: always at least
      one piece, and no piece holds the separator. */
  function Split(s: string, sep: char): (r: seq<string>)
    ensures |r| >= 1
    ensures forall k :: 0 <= k < |r| ==> sep !in r[k]
    decreases |s|
  {
    if |s| == 0 then [""]
    else
      var rest := Split(s[1..], sep);
      if s[0] == sep then [""] + rest
      else [[s[0]] + rest[0]] + rest[1..]
  }

  /** The inverse of `Split`: the pieces glued back with the separator. */
  function Join(parts: seq<string>, sep: char): string
    decreases |parts|
  {
    if |parts| == 0 then ""
    else if |parts| == 1 then parts[0]
    else parts[0] + [sep] + Join(parts[1..], sep)
  }

  lemma {:induction false} JoinSplit(s: string, sep: char)
    ensures Join(Split(s, sep), sep) == s
    decreases |s|
  {
    if |s| > 0 {
      var rest := Split(s[1..], sep);
      JoinSplit(s[1..], sep);
      if s[0] == sep {
        assert Join([""] + rest, sep) == "" + [sep] + Join(rest, sep);
      } else {
        var r := [[s[0]] + rest[0]] + rest[1..];
        if |rest| == 1 {
          assert Join(r, sep) == [s[0]] + rest[0];
        } else {
          assert r[1..] == rest[1..];
          assert Join(rest, sep) == rest[0] + [sep] + Join(rest[1..], sep);
          assert Join(r, sep) == [s[0]] + rest[0] + [sep] + Join(rest[1..], sep);
        }
        assert s == [s[0]] + s[1..];
      }
    }
  }

  /** A string without the separator is one piece. */
  lemma {:induction false} SplitNoSep(w: string, sep: char)
    requires sep !in w
    ensures Split(w, sep) == [w]
    decreases |w|
  {
    if |w| > 0 {
      SplitNoSep(w[1..], sep);
      assert w == [w[0]] + w[1..];
    }
  }

  /** A piece followed by the separator splits off in front of the rest. */
  lemma {:induction false} SplitAfterPiece(w: string, rest: string, sep: char)
    requires sep !in w
    ensures Split(w + [sep] + rest, sep) == [w] + Split(rest, sep)
    decreases |w|
  {
    var s := w + [sep] + rest;
    if |w| == 0 {
      assert s == [sep] + rest;
      assert s[1..] == rest;
    } else {
      assert s[0] == w[0];
      assert s[1..] == w[1..] + [sep] + rest;
      SplitAfterPiece(w[1..], rest, sep);
      assert w == [w[0]] + w[1..];
    }
  }

  /** The other round trip: pieces free of the separator, joined, split back
      into the same pieces. */
  lemma {:induction false} SplitJoin(parts: seq<string>, sep: char)
    requires |parts| >= 1
    requires forall k :: 0 <= k < |parts| ==> sep !in parts[k]
    ensures Split(Join(parts, sep), sep) == parts
    decreases |parts|
  {
    if |parts| == 1 {
      SplitNoSep(parts[0], sep);
    } else {
      SplitJoin(parts[1..], sep);
      SplitAfterPiece(parts[0], Join(parts[1..], sep), sep);
      assert parts == [parts[0]] + parts[1..];
    }
  }

  /** Every character of `s` other than the separator lands in some piece. */
  lemma {:induction false} SplitKeepsChars(s: string, sep: char, i: nat)
    requires i < |s| && s[i] != sep
    ensures exists k :: 0 <= k < |Split(s, sep)| && s[i] in Split(s, sep)[k]
    decreases |s|
  {
    var r := Split(s, sep);
    var rest := Split(s[1..], sep);
    if i == 0 {
      assert s[0] in r[0];
    } else {
      SplitKeepsChars(s[1..], sep, i - 1);
      var k :| 0 <= k < |rest| && s[1..][i - 1] in rest[k];
      if s[0] == sep {
        assert r[k + 1] == rest[k];
      } else if k == 0 {
        assert r[0] == [s[0]] + rest[0];
        assert s[i] in r[0];
      } else {
        assert r[k] == rest[k];
      }
    }
  }

  function DigitChar(d: nat): char
    requires d < 10
  {
    ('0' as int + d) as char
  }

  /** Decimal representation of a count, as JavaScript prints it. */
  function NatToString(n: nat): (r: string)
    ensures |r| >= 1
    ensures forall i :: 0 <= i < |r| ==> '0' <= r[i] <= '9'
    decreases n
  {
    if n < 10 then [DigitChar(n)] else NatToString(n / 10) + [DigitChar(n % 10)]
  }

  /** The value a string of decimal digits denotes. */
  function DigitsValue(s: string): nat
    requires forall i :: 0 <= i < |s| ==> '0' <= s[i] <= '9'
    decreases |s|
  {
    if |s| == 0 then 0
    else 10 * DigitsValue(s[..|s| - 1]) + (s[|s| - 1] as int - '0' as int)
  }

  lemma {:induction false} NatToStringValue(n: nat)
    ensures DigitsValue(NatToString(n)) == n
    decreases n
  {
    var r := NatToString(n);
    if n < 10 {
      assert r == [DigitChar(n)];
    } else {
      NatToStringValue(n / 10);
      assert r[..|r| - 1] == NatToString(n / 10);
      assert r[|r| - 1] as int - '0' as int == n % 10;
    }
  }
}
